=== FILE: README.md ===
# Dafny model of the X / Truth Social / StockTitan relay bots

Two Python polling bots forward posts to a Telegram channel:

- `auto_x_to_telegram_v2.py` follows X (Twitter) accounts and a Truth Social
  RSS feed. It translates each post to Korean while protecting emoji and URLs.
  It then sends the post, with its photos, to Telegram.
- `stocktitan_trending_crawler.py` scrapes the StockTitan "trending" page. It
  picks the top seven articles, flags those new to the ranking and sends each
  article not sent in the last seven days.

This project models the pure decision and string logic of both bots as Dafny
functions over immutable values and proves what that logic guarantees. The
network, the browser, the Telegram and translation services, the clock and
the JSON state files are not modelled. Whatever they would return is a
parameter: a reply, an `Attempt`, a `delivered` predicate, a timestamp
`now`. Persistent state is passed in and returned as a value.

Modules, one per component:

| module | file | component |
|---|---|---|
| `Wrappers`, `Seqs`, `Text` | wrappers.dfy, seqs.dfy, text.dfy | `Option`; generic sequence helpers (first occurrence per key, filter, flatten, take, slices in order); Python `str.strip` and whitespace, case folding for `re.IGNORECASE`, decimal rendering |
| `Masking`, `MaskingProofs` | masking.dfy | emoji and URL placeholders for translation, and their restoration |
| `Template` | template.dfy | replacement templates of Python's `re.sub`: escapes, `\g<0>`, and the templates that raise |
| `Translation` | translation.dfy | engine fallback chain, GPT wrapper, MyMemory chunking, sentence splitter, the preserving pipeline |
| `Dispatch` | dispatch.dfy | photo / album / caption plan of a Telegram send |
| `Retry` | retry.dfy | which failures `call_with_retry` retries and which it raises |
| `Timeline` | timeline.dfy | long-text crawl acceptance, timeline pagination and replay order |
| `Cursor` | cursor.dfy | per-user tweet-id cursor: warm start and one user's turn |
| `Html`, `TruthFeed` | html.dfy, feed.dfy | RSS text cleaning, timestamp marker, first-run backfill, image URL collection |
| `Articles` | articles.dfy | article URL recognition and normalisation, top-seven selection |
| `Recency` | recency.dfy | seven-day "recently sent" window, rank diff, one main-loop cycle |
| `Cleanup` | cleanup.dfy | bullet splitting, case-insensitive dedup, article-body section classification |

Where the code and its own comments disagree, the code is followed. The
docstring of `iterate_user_tweets` (auto_x_to_telegram_v2.py:533) and the
comment at auto_x_to_telegram_v2.py:566 say that tweets are yielded oldest
first. The code replays pages in the order fetched, newest page first,
reversing only within each page. `Timeline.ReplayAsWritten` models the code,
and the discrepancy is listed under Findings.

Members that model the code as written and members that model a corrected
version sit side by side. A "states" cell that opens with "corrected" belongs
to a corrected member and names its row under Findings; every other row
describes the code as written.

## Model

| member | source | states |
|---|---|---|
| Text.Strip | auto_x_to_telegram_v2.py:394-395 | the result is a contiguous slice of the input with only whitespace cut from both ends; it is empty exactly when the input is all whitespace, and otherwise starts and ends with non-whitespace |
| Text.NonSpaceStrip | auto_x_to_telegram_v2.py:394-395 | stripping never removes a non-whitespace character |
| Text.DigitsInjective | auto_x_to_telegram_v2.py:314-316 | distinct placeholder numbers render as distinct decimal strings, so no two placeholders of one kind share a tag |
| Masking.ClassRun | auto_x_to_telegram_v2.py:39-40 | the match of a repeated character class is the longest run of class characters: every character inside is in the class and the next one is not |
| Masking.SchemeLen | auto_x_to_telegram_v2.py:40 | a URL match opens with `http://` or `https://` (case-insensitive, 7 or 8 characters) followed by at least one allowed URL character, with no `]` in the scheme |
| Masking.SpanAt | auto_x_to_telegram_v2.py:39-40 | an emoji match starts exactly at an emoji code point and contains only emoji; a URL match starts with `http` (case-insensitive) and never contains `]`; a match never runs past the text |
| MaskingProofs.EmojiMaskContents | auto_x_to_telegram_v2.py:312-318 | the emoji runs taken out are nonempty runs of emoji whose concatenation is exactly the emoji of the text, in order, and the masked text keeps no emoji |
| MaskingProofs.TagFolds | auto_x_to_telegram_v2.py:320-324 | the restorer's case-insensitive pattern matches the placeholder the masker wrote, character for character |
| MaskingProofs.NoMatchInOtherTag | auto_x_to_telegram_v2.py:320-324 | the pattern for placeholder j matches nowhere inside placeholder m for m != j, so restoring `[EMOJI_1]` cannot touch `[EMOJI_10]` |
| MaskingProofs.ReplaceAbsent | auto_x_to_telegram_v2.py:320-324 | a substitution whose pattern does not occur leaves the text unchanged |
| MaskingProofs.RestoreInvertsMask | auto_x_to_telegram_v2.py:312-339 | for text that does not already contain the placeholder prefix, and whose spans hold no backslash, restoring the masked text with the collected spans puts every span back in place: emoji as they were, URLs padded with one space on each side |
| MaskingProofs.RestoreRaises | auto_x_to_telegram_v2.py:334-339 | a span whose replacement template does not compile makes the restore raise, whatever text it is applied to |
| MaskingProofs.EmojiRoundTrip | auto_x_to_telegram_v2.py:312-324 | restoring emoji after masking them gives back the original text exactly, when the text has no `[EMOJI_` of its own |
| MaskingProofs.UnmaskedUrlOnlyAddsSpaces | auto_x_to_telegram_v2.py:326-339 | padding every URL with spaces, which is what the URL restore yields when no URL holds a backslash, changes nothing but whitespace: the non-whitespace characters are those of the original |
| MaskingProofs.UrlRoundTripPads | auto_x_to_telegram_v2.py:334-339 | the URL round trip is not the identity: `http://a` comes back as ` http://a ` |
| MaskingProofs.UrlBackslashHalved | auto_x_to_telegram_v2.py:338 | a URL is used as a replacement template, so a doubled backslash in it comes back as one: `http://a\\b` is restored as ` http://a\b ` |
| MaskingProofs.UrlBadEscapeRaises | auto_x_to_telegram_v2.py:338 | a URL holding `\d` makes the URL restore raise instead of restoring it |
| MaskingProofs.LiteralRestoreInvertsMask | auto_x_to_telegram_v2.py:312-339 | corrected (Findings row 6): restoring each span as literal text puts every span back in place for any span contents |
| MaskingProofs.ProtectFindsNothing | auto_x_to_telegram_v2.py:350-361 | either masking order masks nothing exactly when the text has no emoji character and no URL, and then hands the text on unchanged |
| MaskingProofs.ProtectOrdersAgree | auto_x_to_telegram_v2.py:350-361 | on text without an emoji character, masking emoji first and masking URLs first give the same masked text and spans |
| MaskingProofs.MaskKeepsOtherPrefixAbsent | auto_x_to_telegram_v2.py:350-361 | masking one kind of span never creates the placeholder prefix of the other kind, so the second masking pass cannot mistake the first pass's placeholders for its own |
| MaskingProofs.AsWrittenLosesEmoji | auto_x_to_telegram_v2.py:350-361 | with emoji masked before URLs, an emoji directly after a URL is swallowed into the URL and never restored: `http://😀` comes back as ` http://[EMOJI_0 ]` with no emoji left |
| MaskingProofs.ProtectRoundTrip | auto_x_to_telegram_v2.py:350-361 | corrected (Findings row 1): with URLs masked first and no backslash in any URL, the round trip restores every emoji and URL, and differs from the original only by the spaces padded around URLs |
| Template.ExpandPlain | auto_x_to_telegram_v2.py:338 | a replacement without a backslash compiles to its own characters |
| Template.SubLiteral | auto_x_to_telegram_v2.py:320-324 | substituting a backslash-free replacement replaces every case-insensitive match, left to right, by the replacement's text |
| Template.ExpandDoubleBackslash | auto_x_to_telegram_v2.py:338 | a doubled backslash in a replacement compiles to a single backslash |
| Template.ExpandBadEscape | auto_x_to_telegram_v2.py:338 | a backslash before an ASCII letter that is not an escape makes compiling the replacement raise, wherever it stands |
| Translation.Translate | auto_x_to_telegram_v2.py:341-348 | no contract of its own: the first result of GPT, MyMemory, Microsoft and DeepL in that order; see Translation.FirstSuccess, TranslateBlank, TranslateNone and TranslateFallsBackToMyMemory |
| Translation.FirstSuccess | auto_x_to_telegram_v2.py:341-348 | the chain yields nothing exactly when every engine raised; otherwise it yields the text some engine returned |
| Translation.FirstSuccessIsFirstReturned | auto_x_to_telegram_v2.py:341-348 | the text used is that of the first engine, in chain order, that returned |
| Translation.Gpt | auto_x_to_telegram_v2.py:363-395 | blank input is returned unchanged without a request; otherwise the call raises exactly when the request raises, and returns the reply with only its leading and trailing whitespace cut (a contiguous slice of the reply, so whitespace inside is kept), empty exactly when the reply is all whitespace |
| Translation.TranslateBlank | auto_x_to_telegram_v2.py:369-370 | blank text is "translated" to itself by the first engine |
| Translation.TranslateNone | auto_x_to_telegram_v2.py:341-348 | translation fails exactly when the text is not blank and GPT, MyMemory, Microsoft and DeepL all raise |
| Translation.TranslateFallsBackToMyMemory | auto_x_to_telegram_v2.py:341-348 | when GPT raises and MyMemory returns, MyMemory's text is the translation |
| Translation.SplitSentences | auto_x_to_telegram_v2.py:452-472 | no contract of its own; see Translation.SplitPiecesShape, SplitKeepsNonSpace and SplitKeepsTerminators |
| Translation.SplitPiecesShape | auto_x_to_telegram_v2.py:452-472 | every sentence is nonempty with no surrounding whitespace, and every sentence but the last ends with `.`, `!` or `?` |
| Translation.SplitKeepsNonSpace | auto_x_to_telegram_v2.py:452-472 | splitting into sentences loses only whitespace: the sentences' non-whitespace characters are the text's, in order |
| Translation.SplitKeepsTerminators | auto_x_to_telegram_v2.py:452-472 | each terminator character occurs as often in the sentences as in the text |
| Translation.PackKeepsSentences | auto_x_to_telegram_v2.py:403-424 | packing sentences into chunks keeps every sentence, in order, with none split or dropped |
| Translation.PackChunkBounds | auto_x_to_telegram_v2.py:403-424 | every chunk is at most 430 characters unless it is a single sentence that is longer by itself |
| Translation.PackIsGreedy | auto_x_to_telegram_v2.py:403-424 | a chunk is closed only when the next sentence would push it past 430 characters |
| Translation.RequestsShape | auto_x_to_telegram_v2.py:397-424 | text up to 430 characters goes out as one request; longer text goes out as the greedy, bounded chunks of its sentences, which together keep all its non-whitespace characters |
| Translation.ChunkTranslations | auto_x_to_telegram_v2.py:411-430 | collecting chunk translations fails exactly when some chunk's request raised; the pieces kept are the nonempty ones, and none is kept exactly when every chunk came back empty |
| Translation.MyMemory | auto_x_to_telegram_v2.py:397-433 | no contract of its own; see Translation.RequestsShape, ChunkTranslations and MyMemoryRaises |
| Translation.MyMemoryRaises | auto_x_to_telegram_v2.py:397-433 | MyMemory raises exactly when a chunk request raises or every chunk came back empty |
| Translation.Finish | auto_x_to_telegram_v2.py:356-361 | no translation is reported exactly when no engine translated and nothing was masked; a translation is the restore of the engine's text |
| Translation.TranslatePreserving | auto_x_to_telegram_v2.py:350-361 | as written, with emoji masked first, the pipeline reports no translation only for text with no emoji character and no URL |
| Translation.TranslatePreservingFailure | auto_x_to_telegram_v2.py:341-361 | as written, when every engine fails the pipeline crashes exactly when the original holds an emoji character or a URL, and otherwise reports no translation; it reports no translation only when no engine translated the original and it holds neither |
| Translation.TranslatePreservingCorrected | auto_x_to_telegram_v2.py:350-361 | corrected (Findings row 1): with URLs masked first, the pipeline reports no translation only for text with no emoji character and no URL |
| Translation.TranslatePreservingCorrectedFailure | auto_x_to_telegram_v2.py:341-361 | corrected (Findings row 1): with URLs masked first, the failure behaviour is the same as written |
| Translation.TranslatePreservingIdentity | auto_x_to_telegram_v2.py:350-361 | as written, on text without an emoji character, an engine that returns the masked text untouched yields the original text with spaces around its URLs, when no URL holds a backslash |
| Translation.TranslatePreservingLosesEmoji | auto_x_to_telegram_v2.py:350-361 | as written, `http://😀` through an engine that returns the masked text untouched comes out as ` http://[EMOJI_0 ]`: the emoji is lost |
| Translation.TranslatePreservingCorrectedIdentity | auto_x_to_telegram_v2.py:350-361 | corrected (Findings row 1): with URLs masked first, an engine that returns the masked text untouched yields any original text with spaces around its URLs and every other character in place, when no URL holds a backslash |
| Dispatch.GroupItems | auto_x_to_telegram_v2.py:714-735 | the album keeps the photos in order, and only its first photo carries the message as caption, only when the message fits the 1000-character caption limit |
| Dispatch.CaptionsOfGroup | auto_x_to_telegram_v2.py:714-735 | an album carries the message in at most one caption, and in exactly one when it has a photo and the message fits |
| Dispatch.Plan | auto_x_to_telegram_v2.py:682-746 | no contract of its own; see Dispatch.PlanDeliversOnce and PlanShape |
| Dispatch.PlanDeliversOnce | auto_x_to_telegram_v2.py:682-746 | whatever the images, the plan carries the message exactly once, as caption or as text; it sends the first ten images in order; and no caption exceeds the limit |
| Dispatch.PlanShape | auto_x_to_telegram_v2.py:682-746 | no images gives one text message; one image gives a photo; more give an album of up to ten; a separate text message follows exactly when the message is too long for a caption |
| Dispatch.Deliver | auto_x_to_telegram_v2.py:744-746 | the requests made are a prefix of the plan; every request but the last succeeded; a plan cut short ends with a failed request |
| Dispatch.DeliverAll | auto_x_to_telegram_v2.py:682-746 | when every request succeeds, the whole plan is delivered |
| Retry.Decide | auto_x_to_telegram_v2.py:571-603 | a call is retried exactly when it hit the rate limit (at any attempt), or when attempts remain and the failure is transient or an HTTP 5xx; the wait is the server's Retry-After when given, otherwise backoff for the attempt number |
| Retry.Run | auto_x_to_telegram_v2.py:571-603 | a returned value is the last call's, and every call before it was a retried failure; a raised failure is the last call's, which the policy declined to retry |
| Retry.RunIsBoundedWithoutTooMany | auto_x_to_telegram_v2.py:571-603 | without rate limiting, the wrapper ends after at most retries + 1 calls |
| Retry.TooManyIsUncapped | auto_x_to_telegram_v2.py:579-585 | rate-limit failures are retried without limit: any number of them followed by a success returns that success |
| Retry.ClientErrorRaisesAtOnce | auto_x_to_telegram_v2.py:571-603 | a 4xx other than the rate limit, or an unclassified exception, is raised on the call where it happens |
| Timeline.FullText | auto_x_to_telegram_v2.py:630-669 | the API text is kept unless it reaches 250 characters and the crawler returned something strictly longer, in which case the crawled text is used |
| Timeline.FullTextNeverShorter | auto_x_to_telegram_v2.py:658-663 | the chosen text is never shorter than the API text, and choosing again with the same crawl changes nothing |
| Timeline.Collect | auto_x_to_telegram_v2.py:531-569 | collected pages are never empty |
| Timeline.CollectReversesServed | auto_x_to_telegram_v2.py:531-569 | each collected page is the served page reversed, in fetch order |
| Timeline.FailureYieldsNothing | auto_x_to_telegram_v2.py:531-569 | a failed request before the last page means no tweet is yielded at all |
| Timeline.ReplayAsWritten | auto_x_to_telegram_v2.py:531-569 | no contract of its own: the pages in fetch order, each reversed; see Timeline.ReplayAsWrittenKeepsTweets and ReplayAsWrittenIsNotChronological |
| Timeline.ReplayAsWrittenKeepsTweets | auto_x_to_telegram_v2.py:531-569 | the replay as written yields every served tweet exactly once |
| Timeline.ReplayAsWrittenIsNotChronological | auto_x_to_telegram_v2.py:531-569 | the replay as written is not oldest-first: two one-tweet pages, served newest first, are yielded newest first |
| Timeline.Replay | auto_x_to_telegram_v2.py:531-569 | corrected (Findings row 2): no contract of its own; see Timeline.ReplayIsChronological |
| Timeline.ReplayIsChronological | auto_x_to_telegram_v2.py:531-569 | corrected (Findings row 2): replaying the pages in reverse order yields the whole served timeline oldest-first |
| Cursor.WarmStart | auto_x_to_telegram_v2.py:805-828 | a warm start stores the largest of the latest ids, 0 when there are none, and nothing when the request raised; no other user's entry changes |
| Cursor.Handle | auto_x_to_telegram_v2.py:1019-1061 | the largest id seen never decreases and covers every yielded tweet unless handling raised; only yielded tweets that are not skipped quotes are sent |
| Cursor.UserTurn | auto_x_to_telegram_v2.py:1005-1067 | a turn touches only its own user's entry and never lowers a stored id |
| Cursor.WarmStartSendsNothing | auto_x_to_telegram_v2.py:1008-1010 | a user without a stored id gets a warm start and nothing is sent |
| Cursor.HandleSendsUnskipped | auto_x_to_telegram_v2.py:1019-1056 | when nothing raises, exactly the yielded tweets that are not skipped quotes are sent, in order |
| Cursor.TurnAdvancesToMax | auto_x_to_telegram_v2.py:1019-1064 | when nothing raises, the stored id becomes the largest of the old id and every yielded id, skipped quotes included |
| Cursor.CrashKeepsStore | auto_x_to_telegram_v2.py:1074-1079 | a turn in which handling a tweet raises saves no new id |
| Html.Breaks | auto_x_to_telegram_v2.py:863 | replacing `<br>` tags never adds a `<` |
| Html.StripTags | auto_x_to_telegram_v2.py:864 | the result is a subsequence of the input: removing tags only deletes characters, never adds or reorders one |
| Html.StripTagsLeavesNoTag | auto_x_to_telegram_v2.py:864 | after the tag pass no `<...>` tag is left |
| Html.StripTagsIdempotent | auto_x_to_telegram_v2.py:864 | text without tags passes through unchanged, so the pass is idempotent |
| Html.Collapse | auto_x_to_telegram_v2.py:865 | the newline pass only deletes newlines: the result is a subsequence of the text with the same characters other than newlines, in order; text without three newlines in a row is left unchanged, and whether the text starts with a newline is kept |
| Html.CollapseLeavesNoTriple | auto_x_to_telegram_v2.py:865 | after the newline pass no three newlines are left in a row |
| Html.CleanText | auto_x_to_telegram_v2.py:862-866 | the cleaned body keeps every visible character of the tag-free text, in order (only whitespace differs), has no surrounding whitespace and no three newlines in a row |
| TruthFeed.Sort | auto_x_to_telegram_v2.py:856-860 | entries are reordered by ascending timestamp, and none is lost or added |
| TruthFeed.Insert | auto_x_to_telegram_v2.py:856-860 | inserting into an ascending list keeps it ascending and adds exactly that entry |
| TruthFeed.NewerThan | auto_x_to_telegram_v2.py:918 | only entries strictly newer than the marker are kept |
| TruthFeed.Newest | auto_x_to_telegram_v2.py:919-921 | the newest timestamp is one of the entries' and no entry is newer |
| TruthFeed.FetchNewAsWritten | auto_x_to_telegram_v2.py:915-922 | as written, the fetch returns, oldest first, exactly the feed entries newer than the marker, each as often as the feed holds it; for a non-empty feed the stored marker is the largest timestamp in the feed, even when that is below the old marker; an empty feed keeps the marker |
| TruthFeed.FetchNew | auto_x_to_telegram_v2.py:915-922 | corrected (Findings row 3): the stored marker never decreases and covers the whole feed; every entry returned lies above the old marker and at or below the new one |
| TruthFeed.FetchReturnsNewer | auto_x_to_telegram_v2.py:915-922 | the fetch returns, in ascending order, exactly the feed's entries newer than the marker, with their multiplicities |
| TruthFeed.SeriesAboveMarker | auto_x_to_telegram_v2.py:949-978 | corrected (Findings row 3): across any sequence of polls, every entry sent is newer than the starting marker |
| TruthFeed.SeriesNeverRepeats | auto_x_to_telegram_v2.py:949-978 | corrected (Findings row 3): across any sequence of polls, no entry is sent by two different polls |
| TruthFeed.AsWrittenRepeats | auto_x_to_telegram_v2.py:915-922 | as written, an entry that drops out of the feed and comes back is sent twice: feeds `[a]`, `[b]`, `[b, a]` send `a` on the first and third polls |
| TruthFeed.Last | auto_x_to_telegram_v2.py:929 | the backfill slice is the last `count` entries, or all of them when there are fewer |
| TruthFeed.SendUntilRaise | auto_x_to_telegram_v2.py:939-946 | the entries sent are a prefix of the list, none of which raised; the loop ends early exactly when the next entry raised |
| TruthFeed.SendUntilRaiseStops | auto_x_to_telegram_v2.py:939-946 | sending ends early exactly when some entry raises, and otherwise sends every entry |
| TruthFeed.Backfill | auto_x_to_telegram_v2.py:924-947 | an empty feed backfills nothing and keeps the marker; otherwise the newest `count` entries are sent, oldest first, and the newest timestamp is stored; an entry that raises ends the backfill after a proper prefix, with the marker left as it was |
| TruthFeed.NonBlank | auto_x_to_telegram_v2.py:962-964 | an entry whose cleaned body is blank is never sent by a poll |
| TruthFeed.PollWith | auto_x_to_telegram_v2.py:949-978 | no contract of its own: one poll with the fetch as a parameter; see TruthFeed.PollOnce, PollOnceCorrected, FirstRunSendsBackfill, BackfillCrashStaysFirstRun, LaterRunSendsNewer and CrashLosesRest |
| TruthFeed.PollOnce | auto_x_to_telegram_v2.py:949-978 | as written, a later run over a non-empty feed stores the feed's newest timestamp, whatever the stored marker, and an empty feed changes nothing |
| TruthFeed.PollOnceCorrected | auto_x_to_telegram_v2.py:949-978 | corrected (Findings row 3): a later run never lowers the stored marker |
| TruthFeed.FirstRunSendsBackfill | auto_x_to_telegram_v2.py:949-956 | a first run over an unchanged feed, none of whose newest three entries raises, sends exactly those three and stores the newest timestamp, with either fetch |
| TruthFeed.BackfillCrashStaysFirstRun | auto_x_to_telegram_v2.py:924-956 | an entry that raises during the backfill leaves the marker at 0, so the next poll is a first run and backfills again |
| TruthFeed.LaterRunSendsNewer | auto_x_to_telegram_v2.py:949-978 | as written, a later run sends, oldest first, a prefix of the non-blank entries newer than the marker, all of them unless one raises, and stores the feed's newest timestamp |
| TruthFeed.CrashLosesRest | auto_x_to_telegram_v2.py:957-978 | an entry that raises in a later run leaves the new marker already stored, so the same feed yields nothing new and the unsent entries are lost |
| TruthFeed.LaterRunLowersMarker | auto_x_to_telegram_v2.py:915-922 | as written, a run from marker 100 over a feed whose only entry is at 50 sends nothing and stores 50 |
| TruthFeed.LaterRunSendsNewerCorrected | auto_x_to_telegram_v2.py:949-978 | corrected (Findings row 3): a later run sends the same entries as written and never lowers the marker |
| TruthFeed.Candidates | auto_x_to_telegram_v2.py:868-889 | no image candidate is the empty string |
| TruthFeed.AddNewIsDedup | auto_x_to_telegram_v2.py:868-889 | appending a candidate only when it is not yet listed is deduplication that keeps first occurrences |
| TruthFeed.ImageUrls | auto_x_to_telegram_v2.py:868-889 | no contract of its own; see TruthFeed.Candidates, AddNewIsDedup and ImageUrlsDedup |
| TruthFeed.ImageUrlsDedup | auto_x_to_telegram_v2.py:868-889 | the image URLs are the candidates, `<img>` sources then image enclosures, with repeats dropped: each candidate appears exactly once, in order of first appearance |
| Articles.StripHost | stocktitan_trending_crawler.py:59-76 | definitional: the three branches of the anchored host pattern; see Articles.ArticleUrlShape and NormalizedArticle for what the stripped path must be |
| Articles.IsArticleUrl | stocktitan_trending_crawler.py:59-76 | no contract of its own; see Articles.HubPathsAreNotArticles and ArticleUrlShape |
| Articles.HubPathsAreNotArticles | stocktitan_trending_crawler.py:27-35 | no hub page path is taken for an article |
| Articles.ArticleUrlShape | stocktitan_trending_crawler.py:59-76 | a link is an article exactly when its path, relative or on a StockTitan host, is `/news/<TICKER>/<slug>.html`; absolute links to other hosts never are |
| Articles.NormalizeUrl | stocktitan_trending_crawler.py:54-57 | a link starting `http` is kept as it is; any other becomes the site's base followed by characters none of which is a tab, carriage return or line feed |
| Articles.NewlineNormalizesAway | stocktitan_trending_crawler.py:54-57 | a relative link and the same link with a final line feed, which the article pattern also accepts, normalise to the same URL |
| Articles.NormalizedArticle | stocktitan_trending_crawler.py:54-76 | a relative article link becomes the site's base followed by the link without tabs, carriage returns and line feeds; an absolute one is a StockTitan host followed by an article path |
| Articles.Ranked | stocktitan_trending_crawler.py:239-249 | definitional: item k is the k-th URL with rank k + 1; see Articles.TrendingTopShape |
| Articles.Pick | stocktitan_trending_crawler.py:198-256 | no contract of its own; see Articles.PickOverCandidates, PickIsFirstDistinct, PickDistinctArticles and PickSource |
| Articles.PickOverCandidates | stocktitan_trending_crawler.py:198-256 | scanning the links equals taking distinct normalised article links until seven are found |
| Articles.PickIsFirstDistinct | stocktitan_trending_crawler.py:198-256 | the top seven are the first seven distinct normalised article links on the page |
| Articles.CandidatesFromArticles | stocktitan_trending_crawler.py:198-256 | every candidate comes from an article link on the page |
| Articles.PickDistinctArticles | stocktitan_trending_crawler.py:198-256 | at most seven URLs are picked, no two equal |
| Articles.PickSource | stocktitan_trending_crawler.py:198-256 | each picked URL is the normalised form of a given article link on the page |
| Articles.TrendingTop | stocktitan_trending_crawler.py:198-256 | no contract of its own; see Articles.Ranked and TrendingTopShape |
| Articles.TrendingTopShape | stocktitan_trending_crawler.py:193-256 | the trending list has at most seven items, ranked 1 to n, with distinct URLs that each come from an article link on the page |
| Recency.Load | stocktitan_trending_crawler.py:106-116 | definitional: a timestamped state is read as it is, a legacy list as its URLs stamped now; see Recency.AddSeen, CycleAsWritten and RunCycle |
| Recency.Stamp | stocktitan_trending_crawler.py:127-128 | the batch URLs are stamped now and every other entry keeps its time |
| Recency.Purge | stocktitan_trending_crawler.py:130-132 | definitional: the `>=` cutoff filter of the window; see Recency.AddSeen, AddSeenDropsExpired and UnseenAtIsUnseenAfterPurge |
| Recency.AddSeen | stocktitan_trending_crawler.py:118-135 | after recording, the batch is stamped now, other URLs stay only if still inside the seven-day window with their old time, and nothing older is left |
| Recency.AddSeenIdempotent | stocktitan_trending_crawler.py:118-135 | recording the same batch twice at the same moment is recording it once |
| Recency.AddSeenDropsExpired | stocktitan_trending_crawler.py:130-132 | an entry older than seven days that is not in the batch is dropped |
| Recency.Unseen | stocktitan_trending_crawler.py:137-143 | no URL returned is in the recent map |
| Recency.UnseenMember | stocktitan_trending_crawler.py:137-143 | as written, a URL is offered exactly when it is on the page and has no entry in the recent map, whatever the entry's age, and page order is kept |
| Recency.UnseenAt | stocktitan_trending_crawler.py:137-143 | corrected (Findings row 5): no URL returned was sent within the seven-day window |
| Recency.UnseenAtMember | stocktitan_trending_crawler.py:137-143 | corrected (Findings row 5): a URL is offered exactly when it is listed and was not sent within the window |
| Recency.UnseenAtIsUnseenAfterPurge | stocktitan_trending_crawler.py:137-143 | corrected (Findings row 5): filtering by the window is filtering against the purged map |
| Recency.UnseenIgnoresExpiry | stocktitan_trending_crawler.py:137-143 | filtering by membership, as written, withholds a URL whose entry is older than seven days, though the window would offer it again |
| Recency.RankDiff | stocktitan_trending_crawler.py:684 | the flagged items are the top list in order, ranked 1 to n |
| Recency.NewInRankIsDifference | stocktitan_trending_crawler.py:626 | the items flagged new are exactly the URLs of this top list that were not in the previous one |
| Recency.UnchangedTopNothingNew | stocktitan_trending_crawler.py:626 | an unchanged top list flags nothing as new |
| Recency.CycleAsWritten | stocktitan_trending_crawler.py:714-787 | as written, a cycle stores this cycle's top list, attempts exactly the top URLs that have no entry in the recent map, in rank order, and records every one of them as sent now, whether or not its send succeeded |
| Recency.RunCycle | stocktitan_trending_crawler.py:714-787 | corrected (Findings row 4): a cycle stores this cycle's top list and attempts, in rank order, exactly the top URLs not sent within the window; an attempted URL is recorded as sent now exactly when its send succeeded, and a failed one is left outside the window |
| Recency.RunCycleRecordsDelivered | stocktitan_trending_crawler.py:780-787 | corrected (Findings row 4): after a cycle, an attempted URL is recorded as sent now exactly when its send succeeded; a failed one stays outside the window |
| Recency.FailedSendIsRetried | stocktitan_trending_crawler.py:780-787 | corrected (Findings row 4): a URL whose send failed is attempted again by the next cycle that ranks it |
| Recency.FailedSendIsForgotten | stocktitan_trending_crawler.py:780-787 | as written, a URL whose send failed is recorded anyway and is not attempted by the next cycle |
| Cleanup.DedupList | stocktitan_trending_crawler.py:447-455 | the result is a subsequence of the input, no two entries are equal ignoring case, and every lower-cased key of the input survives |
| Cleanup.DedupListIdempotent | stocktitan_trending_crawler.py:447-455 | dedup keeps the first entry of each key, and applying it twice is applying it once |
| Cleanup.SplitToBullets | stocktitan_trending_crawler.py:438-444 | empty text gives no bullets; otherwise at most eight bullets, each longer than one character with no separator inside and no bullet marks or spaces at its ends, and each a piece of the text itself, taken left to right without overlap |
| Cleanup.OnePiece | stocktitan_trending_crawler.py:438-444 | text with no separator gives itself, trimmed of bullet marks, as its one bullet when its stripped form is longer than one character, and no bullet otherwise |
| Cleanup.StrippedPieceIsBullet | stocktitan_trending_crawler.py:442-443 | a piece longer than one character once stripped still yields a valid bullet after its bullet marks are trimmed |
| Cleanup.PunctuationOfStripped | stocktitan_trending_crawler.py:614-615 | text ending in non-whitespace "ends with punctuation" exactly when its last character is `.`, `!`, `?` or `…` |
| Cleanup.Classify | stocktitan_trending_crawler.py:571-587 | a section keeps its element's text, which has at least two characters; a header's level lies in 1 to 5 |
| Cleanup.DropRepeatsSpaced | stocktitan_trending_crawler.py:589-598 | after dropping repeats no section equals the one just before it |
| Cleanup.DropRepeatsOfSpaced | stocktitan_trending_crawler.py:589-598 | a list with no adjacent repeats passes through unchanged |
| Cleanup.BodySections | stocktitan_trending_crawler.py:560-598 | no contract of its own; see Cleanup.Classify, DropRepeatsSpaced and BodySectionsClean |
| Cleanup.BodySectionsClean | stocktitan_trending_crawler.py:560-598 | the body sections have no adjacent repeats, are a fixed point of the repeat filter, and contain exactly the sections some element classifies to |
| Cleanup.BoldHeaders | stocktitan_trending_crawler.py:580-583 | a level-5 header with a given text appears exactly when some bold element has that text and the text does not end with punctuation |

## Left out

- Network and services: the Tweepy client, `feedparser`, `requests`, the Telegram Bot API and the GPT, MyMemory, Microsoft and DeepL HTTP calls. Their replies are parameters of the functions that consume them.
- The Selenium crawler in `auto_x_to_telegram_v2.py` (driver setup, human-like scrolling, DOM-to-text) and the BeautifulSoup page heuristics in `stocktitan_trending_crawler.py`. These are `parse_article_detail`, the Rhea-AI summary and bullet extraction, published-date and source-URL lookup, and the multilingual summary. The crawler's result is an input of `Timeline.FullText`. The page's links and the body's block elements are inputs of `Articles.Pick` and `Cleanup.BodySections`.
- The per-article translation and message assembly in `run_once` and the main loop: titles, summaries, `_truncate`, `_bullets`, date formatting, the `mm/dd HH:MM` header. These are string formatting with no decision in them.
- `fetch_original_retweet` and the tweet `extract_image_urls`: Tweepy object traversal. Whether handling a tweet raises is the `raises` input of `Cursor.Handle`.
- Ticker and title extraction in `fetch_trending_top7`. Only the choice of URLs and their ranks is modelled.
- Sleeps and backoff durations: a retry's wait is modelled as which kind of wait, not how many seconds. The crawl cool-down timer in `get_full_tweet_text` is an input, by whether a crawl result is supplied at all.
- Memory monitoring, crawler restarts, `cleanup_resources` and the debug entry point are left out: they make no decision about content.
- JSON and text state files. Their contents are passed in and returned as values (`Cursor.Store`, `TruthFeed.Poll.marker`, `Recency.State`). Reading a missing or corrupt file as empty is not modelled.
- The clock: each StockTitan cycle reads the time once as `now`, although the source reads it separately when loading a legacy list and when recording. Timestamps are whole seconds, not floats.
- RSS timestamp parsing (`trump_entry_ts`) and the `<img src>` regex are inputs. An entry carries its timestamp, and `TruthFeed.ImageUrls` takes the extracted sources.
- Recency: `RECENT_SEEN_LIMIT` (100) is declared but never enforced by the source, so the model has no cap either.
- Cleanup.DedupList: keys are lower-cased for ASCII letters only (`Text.Lower`). Python's `str.lower` also lowers non-ASCII letters, so two entries that differ only in the case of a non-ASCII letter are both kept by the model and merged by the source.
- Articles.NormalizeUrl: `urljoin` on a site-relative path is modelled as the base followed by the path without its tabs, carriage returns and line feeds. `urljoin` also resolves `.` and `..` segments, and splits off and re-joins parameters, query and fragment. An accepted path can contain dot segments, because the ticker class admits dots and the slug admits anything; for such paths the model keeps what `urljoin` would change. Empty segments of a path that starts with `/` are kept by `urljoin` as by the model.
- Articles.NormalizedArticle: follows `Articles.NormalizeUrl`, so it says nothing about dot segments or the query.
- TruthFeed.PollOnce: whether formatting an entry raises is the parameter `raises`. It stands for the translation pipeline's `Crashed` outcome on the entry's cleaned body, which `TruthFeed` does not compute. The Telegram send catches its own errors and is not modelled as raising.
- Template: follows the replacement-template rules of Python 3.12. Named group references other than group 0 raise, as they do for the restorers' group-free patterns.
- MaskingProofs.ProtectRoundTrip: the round trips hold only when no URL holds a backslash, because the URL restore uses each URL as a replacement template (see Findings).
- Html.Breaks: states only that no `<` is added, not the full contents; `Html.CleanText` carries the stronger properties of the whole cleaning step.

## Findings

| source | as written | input that shows it | evidently intended | confidence | as-written member | corrected member |
|---|---|---|---|---|---|---|
| auto_x_to_telegram_v2.py:350-361 | emoji are masked before URLs, so the URL pattern can swallow an emoji placeholder that directly follows a URL | `http://😀` comes back as ` http://[EMOJI_0 ]` | every emoji and URL restored (mask URLs first; restoring emoji first is already correct) | high, not executed | Translation.TranslatePreservingLosesEmoji | Translation.TranslatePreservingCorrectedIdentity |
| auto_x_to_telegram_v2.py:531-569 | pages are yielded newest page first, each reversed, though the docstring and the comment at line 566 promise oldest first | two one-tweet pages with ids 3 then 1 yield 3, 1 | the whole timeline oldest first | high, not executed | Timeline.ReplayAsWrittenIsNotChronological | Timeline.ReplayIsChronological |
| auto_x_to_telegram_v2.py:915-922 | the stored marker is the newest timestamp of the current feed, which can be below the old marker | feeds `[a@100]`, `[b@50]`, `[b@50, a@100]` from marker 99 send `a` twice | the marker never decreases, so no entry is sent twice | medium, not executed | TruthFeed.AsWrittenRepeats | TruthFeed.SeriesNeverRepeats |
| stocktitan_trending_crawler.py:780-787 | every attempted URL joins the batch, although `send_to_telegram` swallows failures and the comment says the batch holds successfully sent URLs | one article whose send fails is never attempted again within seven days | only delivered URLs recorded, so a failed send is retried | high, not executed | Recency.FailedSendIsForgotten | Recency.RunCycleRecordsDelivered |
| stocktitan_trending_crawler.py:137-143 | the unseen filter tests membership in the stored map, not the seven-day window its docstring names | an entry stamped at 0, read at seven days plus one second, is still withheld when no recording has purged it since | an expired URL is offered again | low, not executed | Recency.UnseenIgnoresExpiry | Recency.UnseenAtIsUnseenAfterPurge |
| auto_x_to_telegram_v2.py:338 | each URL is passed to `pattern.sub` as a replacement template, so backslashes in it are read as escapes | `http://a\d` makes the restore raise; `http://a\\b` comes back with one backslash | every URL restored as it was | medium, not executed | MaskingProofs.UrlBadEscapeRaises | MaskingProofs.LiteralRestoreInvertsMask |

=== FILE: articles.dfy ===
/**
 * The StockTitan trending page: which links are articles
 * (`is_article_url`, stocktitan_trending_crawler.py:59-76), how they become
 * absolute (`normalize_url`, stocktitan_trending_crawler.py:54-57), and the
 * selection of the top seven (`fetch_trending_top7`,
 * stocktitan_trending_crawler.py:199-256) over the links in page order.
 */
module Articles {
  import opened Text
  import Seqs

  const Base := "https://www.stocktitan.net"

  /** The two host prefixes `^https?://www\.stocktitan\.net` removes. */
  const SecureHost := "https://www.stocktitan.net"
  const PlainHost := "http://www.stocktitan.net"

  /** Listing pages that are never articles (stocktitan_trending_crawler.py:27-35). */
  const HubPaths: set<string> := {
    "/news/trending.html", "/news/live.html", "/news/crypto.html", "/news/ai.html",
    "/news/fda-approvals.html", "/news/clinical-trials.html", "/news/today"
  }

  /** A character of the ticker class `[A-Z0-9\.\-]`. */
  predicate TickerChar(c: char)
  {
    'A' <= c <= 'Z' || '0' <= c <= '9' || c == '.' || c == '-'
  }

  /** Length of the run of ticker characters at the start of `s`. */
  function TickerRun(s: string): (n: nat)
    ensures n <= |s| && forall k :: 0 <= k < n ==> TickerChar(s[k])
    ensures n == |s| || !TickerChar(s[n])
  {
    if s == [] || !TickerChar(s[0]) then 0 else 1 + TickerRun(s[1..])
  }

  /**
   * `.+\.html$` matched against the rest of a path: one or more characters
   * other than a newline, then `.html`, at the end or just before a final
   * newline (where Python's `$` also matches).
   */
  predicate HtmlTail(t: string)
  {
    var u := if t != [] && t[|t| - 1] == '\n' then t[..|t| - 1] else t;
    |u| >= 6 && EndsWith(u, ".html") && '\n' !in u
  }

  /**
   * `ARTICLE_RE.match(rel)`: `/news/`, a ticker, `/`, and an `.html` tail.
   * The ticker class holds no `/`, so the greedy ticker run is the only way
   * to reach the `/`, and no other split of the path can match.
   */
  predicate ArticlePath(rel: string)
  {
    StartsWith(rel, "/news/") &&
    var rest := rel[6..];
    var n := TickerRun(rest);
    1 <= n < |rest| && rest[n] == '/' && HtmlTail(rest[n + 1..])
  }

  /** `re.sub(r"^https?://www\.stocktitan\.net", "", href)` */
  function StripHost(href: string): (rel: string)
    ensures StartsWith(href, SecureHost) ==> rel == href[|SecureHost|..]
    ensures StartsWith(href, PlainHost) ==> rel == href[|PlainHost|..]
    ensures !StartsWith(href, SecureHost) && !StartsWith(href, PlainHost) ==> rel == href
  {
    HostsDiffer(href);
    if StartsWith(href, SecureHost) then href[|SecureHost|..]
    else if StartsWith(href, PlainHost) then href[|PlainHost|..]
    else href
  }

  /**
   * The two host prefixes part at their fifth character, and both begin with
   * `http`, which a relative `/news/` path does not.
   */
  lemma HostsDiffer(href: string)
    ensures !(StartsWith(href, SecureHost) && StartsWith(href, PlainHost))
    ensures StartsWith(href, SecureHost) || StartsWith(href, PlainHost) ==> StartsWith(href, "http")
    ensures StartsWith(href, "/news/") ==> !StartsWith(href, "http")
  {
    if StartsWith(href, "/news/") {
      assert href[0] == href[..6][0] == '/';
    }
    if StartsWith(href, SecureHost) {
      assert href[4] == SecureHost[4] == 's';
      assert href[..4] == SecureHost[..4];
    }
    if StartsWith(href, PlainHost) {
      assert href[4] == PlainHost[4] == ':';
      assert href[..4] == PlainHost[..4];
    }
  }

  /** `is_article_url(href)` */
  predicate IsArticleUrl(href: string)
  {
    href != [] &&
    var rel := if StartsWith(href, "http") then StripHost(href) else href;
    rel !in HubPaths && ArticlePath(rel)
  }

  /** Does `urlsplit` keep `c`? It deletes every tab, carriage return and line feed before parsing. */
  predicate UrlSafe(c: char)
  {
    c != '\t' && c != '\r' && c != '\n'
  }

  /**
   * `normalize_url(href)`: a link starting `http` is kept as it is; any other
   * goes through `urljoin(BASE, href)`, modelled for a root-relative path as
   * the base followed by the path without its tabs, carriage returns and
   * line feeds.
   */
  function NormalizeUrl(href: string): (u: string)
    ensures StartsWith(href, "http") ==> u == href
    ensures !StartsWith(href, "http") ==> StartsWith(u, Base) && forall k :: |Base| <= k < |u| ==> UrlSafe(u[k])
  {
    if StartsWith(href, "http") then href
    else
      var path := Seqs.Filter(href, UrlSafe);
      assert (Base + path)[..|Base|] == Base;
      assert forall k :: |Base| <= k < |Base + path| ==> (Base + path)[k] == path[k - |Base|];
      Base + path
  }

  /**
   * A relative link and the same link with a final line feed, which the
   * article pattern's `$` also accepts, normalize to the same URL.
   */
  lemma NewlineNormalizesAway(rel: string)
    requires rel != [] && rel[0] == '/'
    ensures NormalizeUrl(rel + "\n") == NormalizeUrl(rel)
  {
    assert !StartsWith(rel, "http") && !StartsWith(rel + "\n", "http") by {
      assert (rel + "\n")[0] == '/';
    }
    Seqs.FilterAppend(rel, "\n", UrlSafe);
    assert Seqs.Filter("\n", UrlSafe) == Seqs.Filter("\n"[1..], UrlSafe);
    assert Seqs.Filter(rel, UrlSafe) + [] == Seqs.Filter(rel, UrlSafe);
  }

  /** A path whose segment after `/news/` opens with a lower-case letter has no ticker. */
  lemma LowerSegmentNotArticle(h: string)
    requires |h| > 6 && 'a' <= h[6] <= 'z'
    ensures !ArticlePath(h)
  {
    assert h[6..][0] == h[6];
    assert TickerRun(h[6..]) == 0;
  }

  /** No listing page has the shape of an article path, so the hub test never decides anything. */
  lemma HubPathsAreNotArticles()
    ensures forall h :: h in HubPaths ==> !ArticlePath(h)
  {
    forall h | h in HubPaths
      ensures !ArticlePath(h)
    {
      LowerSegmentNotArticle(h);
    }
  }

  /**
   * The classifier as a plain statement: an article link is an article path
   * as it stands, or one behind the site's own `https://` or `http://` host.
   * Empty links, other hosts and listing pages are excluded.
   */
  lemma ArticleUrlShape(href: string)
    ensures IsArticleUrl(href) <==>
      ArticlePath(href)
      || (StartsWith(href, SecureHost) && ArticlePath(href[|SecureHost|..]))
      || (StartsWith(href, PlainHost) && ArticlePath(href[|PlainHost|..]))
    ensures StartsWith(href, "http") && !StartsWith(href, SecureHost) && !StartsWith(href, PlainHost)
      ==> !IsArticleUrl(href)
  {
    HubPathsAreNotArticles();
    HostsDiffer(href);
  }

  /**
   * Every accepted link normalizes to the site's base followed by an article
   * path: the path itself, cleaned of tabs, carriage returns and line feeds,
   * for a relative link, or the link unchanged behind either host.
   */
  lemma NormalizedArticle(href: string)
    requires IsArticleUrl(href)
    ensures !StartsWith(href, "http") ==> ArticlePath(href) && NormalizeUrl(href) == Base + Seqs.Filter(href, UrlSafe)
    ensures StartsWith(href, "http") ==>
      exists rel :: ArticlePath(rel) && (NormalizeUrl(href) == Base + rel || NormalizeUrl(href) == PlainHost + rel)
  {
    if StartsWith(href, "http") {
      HostArticleNormalized(href);
    } else {
      ArticleUrlShape(href);
      HostsDiffer(href);
    }
  }

  /** An accepted absolute link is one of the two hosts followed by an article path, and is kept as it is. */
  lemma HostArticleNormalized(href: string)
    requires IsArticleUrl(href) && StartsWith(href, "http")
    ensures exists rel :: ArticlePath(rel) && (NormalizeUrl(href) == Base + rel || NormalizeUrl(href) == PlainHost + rel)
  {
    ArticleUrlShape(href);
    if StartsWith(href, SecureHost) {
      var rel := BehindHost(href, SecureHost);
      assert NormalizeUrl(href) == Base + rel;
    } else {
      var rel := BehindHost(href, PlainHost);
      assert NormalizeUrl(href) == PlainHost + rel;
    }
  }

  /** An absolute link behind `host` is kept as it is: the host followed by the rest. */
  lemma BehindHost(href: string, host: string) returns (rel: string)
    requires StartsWith(href, host) && StartsWith(host, "http")
    ensures rel == href[|host|..] && NormalizeUrl(href) == host + rel
  {
    rel := href[|host|..];
    assert href[..4] == host[..4];
    assert href == host + rel;
  }

  /** How many articles the trending selection keeps. */
  const TopCount := 7

  /**
   * The selection loop: in page order, skip links that are not articles and
   * URLs already taken, and stop after the seventh.
   */
  function Pick(hrefs: seq<string>, picked: seq<string>): (urls: seq<string>)
    decreases |hrefs|
  {
    if hrefs == [] || |picked| >= TopCount then picked
    else if !IsArticleUrl(hrefs[0]) then Pick(hrefs[1..], picked)
    else
      var u := NormalizeUrl(hrefs[0]);
      if u in picked then Pick(hrefs[1..], picked) else Pick(hrefs[1..], picked + [u])
  }

  /** A trending item: its rank (from 1) and its absolute URL. */
  datatype Item = Item(rank: nat, url: string)

  function Ranked(urls: seq<string>): (items: seq<Item>)
    ensures |items| == |urls|
    ensures forall k :: 0 <= k < |items| ==> items[k] == Item(k + 1, urls[k])
  {
    seq(|urls|, k requires 0 <= k < |urls| => Item(k + 1, urls[k]))
  }

  /** `fetch_trending_top7()` given the page's links in document order. */
  function TrendingTop(hrefs: seq<string>): seq<Item>
  {
    Ranked(Pick(hrefs, []))
  }

  /** The normalized URLs of the accepted links, in page order, repeats included. */
  function Candidates(hrefs: seq<string>): seq<string>
  {
    if hrefs == [] then []
    else (if IsArticleUrl(hrefs[0]) then [NormalizeUrl(hrefs[0])] else []) + Candidates(hrefs[1..])
  }

  function Same(u: string): string
  {
    u
  }

  /** One step of the selection loop, with its effect on the candidates. */
  lemma PickStep(hrefs: seq<string>, picked: seq<string>)
    requires hrefs != [] && |picked| < TopCount
    ensures !IsArticleUrl(hrefs[0]) ==>
      Pick(hrefs, picked) == Pick(hrefs[1..], picked) && Candidates(hrefs) == Candidates(hrefs[1..])
    ensures IsArticleUrl(hrefs[0]) ==>
      Candidates(hrefs) == [NormalizeUrl(hrefs[0])] + Candidates(hrefs[1..]) &&
      Pick(hrefs, picked) == Pick(hrefs[1..], if NormalizeUrl(hrefs[0]) in picked then picked else picked + [NormalizeUrl(hrefs[0])])
  {
    if !IsArticleUrl(hrefs[0]) {
      assert Candidates(hrefs) == [] + Candidates(hrefs[1..]);
    }
  }

  function Elems(xs: seq<string>): (r: set<string>)
    ensures forall x :: x in r <==> x in xs
  {
    set x | x in xs
  }

  /** The selection loop over the candidates alone. */
  function TakeDistinct(cands: seq<string>, picked: seq<string>): seq<string>
    decreases |cands|
  {
    if cands == [] || |picked| >= TopCount then picked
    else if cands[0] in picked then TakeDistinct(cands[1..], picked)
    else TakeDistinct(cands[1..], picked + [cands[0]])
  }

  lemma {:induction false} PickOverCandidates(hrefs: seq<string>, picked: seq<string>)
    ensures Pick(hrefs, picked) == TakeDistinct(Candidates(hrefs), picked)
    decreases |hrefs|
  {
    if hrefs != [] && |picked| < TopCount {
      PickStep(hrefs, picked);
      if !IsArticleUrl(hrefs[0]) {
        PickOverCandidates(hrefs[1..], picked);
      } else {
        var u := NormalizeUrl(hrefs[0]);
        PickOverCandidates(hrefs[1..], if u in picked then picked else picked + [u]);
        assert ([u] + Candidates(hrefs[1..]))[1..] == Candidates(hrefs[1..]);
      }
    } else if hrefs != [] {
      assert Candidates(hrefs) == [] || TakeDistinct(Candidates(hrefs), picked) == picked;
    }
  }

  lemma {:induction false} TakeDistinctIsDedupTake(cands: seq<string>, picked: seq<string>)
    requires |picked| <= TopCount
    ensures TakeDistinct(cands, picked) == Seqs.Take(picked + Seqs.DedupFrom(cands, Same, Elems(picked)), TopCount)
    decreases |cands|
  {
    var seen := Elems(picked);
    var all := picked + Seqs.DedupFrom(cands, Same, seen);
    if cands == [] {
      assert all == picked;
    } else if |picked| >= TopCount {
      assert all[..TopCount] == picked;
    } else {
      var u := cands[0];
      if u in picked {
        TakeDistinctIsDedupTake(cands[1..], picked);
      } else {
        TakeDistinctIsDedupTake(cands[1..], picked + [u]);
        assert Elems(picked + [u]) == seen + {Same(u)};
        assert all == (picked + [u]) + Seqs.DedupFrom(cands[1..], Same, seen + {Same(u)});
      }
    }
  }

  lemma {:induction false} CandidatesFromArticles(hrefs: seq<string>, u: string)
    requires u in Candidates(hrefs)
    ensures exists k :: 0 <= k < |hrefs| && IsArticleUrl(hrefs[k]) && u == NormalizeUrl(hrefs[k])
    decreases |hrefs|
  {
    if !(IsArticleUrl(hrefs[0]) && u == NormalizeUrl(hrefs[0])) {
      CandidatesFromArticles(hrefs[1..], u);
      var k :| 0 <= k < |hrefs[1..]| && IsArticleUrl(hrefs[1..][k]) && u == NormalizeUrl(hrefs[1..][k]);
      assert hrefs[1..][k] == hrefs[k + 1];
    }
  }

  /** The selection as an independent definition: the first seven of the deduplicated candidates. */
  lemma PickIsFirstDistinct(hrefs: seq<string>)
    ensures Pick(hrefs, []) == Seqs.Take(Seqs.DedupBy(Candidates(hrefs), Same), TopCount)
  {
    var none: seq<string> := [];
    PickOverCandidates(hrefs, none);
    TakeDistinctIsDedupTake(Candidates(hrefs), none);
    assert Elems(none) == {};
    assert none + Seqs.DedupBy(Candidates(hrefs), Same) == Seqs.DedupBy(Candidates(hrefs), Same);
  }

  /** The selection holds at most seven pairwise distinct URLs. */
  lemma PickDistinctArticles(hrefs: seq<string>)
    ensures |Pick(hrefs, [])| <= TopCount
    ensures forall i, j :: 0 <= i < j < |Pick(hrefs, [])| ==> Pick(hrefs, [])[i] != Pick(hrefs, [])[j]
  {
    PickIsFirstDistinct(hrefs);
    var d := Seqs.DedupBy(Candidates(hrefs), Same);
    var urls := Pick(hrefs, []);
    Seqs.DedupFromProperties(Candidates(hrefs), Same, {});
    assert urls == d[..|urls|];
    forall i, j | 0 <= i < j < |urls|
      ensures urls[i] != urls[j]
    {
      assert urls[i] == d[i] && urls[j] == d[j];
      assert Same(d[i]) != Same(d[j]);
    }
  }

  /** Is `u` the normalization of some article link of the page? */
  predicate FromPage(hrefs: seq<string>, u: string)
  {
    exists m :: 0 <= m < |hrefs| && IsArticleUrl(hrefs[m]) && u == NormalizeUrl(hrefs[m])
  }

  /** The link of the page that the `k`-th selected URL comes from. */
  lemma PickSource(hrefs: seq<string>, k: nat) returns (m: nat)
    requires k < |Pick(hrefs, [])|
    ensures m < |hrefs| && IsArticleUrl(hrefs[m]) && Pick(hrefs, [])[k] == NormalizeUrl(hrefs[m])
    ensures FromPage(hrefs, Pick(hrefs, [])[k])
  {
    PickIsFirstDistinct(hrefs);
    var d := Seqs.DedupBy(Candidates(hrefs), Same);
    Seqs.DedupFromProperties(Candidates(hrefs), Same, {});
    Seqs.SubseqMembers(d, Candidates(hrefs));
    assert Pick(hrefs, [])[k] == d[k];
    CandidatesFromArticles(hrefs, d[k]);
    var j :| 0 <= j < |hrefs| && IsArticleUrl(hrefs[j]) && d[k] == NormalizeUrl(hrefs[j]);
    m := j;
  }

  /**
   * The trending selection is the first seven distinct article URLs of the
   * page: ranks run 1..n with n at most seven, the URLs are pairwise distinct,
   * and each is the normalization of an accepted link.
   */
  lemma TrendingTopShape(hrefs: seq<string>)
    ensures |TrendingTop(hrefs)| <= TopCount
    ensures forall k :: 0 <= k < |TrendingTop(hrefs)| ==> TrendingTop(hrefs)[k].rank == k + 1
    ensures forall i, j :: 0 <= i < j < |TrendingTop(hrefs)| ==> TrendingTop(hrefs)[i].url != TrendingTop(hrefs)[j].url
    ensures forall k :: 0 <= k < |TrendingTop(hrefs)| ==> FromPage(hrefs, TrendingTop(hrefs)[k].url)
  {
    PickDistinctArticles(hrefs);
    var urls := Pick(hrefs, []);
    var top := TrendingTop(hrefs);
    assert |top| == |urls|;
    forall k | 0 <= k < |top|
      ensures FromPage(hrefs, top[k].url)
    {
      var m := PickSource(hrefs, k);
      assert top[k].url == urls[k];
    }
    forall i, j | 0 <= i < j < |top|
      ensures top[i].url != top[j].url
    {
      assert top[i].url == urls[i] && top[j].url == urls[j];
    }
  }
}

=== FILE: cleanup.dfy ===
/**
 * The StockTitan crawler's list and text helpers: `split_to_bullets`
 * (stocktitan_trending_crawler.py:438-444), `dedup_list`
 * (stocktitan_trending_crawler.py:447-455), `ends_with_punctuation`
 * (stocktitan_trending_crawler.py:614-615) and the classification and
 * adjacent-duplicate removal of `extract_article_body_sections`
 * (stocktitan_trending_crawler.py:560-598).
 */
module Cleanup {
  import opened Wrappers
  import opened Text
  import Seqs
  import Html

  // ---------------------------------------------------------------- dedup_list

  function LowerKey(x: string): string
  {
    Lower(x)
  }

  /**
   * `dedup_list(xs)`: keep the first string of each lower-cased key, in order.
   * The result is a subsequence with pairwise different keys and the same
   * set of keys as the input.
   */
  function DedupList(xs: seq<string>): (r: seq<string>)
    ensures Seqs.IsSubseq(r, xs)
    ensures Seqs.DistinctKeys(r, LowerKey)
    ensures Seqs.KeysOf(r, LowerKey) == Seqs.KeysOf(xs, LowerKey)
  {
    Seqs.DedupFromProperties(xs, LowerKey, {});
    Seqs.DedupBy(xs, LowerKey)
  }

  /** Deduplicating twice is deduplicating once, and what survives is the first string of each key. */
  lemma DedupListIdempotent(xs: seq<string>)
    ensures DedupList(DedupList(xs)) == DedupList(xs)
    ensures DedupList(xs) == Seqs.FirstOfEachKey(xs, LowerKey)
  {
    Seqs.DedupIdempotent(xs, LowerKey);
    Seqs.DedupIsFirstOfEachKey(xs, LowerKey);
  }

  // ---------------------------------------------------------- split_to_bullets

  /** A character of the split pattern's alternation `\n|\r|•|-|•` (U+2022 is `•`). */
  predicate IsSeparator(c: char)
  {
    c == '\n' || c == '\r' || c == '•' || c == '-'
  }

  predicate NoSeparator(s: string)
  {
    forall k :: 0 <= k < |s| ==> !IsSeparator(s[k])
  }

  /**
   * `re.split(r"(?:\n|\r|•|-|•)\s*", text)` with the current piece
   * `cur` still open: each separator and the whitespace after it close the
   * piece.
   */
  function Pieces(s: string, cur: string): (ps: seq<string>)
    requires NoSeparator(cur)
    ensures |ps| >= 1
    ensures forall k :: 0 <= k < |ps| ==> NoSeparator(ps[k])
    decreases |s|
  {
    if s == [] then [cur]
    else if IsSeparator(s[0]) then
      var n := Html.SpaceRun(s[1..]);
      [cur] + Pieces(s[1 + n..], [])
    else Pieces(s[1..], cur + [s[0]])
  }

  /** A character of the strip argument `" -•\t\r\n"`. */
  predicate IsBulletTrim(c: char)
  {
    c == ' ' || c == '-' || c == '•' || c == '\t' || c == '\r' || c == '\n'
  }

  function TrimLeftBullet(s: string): (r: string)
    ensures |r| <= |s| && r == s[|s| - |r|..]
    ensures forall k :: 0 <= k < |s| - |r| ==> IsBulletTrim(s[k])
    ensures r == [] || !IsBulletTrim(r[0])
    decreases |s|
  {
    if s == [] || !IsBulletTrim(s[0]) then s else TrimLeftBullet(s[1..])
  }

  function TrimRightBullet(s: string): (r: string)
    ensures |r| <= |s| && r == s[..|r|]
    ensures forall k :: |r| <= k < |s| ==> IsBulletTrim(s[k])
    ensures r == [] || !IsBulletTrim(r[|r| - 1])
    decreases |s|
  {
    if s == [] || !IsBulletTrim(s[|s| - 1]) then s else TrimRightBullet(s[..|s| - 1])
  }

  predicate TrimOnly(s: string)
  {
    forall k :: 0 <= k < |s| ==> IsBulletTrim(s[k])
  }

  /** `p.strip(" -•\t\r\n")`: a slice of `p` that loses only strip characters at both ends. */
  function StripBullet(p: string): (r: string)
    ensures exists i, j :: 0 <= i <= j <= |p| && r == p[i..j] && TrimOnly(p[..i]) && TrimOnly(p[j..])
    ensures r == [] || (!IsBulletTrim(r[0]) && !IsBulletTrim(r[|r| - 1]))
  {
    var l := TrimLeftBullet(p);
    var r := TrimRightBullet(l);
    BulletSlice(p, l, r);
    r
  }

  lemma BulletSlice(p: string, l: string, r: string)
    requires |l| <= |p| && l == p[|p| - |l|..] && forall k :: 0 <= k < |p| - |l| ==> IsBulletTrim(p[k])
    requires |r| <= |l| && r == l[..|r|] && forall k :: |r| <= k < |l| ==> IsBulletTrim(l[k])
    ensures var i := |p| - |l|;
      r == p[i..i + |r|] && TrimOnly(p[..i]) && TrimOnly(p[i + |r|..])
  {
    var i := |p| - |l|;
    assert TrimOnly(p[..i]) by {
      forall k | 0 <= k < i
        ensures IsBulletTrim(p[..i][k])
      {
        assert p[..i][k] == p[k];
      }
    }
    var tail := p[i + |r|..];
    forall k | 0 <= k < |tail|
      ensures IsBulletTrim(tail[k])
    {
      assert tail[k] == l[|r| + k];
    }
  }

  /** How many bullets are kept. */
  const MaxBullets := 8

  /** One step of the comprehension: a piece with more than one visible character becomes a bullet. */
  function Keep(p: string): (r: seq<string>)
    ensures |r| <= 1
    ensures NoSeparator(p) ==> AllBullets(r)
  {
    if p != [] && |Strip(p)| > 1 then
      KeptBullet(p);
      [StripBullet(p)]
    else []
  }

  lemma KeptBullet(p: string)
    requires |Strip(p)| > 1
    ensures NoSeparator(p) ==> AllBullets([StripBullet(p)])
  {
    if NoSeparator(p) {
      StrippedPieceIsBullet(p);
    }
  }

  /** The comprehension `[p.strip(" -•\t\r\n") for p in parts if p and len(p.strip()) > 1]`. */
  function KeepPieces(ps: seq<string>): seq<string>
  {
    if ps == [] then [] else Keep(ps[0]) + KeepPieces(ps[1..])
  }

  /**
   * `split_to_bullets(text)`: nothing for empty text, otherwise at most eight
   * bullets, each at least two characters long, free of separators, and not
   * beginning or ending with a strip character; the bullets are pieces of
   * `text` itself, taken left to right without overlapping.
   */
  function SplitToBullets(text: string): (r: seq<string>)
    ensures text == [] ==> r == []
    ensures |r| <= MaxBullets
    ensures forall k :: 0 <= k < |r| ==> IsBullet(r[k])
    ensures Seqs.SlicesOf(r, text)
  {
    if text == [] then []
    else
      var kept := KeepPieces(Pieces(text, []));
      KeptAreBullets(Pieces(text, []));
      PiecesAreSlices(text, []);
      assert [] + text == text;
      KeptAreSlices(Pieces(text, []), text);
      Seqs.SlicesOfTake(kept, text, MaxBullets);
      var r := Seqs.Take(kept, MaxBullets);
      assert forall k :: 0 <= k < |r| ==> r[k] == kept[k];
      r
  }

  /** The split pieces, the open one included, lie in `cur + s` in order. */
  lemma {:induction false} PiecesAreSlices(s: string, cur: string)
    requires NoSeparator(cur)
    ensures Seqs.SlicesOf(Pieces(s, cur), cur + s)
    decreases |s|
  {
    var t := cur + s;
    if s == [] {
      assert t == cur && t[..|cur|] == cur && t[|cur|..] == [];
      assert [cur][1..] == [];
    } else if IsSeparator(s[0]) {
      var n := Html.SpaceRun(s[1..]);
      var rest := Pieces(s[1 + n..], []);
      PiecesAreSlices(s[1 + n..], []);
      assert [] + s[1 + n..] == s[1 + n..];
      Seqs.SlicesOfDrop(rest, s, 1 + n);
      assert t[0..|cur|] == cur && t[|cur|..] == s;
      Seqs.SlicesOfCons(cur, rest, t, 0, |cur|);
    } else {
      PiecesAreSlices(s[1..], cur + [s[0]]);
      assert cur + [s[0]] + s[1..] == t;
    }
  }

  /** Keeping some pieces and trimming them keeps them slices of the text, in order. */
  lemma {:induction false} KeptAreSlices(ps: seq<string>, t: string)
    requires Seqs.SlicesOf(ps, t)
    ensures Seqs.SlicesOf(KeepPieces(ps), t)
    decreases |t|, |ps|
  {
    if ps != [] {
      var p := ps[0];
      if |p| <= |t| && t[..|p|] == p && Seqs.SlicesOf(ps[1..], t[|p|..]) {
        KeptAreSlices(ps[1..], t[|p|..]);
        KeepOneSlice(p, KeepPieces(ps[1..]), t);
      } else {
        KeptAreSlices(ps, t[1..]);
      }
    }
  }

  /** The trimmed piece, if kept, is a slice of the piece at the front of `t`. */
  lemma KeepOneSlice(p: string, rest: seq<string>, t: string)
    requires |p| <= |t| && t[..|p|] == p && Seqs.SlicesOf(rest, t[|p|..])
    ensures Seqs.SlicesOf(Keep(p) + rest, t)
  {
    Seqs.SlicesOfDrop(rest, t, |p|);
    if Keep(p) == [] {
      assert Keep(p) + rest == rest;
    } else {
      var i, j := StripBulletBounds(p);
      SliceThenSlices(StripBullet(p), p, rest, t, i, j);
      assert Keep(p) + rest == [StripBullet(p)] + rest;
    }
  }

  lemma SliceThenSlices(b: string, p: string, rest: seq<string>, t: string, i: nat, j: nat)
    requires i <= j <= |p| <= |t| && t[..|p|] == p && p[i..j] == b && Seqs.SlicesOf(rest, t[|p|..])
    ensures Seqs.SlicesOf([b] + rest, t)
  {
    var n := |p|;
    assert t[i..j] == t[..n][i..j];
    assert t[j..][n - j..] == t[n..];
    Seqs.SlicesOfDrop(rest, t[j..], n - j);
    Seqs.SlicesOfCons(b, rest, t, i, j);
  }

  lemma StripBulletBounds(p: string) returns (i: nat, j: nat)
    ensures i <= j <= |p| && StripBullet(p) == p[i..j]
  {
    i, j :| 0 <= i <= j <= |p| && StripBullet(p) == p[i..j] && TrimOnly(p[..i]) && TrimOnly(p[j..]);
  }

  /** What a kept piece becomes: a long enough, separator-free, trimmed bullet. */
  predicate IsBullet(b: string)
  {
    |b| >= 2 && NoSeparator(b) && !IsBulletTrim(b[0]) && !IsBulletTrim(b[|b| - 1])
  }

  predicate AllBullets(bs: seq<string>)
  {
    forall k :: 0 <= k < |bs| ==> IsBullet(bs[k])
  }

  lemma {:induction false} KeptAreBullets(ps: seq<string>)
    requires forall k :: 0 <= k < |ps| ==> NoSeparator(ps[k])
    ensures forall k :: 0 <= k < |KeepPieces(ps)| ==> IsBullet(KeepPieces(ps)[k])
    decreases |ps|
  {
    if ps != [] {
      KeptAreBullets(ps[1..]);
      KeepHead(ps);
      AllBulletsAppend(Keep(ps[0]), KeepPieces(ps[1..]));
    }
  }

  lemma KeepHead(ps: seq<string>)
    requires ps != [] && NoSeparator(ps[0])
    ensures KeepPieces(ps) == Keep(ps[0]) + KeepPieces(ps[1..])
    ensures AllBullets(Keep(ps[0]))
  {
  }

  lemma AllBulletsAppend(a: seq<string>, b: seq<string>)
    requires AllBullets(a) && AllBullets(b)
    ensures AllBullets(a + b)
  {
    forall k | 0 <= k < |a + b|
      ensures IsBullet((a + b)[k])
    {
      if k < |a| {
        assert (a + b)[k] == a[k];
      } else {
        assert (a + b)[k] == b[k - |a|];
      }
    }
  }

  /**
   * In a separator-free piece the only strip characters are space and tab,
   * so the bullet strip removes only whitespace and keeps every character
   * `str.strip()` keeps: a piece whose stripped form is longer than one
   * character gives a bullet of at least two.
   */
  lemma StrippedPieceIsBullet(p: string)
    requires NoSeparator(p) && |Strip(p)| > 1
    ensures IsBullet(StripBullet(p))
  {
    StripEnds(p);
    NonSpaceStrip(p);
    var i, j := StripBulletSlice(p);
    BulletOfSlice(p, i, j, Strip(p), StripBullet(p));
  }

  lemma StripEnds(p: string)
    ensures var sp := Strip(p); sp == [] || (!IsSpace(sp[0]) && !IsSpace(sp[|sp| - 1]))
  {
  }

  lemma StripBulletSlice(p: string) returns (i: nat, j: nat)
    ensures i <= j <= |p| && StripBullet(p) == p[i..j] && TrimOnly(p[..i]) && TrimOnly(p[j..])
    ensures var b := StripBullet(p); b == [] || (!IsBulletTrim(b[0]) && !IsBulletTrim(b[|b| - 1]))
  {
    i, j :| 0 <= i <= j <= |p| && StripBullet(p) == p[i..j] && TrimOnly(p[..i]) && TrimOnly(p[j..]);
  }

  /** The bullet-strip slice of a separator-free piece whose whitespace strip `sp` is long enough. */
  lemma BulletOfSlice(p: string, i: nat, j: nat, sp: string, b: string)
    requires NoSeparator(p) && i <= j <= |p| && b == p[i..j] && TrimOnly(p[..i]) && TrimOnly(p[j..])
    requires b == [] || (!IsBulletTrim(b[0]) && !IsBulletTrim(b[|b| - 1]))
    requires |sp| > 1 && !IsSpace(sp[0]) && !IsSpace(sp[|sp| - 1]) && NonSpace(sp) == NonSpace(p)
    ensures IsBullet(b)
  {
    EndsAreSpace(p, i, j);
    SliceNoSeparator(p, i, j);
    NonSpaceMiddle(p, i, j);
    NonSpaceOfEnds(sp);
    NonSpaceShorter(b);
  }

  lemma SliceNoSeparator(p: string, i: nat, j: nat)
    requires NoSeparator(p) && i <= j <= |p|
    ensures NoSeparator(p[i..j])
  {
    forall k | 0 <= k < j - i
      ensures !IsSeparator(p[i..j][k])
    {
      assert p[i..j][k] == p[i + k];
    }
  }

  /** Without separators the strip characters left are space and tab, both whitespace. */
  lemma EndsAreSpace(p: string, i: nat, j: nat)
    requires NoSeparator(p) && i <= j <= |p| && TrimOnly(p[..i]) && TrimOnly(p[j..])
    ensures AllSpace(p[..i]) && AllSpace(p[j..])
  {
    forall k | 0 <= k < i
      ensures IsSpace(p[..i][k])
    {
      assert p[..i][k] == p[k];
      assert IsBulletTrim(p[k]) && !IsSeparator(p[k]);
    }
    var tail := p[j..];
    forall k | 0 <= k < |tail|
      ensures IsSpace(tail[k])
    {
      assert tail[k] == p[j + k];
      assert IsBulletTrim(p[j + k]) && !IsSeparator(p[j + k]);
    }
  }

  lemma {:induction false} NonSpaceShorter(s: string)
    ensures |NonSpace(s)| <= |s|
    decreases |s|
  {
    if s != [] {
      NonSpaceShorter(s[1..]);
    }
  }

  lemma NonSpaceOfEnds(s: string)
    requires |s| >= 2 && !IsSpace(s[0]) && !IsSpace(s[|s| - 1])
    ensures |NonSpace(s)| >= 2
  {
    assert NonSpace(s) == [s[0]] + NonSpace(s[1..]);
    NonSpaceKeeps(s[1..], |s| - 2);
  }

  lemma {:induction false} NonSpaceKeeps(s: string, i: nat)
    requires i < |s| && !IsSpace(s[i])
    ensures NonSpace(s) != []
    decreases i
  {
    if i > 0 && IsSpace(s[0]) {
      NonSpaceKeeps(s[1..], i - 1);
    }
  }

  /** A text without separators is one piece: one bullet when it has more than one visible character, none otherwise. */
  lemma OnePiece(text: string)
    requires text != [] && NoSeparator(text)
    ensures |Strip(text)| > 1 ==> SplitToBullets(text) == [StripBullet(text)]
    ensures |Strip(text)| <= 1 ==> SplitToBullets(text) == []
  {
    var none: string := [];
    PiecesWithoutSeparator(text, none);
    assert none + text == text;
    BulletsOfOnePiece(text, Pieces(text, []));
  }

  lemma BulletsOfOnePiece(text: string, ps: seq<string>)
    requires text != [] && ps == Pieces(text, []) && ps == [text]
    ensures SplitToBullets(text) == Keep(text)
  {
    assert KeepPieces(ps) == Keep(text) + KeepPieces([]);
    assert |Keep(text)| <= MaxBullets;
  }

  lemma {:induction false} PiecesWithoutSeparator(s: string, cur: string)
    requires NoSeparator(s) && NoSeparator(cur)
    ensures Pieces(s, cur) == [cur + s]
    decreases |s|
  {
    if s == [] {
      assert cur + s == cur;
    } else {
      assert NoSeparator(cur + [s[0]]);
      PiecesWithoutSeparator(s[1..], cur + [s[0]]);
      assert cur + [s[0]] + s[1..] == cur + s;
    }
  }

  // ------------------------------------------------------ ends_with_punctuation

  predicate IsClosing(c: char)
  {
    c == '.' || c == '!' || c == '?' || c == '…'
  }

  /**
   * `re.search(r"[.!?…]$", text)`: a closing mark at the end, or just before
   * a final newline, where Python's `$` also matches.
   */
  predicate EndsWithPunctuation(text: string)
  {
    (|text| >= 1 && IsClosing(text[|text| - 1]))
    || (|text| >= 2 && text[|text| - 1] == '\n' && IsClosing(text[|text| - 2]))
  }

  /** On text already stripped of whitespace the test is a test of the last character. */
  lemma PunctuationOfStripped(text: string)
    requires text != [] && !IsSpace(text[|text| - 1])
    ensures EndsWithPunctuation(text) <==> IsClosing(text[|text| - 1])
  {
  }

  // ------------------------------------------------- extract_article_body_sections

  type HeadingLevel = l: nat | 1 <= l <= 4 witness 1

  /** The element kinds the body walk visits. */
  datatype Tag = Heading(level: HeadingLevel) | Strong | Bold | ListEntry | Para

  /** An element with its text as `get_text(" ", strip=True)` gives it. */
  datatype Element = Element(tag: Tag, text: string)

  datatype Section = Header(level: nat, text: string) | ListItem(text: string) | Paragraph(text: string)

  /** The section an element contributes, if any: too-short text and punctuated bold text give none. */
  function Classify(e: Element): (s: Option<Section>)
    ensures s.Some? ==> s.value.text == e.text && |e.text| >= 2
    ensures s.Some? && s.value.Header? ==> 1 <= s.value.level <= 5
  {
    if e.text == [] || |e.text| < 2 then None
    else match e.tag
      case Heading(l) => Some(Header(l, e.text))
      case Strong => if EndsWithPunctuation(e.text) then None else Some(Header(5, e.text))
      case Bold => if EndsWithPunctuation(e.text) then None else Some(Header(5, e.text))
      case ListEntry => Some(ListItem(e.text))
      case Para => Some(Paragraph(e.text))
  }

  function Classified(es: seq<Element>): (r: seq<Section>)
    ensures |r| <= |es|
  {
    if es == [] then []
    else (match Classify(es[0]) case Some(s) => [s] case None => []) + Classified(es[1..])
  }

  /** The cleanup loop: drop a section equal to the last one kept, which is `prev`. */
  function DropRepeats<T(==)>(xs: seq<T>, prev: Option<T>): (r: seq<T>)
    ensures r != [] && prev.Some? ==> r[0] != prev.value
    ensures forall x :: x in r ==> x in xs
    decreases |xs|
  {
    if xs == [] then []
    else if prev == Some(xs[0]) then DropRepeats(xs[1..], prev)
    else [xs[0]] + DropRepeats(xs[1..], Some(xs[0]))
  }

  /** `extract_article_body_sections` given the visited elements in document order. */
  function BodySections(es: seq<Element>): seq<Section>
  {
    DropRepeats(Classified(es), None)
  }

  predicate NoAdjacentRepeats<T(==)>(xs: seq<T>)
  {
    forall i :: 0 <= i < |xs| - 1 ==> xs[i] != xs[i + 1]
  }

  /** After cleanup no two neighbouring sections are equal. */
  lemma {:induction false} DropRepeatsSpaced<T>(xs: seq<T>, prev: Option<T>)
    ensures NoAdjacentRepeats(DropRepeats(xs, prev))
    decreases |xs|
  {
    if xs != [] {
      if prev == Some(xs[0]) {
        DropRepeatsSpaced(xs[1..], prev);
      } else {
        var rest := DropRepeats(xs[1..], Some(xs[0]));
        DropRepeatsSpaced(xs[1..], Some(xs[0]));
        var r := [xs[0]] + rest;
        forall i | 0 <= i < |r| - 1
          ensures r[i] != r[i + 1]
        {
          if i > 0 {
            assert r[i] == rest[i - 1] && r[i + 1] == rest[i];
          }
        }
      }
    }
  }

  /** Cleanup loses no section: everything not equal to the seed `prev` survives. */
  lemma {:induction false} DropRepeatsKeeps<T>(xs: seq<T>, prev: Option<T>, x: T)
    requires x in xs && prev != Some(x)
    ensures x in DropRepeats(xs, prev)
    decreases |xs|
  {
    if xs[0] != x {
      if prev == Some(xs[0]) {
        DropRepeatsKeeps(xs[1..], prev, x);
      } else {
        DropRepeatsKeeps(xs[1..], Some(xs[0]), x);
      }
    }
  }

  /** A sequence with no neighbouring repeats is left as it is, so cleanup is idempotent. */
  lemma {:induction false} DropRepeatsOfSpaced<T>(xs: seq<T>, prev: Option<T>)
    requires NoAdjacentRepeats(xs)
    requires xs != [] && prev.Some? ==> xs[0] != prev.value
    ensures DropRepeats(xs, prev) == xs
    decreases |xs|
  {
    if xs != [] {
      assert NoAdjacentRepeats(xs[1..]) by {
        forall i | 0 <= i < |xs[1..]| - 1
          ensures xs[1..][i] != xs[1..][i + 1]
        {
          assert xs[1..][i] == xs[i + 1] && xs[1..][i + 1] == xs[i + 2];
        }
      }
      DropRepeatsOfSpaced(xs[1..], Some(xs[0]));
    }
  }

  /**
   * The body walk's guarantees: no two neighbouring sections are equal,
   * cleaning again changes nothing, and a section is present exactly when
   * some element classifies to it.
   */
  lemma BodySectionsClean(es: seq<Element>)
    ensures NoAdjacentRepeats(BodySections(es))
    ensures DropRepeats(BodySections(es), None) == BodySections(es)
    ensures forall s :: s in BodySections(es) <==> s in Classified(es)
  {
    DropRepeatsSpaced(Classified(es), None);
    DropRepeatsOfSpaced(BodySections(es), None);
    forall s | s in Classified(es)
      ensures s in BodySections(es)
    {
      DropRepeatsKeeps(Classified(es), None, s);
    }
  }

  lemma {:induction false} ClassifiedMember(es: seq<Element>, s: Section)
    ensures s in Classified(es) <==> exists k :: 0 <= k < |es| && Classify(es[k]) == Some(s)
    decreases |es|
  {
    if es != [] {
      ClassifiedMember(es[1..], s);
      if s in Classified(es[1..]) {
        var k :| 0 <= k < |es[1..]| && Classify(es[1..][k]) == Some(s);
        assert Classify(es[k + 1]) == Some(s);
      }
      if exists k :: 0 <= k < |es| && Classify(es[k]) == Some(s) {
        var k :| 0 <= k < |es| && Classify(es[k]) == Some(s);
        if k > 0 {
          assert es[1..][k - 1] == es[k];
        }
      }
    }
  }

  predicate IsBoldWith(e: Element, text: string)
  {
    (e.tag == Strong || e.tag == Bold) && e.text == text
  }

  /**
   * Bold text becomes a level-5 header exactly when it is at least two
   * characters and does not end in `.`, `!`, `?` or `…`; and a level-5
   * header in the body is always such bold text.
   */
  lemma BoldHeaders(es: seq<Element>, text: string)
    ensures (exists k :: 0 <= k < |es| && IsBoldWith(es[k], text)) && |text| >= 2 && !EndsWithPunctuation(text)
      ==> Header(5, text) in BodySections(es)
    ensures Header(5, text) in BodySections(es)
      ==> (exists k :: 0 <= k < |es| && IsBoldWith(es[k], text)) && !EndsWithPunctuation(text)
  {
    BodySectionsClean(es);
    ClassifiedMember(es, Header(5, text));
    if Header(5, text) in BodySections(es) {
      var k :| 0 <= k < |es| && Classify(es[k]) == Some(Header(5, text));
      assert es[k].tag == Strong || es[k].tag == Bold;
    }
  }
}

=== FILE: cursor.dfy ===
/**
 * The per-user tweet cursor of the X bot: the warm start of
 * `bootstrap_warm_start` (auto_x_to_telegram_v2.py:805-828) and one user's
 * turn of the polling loop in `run` (auto_x_to_telegram_v2.py:1005-1067).
 * The cursor file is a map from user id to the largest tweet id handled.
 */
module Cursor {
  import opened Wrappers
  import Seqs
  import opened Timeline

  type Store = map<string, nat>

  /** Users whose quote tweets are skipped (auto_x_to_telegram_v2.py:55-59). */
  const ExcludeQuoteUsers: set<string> := {"105353526", "25073877", "1406461126917849096"}

  function Ids(ts: seq<Tweet>): (r: seq<int>)
    ensures |r| == |ts|
    ensures forall k :: 0 <= k < |ts| ==> r[k] == ts[k].id
  {
    if ts == [] then [] else [ts[0].id] + Ids(ts[1..])
  }

  /**
   * The warm start when a user has no stored id: the newest of the (up to
   * five) latest tweets is stored, 0 when there are none, and nothing is sent.
   * `latest` is `None` when the request raised; the error is swallowed and
   * nothing is stored.
   */
  function WarmStart(store: Store, user: string, latest: Option<seq<Tweet>>): (r: Store)
    ensures latest == None ==> r == store
    ensures latest == Some([]) ==> r == store[user := 0]
    ensures latest.Some? && latest.value != [] ==> (user in r && r.Keys == store.Keys + {user}
      && (exists k :: 0 <= k < |latest.value| && r[user] == latest.value[k].id)
      && (forall k :: 0 <= k < |latest.value| ==> latest.value[k].id <= r[user]))
    ensures forall u :: u != user ==> (u in r <==> u in store) && (u in r ==> r[u] == store[u])
  {
    match latest
    case None => store
    case Some(ts) =>
      if ts == [] then store[user := 0]
      else
        var m := Seqs.Max(Ids(ts));
        assert m >= 0 by {
          assert m == Ids(ts)[0] || m >= Ids(ts)[0];
        }
        store[user := m]
  }

  /** Is this tweet skipped as a quote of an excluded user? */
  predicate Skipped(user: string, t: Tweet)
  {
    user in ExcludeQuoteUsers && t.quotes
  }

  /**
   * How far a user's turn gets through the yielded tweets: the largest id
   * seen, the tweets sent, and whether handling one raised. `raises(t)` says
   * whether handling tweet `t` raises at any step: fetching the retweeted
   * original or the full text, extracting images, formatting the date, or the
   * translation pipeline's crash.
   */
  datatype Progress = Progress(maxId: nat, sent: seq<Tweet>, crashed: bool)

  function Handle(user: string, ts: seq<Tweet>, raises: Tweet -> bool, maxId: nat): (p: Progress)
    ensures maxId <= p.maxId
    ensures !p.crashed ==> forall k :: 0 <= k < |ts| ==> ts[k].id <= p.maxId
    ensures p.maxId == maxId || exists k :: 0 <= k < |ts| && p.maxId == ts[k].id
    ensures forall k :: 0 <= k < |p.sent| ==> p.sent[k] in ts && !Skipped(user, p.sent[k])
  {
    if ts == [] then Progress(maxId, [], false)
    else
      var t := ts[0];
      var next := if t.id > maxId then t.id else maxId;
      if Skipped(user, t) then
        var p := Handle(user, ts[1..], raises, next);
        assert forall k :: 1 <= k < |ts| ==> ts[k] == ts[1..][k - 1];
        p
      else if raises(t) then Progress(maxId, [], true)
      else
        var p := Handle(user, ts[1..], raises, next);
        assert forall k :: 1 <= k < |ts| ==> ts[k] == ts[1..][k - 1];
        Progress(p.maxId, [t] + p.sent, p.crashed)
  }

  /** The result of a user's turn: the new store and the tweets sent, in order. */
  datatype Turn = Turn(store: Store, sent: seq<Tweet>)

  /**
   * One user's turn. Without a stored id the turn is a warm start. Otherwise
   * `fetched` is what the timeline replay yields (`None` when it raised); the
   * marker is saved only when something was fetched, no handling raised, and
   * the largest id is non-zero.
   */
  function UserTurn(store: Store, user: string, latest: Option<seq<Tweet>>,
                    fetched: Option<seq<Tweet>>, raises: Tweet -> bool): (r: Turn)
    ensures forall u :: u != user ==> (u in r.store <==> u in store) && (u in r.store ==> r.store[u] == store[u])
    ensures user in store ==> user in r.store && store[user] <= r.store[user]
  {
    if user !in store then Turn(WarmStart(store, user, latest), [])
    else match fetched
      case None => Turn(store, [])
      case Some(ts) =>
        var p := Handle(user, ts, raises, store[user]);
        if !p.crashed && ts != [] && p.maxId != 0 then Turn(store[user := p.maxId], p.sent)
        else Turn(store, p.sent)
  }

  /** Without a stored id the turn sends nothing and stores the warm-start marker. */
  lemma WarmStartSendsNothing(store: Store, user: string, latest: Option<seq<Tweet>>,
                              fetched: Option<seq<Tweet>>, raises: Tweet -> bool)
    requires user !in store
    ensures UserTurn(store, user, latest, fetched, raises).sent == []
    ensures latest.Some? ==> user in UserTurn(store, user, latest, fetched, raises).store
  {
  }

  /** The largest of `m` and the ids of `ts`. */
  function MaxWith(m: nat, ts: seq<Tweet>): (r: nat)
    ensures m <= r && forall k :: 0 <= k < |ts| ==> ts[k].id <= r
    ensures r == m || exists k :: 0 <= k < |ts| && r == ts[k].id
    decreases |ts|
  {
    if ts == [] then m else MaxWith(if ts[0].id > m then ts[0].id else m, ts[1..])
  }

  lemma {:induction false} HandleMax(user: string, ts: seq<Tweet>, raises: Tweet -> bool, maxId: nat)
    requires !Handle(user, ts, raises, maxId).crashed
    ensures Handle(user, ts, raises, maxId).maxId == MaxWith(maxId, ts)
    decreases |ts|
  {
    if ts != [] {
      var next := if ts[0].id > maxId then ts[0].id else maxId;
      HandleMax(user, ts[1..], raises, next);
    }
  }

  /** The tweets a turn sends when nothing raises: the yielded ones that are not skipped, in order. */
  function Unskipped(user: string, ts: seq<Tweet>): seq<Tweet>
  {
    if ts == [] then [] else (if Skipped(user, ts[0]) then [] else [ts[0]]) + Unskipped(user, ts[1..])
  }

  lemma {:induction false} HandleSendsUnskipped(user: string, ts: seq<Tweet>, raises: Tweet -> bool, maxId: nat)
    requires !Handle(user, ts, raises, maxId).crashed
    ensures Handle(user, ts, raises, maxId).sent == Unskipped(user, ts)
    decreases |ts|
  {
    if ts != [] {
      var next := if ts[0].id > maxId then ts[0].id else maxId;
      HandleSendsUnskipped(user, ts[1..], raises, next);
    }
  }

  /**
   * A turn where nothing raises sends every yielded tweet except skipped
   * quotes, and the marker becomes the largest of the old marker and every
   * yielded id, skipped quotes included.
   */
  lemma TurnAdvancesToMax(store: Store, user: string, latest: Option<seq<Tweet>>,
                          ts: seq<Tweet>, raises: Tweet -> bool)
    requires user in store && ts != []
    requires forall k :: 0 <= k < |ts| ==> !raises(ts[k])
    ensures UserTurn(store, user, latest, Some(ts), raises).sent == Unskipped(user, ts)
    ensures UserTurn(store, user, latest, Some(ts), raises).store[user] == MaxWith(store[user], ts)
  {
    NoRaiseNoCrash(user, ts, raises, store[user]);
    HandleMax(user, ts, raises, store[user]);
    HandleSendsUnskipped(user, ts, raises, store[user]);
    var m := MaxWith(store[user], ts);
    if m == 0 {
      assert UserTurn(store, user, latest, Some(ts), raises).store == store;
    }
  }

  lemma {:induction false} NoRaiseNoCrash(user: string, ts: seq<Tweet>, raises: Tweet -> bool, maxId: nat)
    requires forall k :: 0 <= k < |ts| ==> !raises(ts[k])
    ensures !Handle(user, ts, raises, maxId).crashed
    decreases |ts|
  {
    if ts != [] {
      assert forall k :: 0 <= k < |ts[1..]| ==> ts[1..][k] == ts[k + 1];
      NoRaiseNoCrash(user, ts[1..], raises, if ts[0].id > maxId then ts[0].id else maxId);
    }
  }

  /** A turn in which handling a tweet raises leaves the store as it was. */
  lemma CrashKeepsStore(store: Store, user: string, latest: Option<seq<Tweet>>,
                        ts: seq<Tweet>, raises: Tweet -> bool)
    requires user in store
    requires Handle(user, ts, raises, store[user]).crashed
    ensures UserTurn(store, user, latest, Some(ts), raises).store == store
  {
  }
}

=== FILE: dispatch.dfy ===
/**
 * The Telegram dispatch plan of `send_to_telegram_with_optional_image`
 * (auto_x_to_telegram_v2.py:682-746): which requests go out for a message
 * and its image URLs, and how far the plan gets when a request fails.
 */
module Dispatch {
  import opened Wrappers
  import Seqs

  /** Longest message sent as a photo caption (auto_x_to_telegram_v2.py:51). */
  const MaxCaptionLength := 1000

  /** Most photos in one media group (auto_x_to_telegram_v2.py:719). */
  const MaxGroupSize := 10

  datatype GroupItem = GroupItem(photo: string, caption: Option<string>)

  /** One Telegram request: `sendMessage`, `sendPhoto` or `sendMediaGroup`. */
  datatype Send =
    | SendText(text: string)
    | SendPhoto(photo: string, caption: Option<string>)
    | SendGroup(items: seq<GroupItem>)

  function GroupItems(message: string, photos: seq<string>, i: nat): (r: seq<GroupItem>)
    requires i <= |photos|
    ensures |r| == |photos| - i
    ensures forall k :: 0 <= k < |r| ==> r[k].photo == photos[i + k]
    ensures forall k :: 0 <= k < |r| ==>
      r[k].caption == (if i + k == 0 && |message| <= MaxCaptionLength then Some(message) else None)
    decreases |photos| - i
  {
    if i == |photos| then []
    else
      var caption := if i == 0 && |message| <= MaxCaptionLength then Some(message) else None;
      [GroupItem(photos[i], caption)] + GroupItems(message, photos, i + 1)
  }

  /** The requests `send_to_telegram_with_optional_image` makes, in order. */
  function Plan(message: string, images: seq<string>): seq<Send>
  {
    if images == [] then [SendText(message)]
    else if |images| == 1 then
      if |message| <= MaxCaptionLength then [SendPhoto(images[0], Some(message))]
      else [SendPhoto(images[0], None), SendText(message)]
    else
      var group := SendGroup(GroupItems(message, Seqs.Take(images, MaxGroupSize), 0));
      if |message| > MaxCaptionLength then [group, SendText(message)] else [group]
  }

  /** The photos a request carries. */
  function PhotosOf(s: Send): seq<string>
  {
    match s
    case SendText(_) => []
    case SendPhoto(p, _) => [p]
    case SendGroup(items) => seq(|items|, k requires 0 <= k < |items| => items[k].photo)
  }

  /** How many times a request carries `message`, as text or as a caption. */
  function Carries(s: Send, message: string): nat
  {
    match s
    case SendText(t) => if t == message then 1 else 0
    case SendPhoto(_, c) => if c == Some(message) then 1 else 0
    case SendGroup(items) => CaptionsOf(items, message)
  }

  function CaptionsOf(items: seq<GroupItem>, message: string): nat
  {
    if items == [] then 0 else (if items[0].caption == Some(message) then 1 else 0) + CaptionsOf(items[1..], message)
  }

  function PhotosOfPlan(plan: seq<Send>): seq<string>
  {
    if plan == [] then [] else PhotosOf(plan[0]) + PhotosOfPlan(plan[1..])
  }

  function CarriesInPlan(plan: seq<Send>, message: string): nat
  {
    if plan == [] then 0 else Carries(plan[0], message) + CarriesInPlan(plan[1..], message)
  }

  /** Every caption in the plan is the message, and only when it fits. */
  predicate CaptionsFit(plan: seq<Send>, message: string)
  {
    forall i :: 0 <= i < |plan| ==>
      match plan[i]
      case SendText(t) => t == message
      case SendPhoto(_, c) => c.Some? ==> c.value == message && |message| <= MaxCaptionLength
      case SendGroup(items) => forall k :: 0 <= k < |items| ==>
        items[k].caption.Some? ==> k == 0 && items[k].caption.value == message && |message| <= MaxCaptionLength
  }

  lemma {:induction false} CaptionsOfGroup(message: string, photos: seq<string>, i: nat)
    requires i <= |photos|
    ensures CaptionsOf(GroupItems(message, photos, i), message) ==
      (if i == 0 && |photos| > 0 && |message| <= MaxCaptionLength then 1 else 0)
    decreases |photos| - i
  {
    if i < |photos| {
      CaptionsOfGroup(message, photos, i + 1);
    }
  }

  /**
   * The plan delivers the message exactly once (as a text or as a caption),
   * sends the first ten images (at most) in order, and captions only with the
   * message and only when it fits.
   */
  lemma PlanDeliversOnce(message: string, images: seq<string>)
    ensures CarriesInPlan(Plan(message, images), message) == 1
    ensures PhotosOfPlan(Plan(message, images)) == Seqs.Take(images, MaxGroupSize)
    ensures CaptionsFit(Plan(message, images), message)
  {
    var plan := Plan(message, images);
    var tail := if images != [] && |message| > MaxCaptionLength then [SendText(message)] else [];
    assert CarriesInPlan(tail, message) == |tail| && PhotosOfPlan(tail) == [] by {
      if tail != [] {
        assert tail[1..] == [];
      }
    }
    if |images| >= 2 {
      var photos := Seqs.Take(images, MaxGroupSize);
      var g := SendGroup(GroupItems(message, photos, 0));
      CaptionsOfGroup(message, photos, 0);
      assert PhotosOf(g) == photos;
      assert plan == [g] + tail && plan[1..] == tail;
    } else if |images| == 1 {
      assert Seqs.Take(images, MaxGroupSize) == [images[0]];
      var p := SendPhoto(images[0], if |message| <= MaxCaptionLength then Some(message) else None);
      assert plan == [p] + tail && plan[1..] == tail;
    } else {
      assert plan[1..] == [];
    }
  }

  /** The shape of the plan by image count, as the four branches of the source promise. */
  lemma PlanShape(message: string, images: seq<string>)
    ensures images == [] ==> Plan(message, images) == [SendText(message)]
    ensures |images| == 1 ==> Plan(message, images)[0].SendPhoto? && Plan(message, images)[0].photo == images[0]
    ensures |images| >= 2 ==> (Plan(message, images)[0].SendGroup?
      && |Plan(message, images)[0].items| == (if |images| < MaxGroupSize then |images| else MaxGroupSize))
    ensures images != [] ==>
      ((|Plan(message, images)| == 2 <==> |message| > MaxCaptionLength)
      && (|Plan(message, images)| == 2 ==> Plan(message, images)[1] == SendText(message)))
  {
  }

  /**
   * What goes out when request `i` succeeds exactly when `ok[i]`: the requests
   * up to and including the first failing one (`raise_for_status` stops the
   * rest, and the error is swallowed).
   */
  function Deliver(plan: seq<Send>, ok: seq<bool>): (sent: seq<Send>)
    requires |ok| == |plan|
    ensures sent <= plan
    ensures forall i :: 0 <= i < |sent| - 1 ==> ok[i]
    ensures |sent| < |plan| ==> sent != [] && !ok[|sent| - 1]
  {
    if plan == [] then []
    else if !ok[0] then [plan[0]]
    else
      var rest := Deliver(plan[1..], ok[1..]);
      assert forall i :: 0 < i < |rest| ==> ok[i] == ok[1..][i - 1];
      [plan[0]] + rest
  }

  /** When every request succeeds the whole plan goes out. */
  lemma DeliverAll(plan: seq<Send>, ok: seq<bool>)
    requires |ok| == |plan| && forall i :: 0 <= i < |ok| ==> ok[i]
    ensures Deliver(plan, ok) == plan
  {
  }
}

=== FILE: feed.dfy ===
/**
 * The Truth Social RSS source of the X bot: the timestamp cursor of
 * `trump_fetch_new_entries` (auto_x_to_telegram_v2.py:915-922), the first-run
 * backfill of `trump_first_run_backfill` (auto_x_to_telegram_v2.py:924-947),
 * one poll of `trump_poll_once` (auto_x_to_telegram_v2.py:949-978) and the
 * image list of `trump_extract_image_urls` (auto_x_to_telegram_v2.py:868-889).
 * Timestamps are integers; an entry whose date does not parse has timestamp 0,
 * as `trump_entry_ts` gives it.
 */
module TruthFeed {
  import opened Text
  import Seqs
  import Html

  datatype Entry = Entry(ts: int, summary: string)

  predicate Ascending(es: seq<Entry>)
  {
    forall i, j :: 0 <= i < j < |es| ==> es[i].ts <= es[j].ts
  }

  /** Inserts `e` before the first entry that is not older, keeping earlier entries of equal time first. */
  function Insert(e: Entry, es: seq<Entry>): (r: seq<Entry>)
    requires Ascending(es)
    ensures Ascending(r)
    ensures multiset(r) == multiset(es) + multiset{e}
    ensures r[0] == e || (es != [] && r[0] == es[0])
  {
    if es == [] || e.ts <= es[0].ts then
      AscendingCons(e, es);
      [e] + es
    else
      AscendingTail(es);
      var rest := Insert(e, es[1..]);
      InsertedHead(e, es, rest);
      [es[0]] + rest
  }

  lemma AscendingTail(es: seq<Entry>)
    requires Ascending(es) && es != []
    ensures Ascending(es[1..])
  {
    forall i, j | 0 <= i < j < |es| - 1
      ensures es[1..][i].ts <= es[1..][j].ts
    {
      assert es[1..][i] == es[i + 1] && es[1..][j] == es[j + 1];
    }
  }

  /** Putting the first entry back in front of the insertion into the rest. */
  lemma InsertedHead(e: Entry, es: seq<Entry>, rest: seq<Entry>)
    requires es != [] && Ascending(es) && es[0].ts < e.ts
    requires Ascending(rest) && multiset(rest) == multiset(es[1..]) + multiset{e}
    requires rest[0] == e || (es[1..] != [] && rest[0] == es[1..][0])
    ensures Ascending([es[0]] + rest)
    ensures multiset([es[0]] + rest) == multiset(es) + multiset{e}
  {
    assert es == [es[0]] + es[1..];
    if rest[0] != e {
      assert es[0].ts <= es[1].ts;
    }
    AscendingCons(es[0], rest);
  }

  lemma AscendingCons(x: Entry, rest: seq<Entry>)
    requires Ascending(rest) && (rest == [] || x.ts <= rest[0].ts)
    ensures Ascending([x] + rest)
  {
    var r := [x] + rest;
    forall i, j | 0 <= i < j < |r|
      ensures r[i].ts <= r[j].ts
    {
      if i == 0 && j > 1 {
        assert rest[0].ts <= rest[j - 1].ts;
      }
    }
  }

  /** `entries.sort(key=trump_entry_ts)`: oldest first. */
  function Sort(es: seq<Entry>): (r: seq<Entry>)
    ensures Ascending(r)
    ensures multiset(r) == multiset(es)
  {
    if es == [] then []
    else
      assert es == [es[0]] + es[1..];
      Insert(es[0], Sort(es[1..]))
  }

  /** The test of the list comprehension in `trump_fetch_new_entries`. */
  function Newer(marker: int): Entry -> bool
  {
    (e: Entry) => e.ts > marker
  }

  /** The entries strictly newer than `marker`, in order. */
  function NewerThan(es: seq<Entry>, marker: int): (r: seq<Entry>)
    ensures forall k :: 0 <= k < |r| ==> r[k].ts > marker
  {
    Seqs.Filter(es, Newer(marker))
  }

  lemma NewerThanAscending(es: seq<Entry>, marker: int)
    requires Ascending(es)
    ensures Ascending(NewerThan(es, marker))
  {
    Seqs.FilterSubseq(es, Newer(marker));
    SubseqAscending(NewerThan(es, marker), es);
  }

  lemma {:induction false} SubseqAscending(a: seq<Entry>, b: seq<Entry>)
    requires Seqs.IsSubseq(a, b) && Ascending(b)
    ensures Ascending(a)
    decreases |b|
  {
    if a != [] {
      assert forall k :: 0 <= k < |b| - 1 ==> b[1..][k] == b[k + 1];
      if a[0] == b[0] {
        SubseqAscending(a[1..], b[1..]);
        Seqs.SubseqMembers(a[1..], b[1..]);
        forall j | 1 <= j < |a|
          ensures a[0].ts <= a[j].ts
        {
          assert a[j] == a[1..][j - 1];
          assert a[j] in b[1..];
          var k :| 0 <= k < |b[1..]| && b[1..][k] == a[j];
          assert b[0].ts <= b[k + 1].ts;
        }
      } else {
        SubseqAscending(a, b[1..]);
      }
    }
  }

  function Timestamps(es: seq<Entry>): (r: seq<int>)
    ensures |r| == |es|
    ensures forall k :: 0 <= k < |es| ==> r[k] == es[k].ts
  {
    if es == [] then [] else [es[0].ts] + Timestamps(es[1..])
  }

  /** `max(trump_entry_ts(e) for e in entries)` */
  function Newest(es: seq<Entry>): (m: int)
    requires es != []
    ensures forall k :: 0 <= k < |es| ==> es[k].ts <= m
    ensures exists k :: 0 <= k < |es| && es[k].ts == m
  {
    var ts := Timestamps(es);
    var m := Seqs.Max(ts);
    assert exists k :: 0 <= k < |ts| && ts[k] == m;
    m
  }

  /** The entries a fetch returns and the marker stored afterwards. */
  datatype Poll = Poll(entries: seq<Entry>, marker: int)

  /**
   * `trump_fetch_new_entries` as written: oldest first, exactly the feed's
   * entries newer than the marker, each as often as the feed holds it; and,
   * when the feed is non-empty, the newest timestamp of the feed stored as the
   * marker, even when it is older than the stored one.
   */
  function FetchNewAsWritten(feed: seq<Entry>, marker: int): (p: Poll)
    ensures p.entries == NewerThan(Sort(feed), marker)
    ensures Ascending(p.entries)
    ensures forall e :: multiset(p.entries)[e] == if e.ts > marker then multiset(feed)[e] else 0
    ensures feed == [] ==> p.marker == marker
    ensures feed != [] ==> p.marker == Newest(feed)
    ensures feed != [] ==> forall k :: 0 <= k < |feed| ==> feed[k].ts <= p.marker
    ensures feed != [] ==> exists k :: 0 <= k < |feed| && feed[k].ts == p.marker
  {
    NewerThanAscending(Sort(feed), marker);
    forall e
      ensures multiset(NewerThan(Sort(feed), marker))[e] == if e.ts > marker then multiset(feed)[e] else 0
    {
      Seqs.FilterCounts(Sort(feed), Newer(marker), e);
    }
    Poll(NewerThan(Sort(feed), marker), if feed == [] then marker else Newest(feed))
  }

  /** The fetch with the stored marker only ever moving forward. */
  function FetchNew(feed: seq<Entry>, marker: int): (p: Poll)
    ensures marker <= p.marker
    ensures forall k :: 0 <= k < |feed| ==> feed[k].ts <= p.marker
    ensures feed == [] ==> p.marker == marker
    ensures forall k :: 0 <= k < |p.entries| ==> marker < p.entries[k].ts <= p.marker
  {
    var newest := if feed == [] then marker else Newest(feed);
    var entries := NewerThan(Sort(feed), marker);
    forall k | 0 <= k < |entries|
      ensures entries[k].ts <= newest
    {
      Seqs.FilterMember(Sort(feed), Newer(marker), entries[k]);
      assert entries[k] in multiset(Sort(feed));
      assert entries[k] in feed;
    }
    Poll(entries, if newest > marker then newest else marker)
  }

  /**
   * A fetch returns, oldest first, exactly the feed entries newer than the
   * stored marker, each as often as the feed holds it.
   */
  lemma FetchReturnsNewer(feed: seq<Entry>, marker: int)
    ensures Ascending(FetchNew(feed, marker).entries)
    ensures forall e :: multiset(FetchNew(feed, marker).entries)[e] == if e.ts > marker then multiset(feed)[e] else 0
  {
    NewerThanAscending(Sort(feed), marker);
    forall e
      ensures multiset(FetchNew(feed, marker).entries)[e] == if e.ts > marker then multiset(feed)[e] else 0
    {
      Seqs.FilterCounts(Sort(feed), Newer(marker), e);
    }
  }

  /** The entries returned by successive fetches over `feeds`, starting from `marker`, each fetch storing its marker for the next. */
  function RunSeries(fetch: (seq<Entry>, int) -> Poll, feeds: seq<seq<Entry>>, marker: int): (polls: seq<seq<Entry>>)
    ensures |polls| == |feeds|
  {
    if feeds == [] then []
    else
      var p := fetch(feeds[0], marker);
      [p.entries] + RunSeries(fetch, feeds[1..], p.marker)
  }

  function Series(feeds: seq<seq<Entry>>, marker: int): seq<seq<Entry>>
  {
    RunSeries(FetchNew, feeds, marker)
  }

  function SeriesAsWritten(feeds: seq<seq<Entry>>, marker: int): seq<seq<Entry>>
  {
    RunSeries(FetchNewAsWritten, feeds, marker)
  }

  /** Every entry a later fetch returns is strictly newer than every entry an earlier fetch returned. */
  predicate NeverRepeats(polls: seq<seq<Entry>>)
  {
    forall i, j, a, b :: 0 <= i < j < |polls| && 0 <= a < |polls[i]| && 0 <= b < |polls[j]| ==>
      polls[i][a].ts < polls[j][b].ts
  }

  /** Every entry of the series is newer than `marker`. */
  predicate AllAbove(polls: seq<seq<Entry>>, marker: int)
  {
    forall j, b :: 0 <= j < |polls| && 0 <= b < |polls[j]| ==> polls[j][b].ts > marker
  }

  lemma {:induction false} SeriesAboveMarker(feeds: seq<seq<Entry>>, marker: int)
    ensures AllAbove(Series(feeds, marker), marker)
    decreases |feeds|
  {
    if feeds != [] {
      var p := FetchNew(feeds[0], marker);
      var rest := Series(feeds[1..], p.marker);
      SeriesAboveMarker(feeds[1..], p.marker);
      var s: seq<seq<Entry>> := [p.entries] + rest;
      assert Series(feeds, marker) == s;
      forall j, b | 0 <= j < |s| && 0 <= b < |s[j]|
        ensures s[j][b].ts > marker
      {
        if j > 0 {
          assert s[j] == rest[j - 1];
          assert rest[j - 1][b].ts > p.marker;
        }
      }
    }
  }

  /**
   * With the marker moving only forward, a series of fetches never returns an
   * entry twice: each fetch returns only entries newer than everything an
   * earlier fetch returned.
   */
  lemma {:induction false} SeriesNeverRepeats(feeds: seq<seq<Entry>>, marker: int)
    ensures NeverRepeats(Series(feeds, marker))
    decreases |feeds|
  {
    if feeds != [] {
      var p := FetchNew(feeds[0], marker);
      var rest := Series(feeds[1..], p.marker);
      SeriesNeverRepeats(feeds[1..], p.marker);
      SeriesAboveMarker(feeds[1..], p.marker);
      NeverRepeatsCons(p.entries, rest, p.marker);
    }
  }

  /** A first poll at or below `m` followed by a non-repeating series above `m` does not repeat. */
  lemma NeverRepeatsCons(head: seq<Entry>, rest: seq<seq<Entry>>, m: int)
    requires forall a :: 0 <= a < |head| ==> head[a].ts <= m
    requires AllAbove(rest, m) && NeverRepeats(rest)
    ensures NeverRepeats([head] + rest)
  {
    var s: seq<seq<Entry>> := [head] + rest;
    forall i, j, a, b | 0 <= i < j < |s| && 0 <= a < |s[i]| && 0 <= b < |s[j]|
      ensures s[i][a].ts < s[j][b].ts
    {
      assert s[j] == rest[j - 1];
      if i == 0 {
        assert s[i][a].ts <= m < rest[j - 1][b].ts;
      } else {
        assert s[i] == rest[i - 1];
      }
    }
  }

  /**
   * As written the marker can move back: with entries at 99 and 100 sent, a
   * feed that briefly holds only the entry at 50 resets the marker to 50, and
   * the entry at 100 is returned again when it reappears.
   */
  lemma AsWrittenRepeats(feeds: seq<seq<Entry>>, a: Entry, b: Entry)
    requires a.ts == 100 && b.ts == 50
    requires feeds == [[a], [b], [b, a]]
    ensures SeriesAsWritten(feeds, 99) == [[a], [], [a]]
    ensures !NeverRepeats(SeriesAsWritten(feeds, 99))
  {
    ThreeFetches(a, b);
    ThreeSteps(FetchNewAsWritten, [a], [b], [b, a], a);
    RepeatedEntry(SeriesAsWritten(feeds, 99), a);
  }

  /** Three fetches whose markers go 100, 50, 100 return `a` in the first and the last. */
  lemma ThreeSteps(fetch: (seq<Entry>, int) -> Poll, f1: seq<Entry>, f2: seq<Entry>, f3: seq<Entry>, a: Entry)
    requires fetch(f1, 99) == Poll([a], 100)
    requires fetch(f2, 100) == Poll([], 50)
    requires fetch(f3, 50) == Poll([a], 100)
    ensures RunSeries(fetch, [f1, f2, f3], 99) == [[a], [], [a]]
  {
    var feeds := [f1, f2, f3];
    assert feeds[1..] == [f2, f3] && feeds[1..][1..] == [f3] && feeds[1..][1..][1..] == [];
    var none: seq<seq<Entry>> := [];
    assert RunSeries(fetch, [f3], 50) == [[a]] + none;
    assert RunSeries(fetch, [f2, f3], 100) == [[]] + [[a]];
    assert RunSeries(fetch, feeds, 99) == [[a]] + [[], [a]];
  }

  lemma RepeatedEntry(polls: seq<seq<Entry>>, a: Entry)
    requires polls == [[a], [], [a]]
    ensures !NeverRepeats(polls)
  {
    assert polls[0][0].ts == polls[2][0].ts;
  }

  lemma ThreeFetches(a: Entry, b: Entry)
    requires a.ts == 100 && b.ts == 50
    ensures FetchNewAsWritten([a], 99) == Poll([a], 100)
    ensures FetchNewAsWritten([b], 100) == Poll([], 50)
    ensures FetchNewAsWritten([b, a], 50) == Poll([a], 100)
  {
    SortTwo(b, a);
    Single(a, 99);
    Single(b, 100);
    assert NewerThan([b, a], 50) == [a] by {
      assert [b, a][1..] == [a];
      Single(a, 50);
    }
    assert Newest([b, a]) == 100;
  }


  lemma Single(e: Entry, marker: int)
    ensures Sort([e]) == [e] && Newest([e]) == e.ts
    ensures NewerThan([e], marker) == if e.ts > marker then [e] else []
  {
    assert [e][1..] == [];
  }

  lemma SortTwo(b: Entry, a: Entry)
    requires b.ts <= a.ts
    ensures Sort([b, a]) == [b, a]
  {
    assert [b, a][1..] == [a];
    assert Sort([a]) == [a];
  }

  /** The last `count` entries of `es` (Python `es[-count:]` for `count > 0`, and all of `es` when `count > |es|`). */
  function Last(es: seq<Entry>, count: nat): (r: seq<Entry>)
    ensures |r| == if count < |es| then count else |es|
    ensures r == es[|es| - |r|..]
  {
    if count < |es| then es[|es| - count..] else es
  }

  /** How many entries the first run backfills (auto_x_to_telegram_v2.py:953). */
  const BackfillCount := 3

  /** The entries a run sent, the marker stored afterwards, and whether the run ended in an exception. */
  datatype Run = Run(sent: seq<Entry>, marker: int, crashed: bool)

  /** The entries sent before the first whose sending raises, and whether one did. */
  datatype Sending = Sending(sent: seq<Entry>, crashed: bool)

  /**
   * Sending `es` in order, where `raises(e)` says whether formatting entry `e`
   * raises (its translation crashes, `Translation.Crashed`); the exception
   * ends the loop.
   */
  function SendUntilRaise(es: seq<Entry>, raises: Entry -> bool): (r: Sending)
    ensures |r.sent| <= |es| && r.sent == es[..|r.sent|]
    ensures forall k :: 0 <= k < |r.sent| ==> !raises(r.sent[k])
    ensures r.crashed <==> |r.sent| < |es|
    ensures r.crashed ==> raises(es[|r.sent|])
    decreases |es|
  {
    if es == [] then Sending([], false)
    else if raises(es[0]) then Sending([], true)
    else
      var rest := SendUntilRaise(es[1..], raises);
      assert [es[0]] + es[1..][..|rest.sent|] == es[..|rest.sent| + 1];
      Sending([es[0]] + rest.sent, rest.crashed)
  }

  /** Does sending any of `es` raise? */
  predicate AnyRaises(es: seq<Entry>, raises: Entry -> bool)
  {
    exists k :: 0 <= k < |es| && raises(es[k])
  }

  /** Sending stops early exactly when some entry raises, and otherwise sends everything. */
  lemma SendUntilRaiseStops(es: seq<Entry>, raises: Entry -> bool)
    ensures SendUntilRaise(es, raises).crashed <==> AnyRaises(es, raises)
    ensures !AnyRaises(es, raises) ==> SendUntilRaise(es, raises).sent == es
  {
  }

  /** The entries a backfill sends: the newest `count`, oldest first, none when `count` is 0. */
  function Window(feed: seq<Entry>, count: nat): seq<Entry>
  {
    if count > 0 then Last(Sort(feed), count) else []
  }

  /**
   * `trump_first_run_backfill(count)`: with an empty feed nothing is sent and
   * the marker is untouched; otherwise the newest `count` entries are sent
   * oldest first, blank or not, and the newest timestamp becomes the marker.
   * An entry whose sending raises ends the backfill before the marker is stored.
   */
  function Backfill(feed: seq<Entry>, count: nat, marker: int, raises: Entry -> bool): (r: Run)
    ensures feed == [] ==> r == Run([], marker, false)
    ensures feed != [] && !AnyRaises(Window(feed, count), raises) ==> r == Run(Window(feed, count), Newest(feed), false)
    ensures feed != [] && AnyRaises(Window(feed, count), raises) ==>
      r.crashed && r.marker == marker && |r.sent| < |Window(feed, count)| && r.sent == Window(feed, count)[..|r.sent|]
  {
    if feed == [] then Run([], marker, false)
    else
      var s := SendUntilRaise(Window(feed, count), raises);
      SendUntilRaiseStops(Window(feed, count), raises);
      if s.crashed then Run(s.sent, marker, true) else Run(s.sent, Newest(feed), false)
  }

  /** Is the cleaned body blank? Such entries are skipped by a poll. */
  predicate Blank(e: Entry)
  {
    Html.CleanText(e.summary) == []
  }

  function Shown(e: Entry): bool
  {
    !Blank(e)
  }

  /** The entries a poll sends: those whose cleaned body is not blank. */
  function NonBlank(es: seq<Entry>): (r: seq<Entry>)
    ensures forall k :: 0 <= k < |r| ==> !Blank(r[k])
  {
    Seqs.Filter(es, Shown)
  }

  /**
   * One `trump_poll_once` with the fetch `fetch`. A stored marker of 0 means a
   * first run: the backfill reads the feed once (`backfillFeed`) and stores its
   * marker; then the fetch reads the feed again (`feed`), stores its marker,
   * and the new entries with a non-blank body are sent. An exception from a
   * send ends the poll; it is caught and reported.
   */
  function PollWith(fetch: (seq<Entry>, int) -> Poll, marker: int, backfillFeed: seq<Entry>,
                    feed: seq<Entry>, raises: Entry -> bool): Run
  {
    var b := if marker == 0 then Backfill(backfillFeed, BackfillCount, marker, raises) else Run([], marker, false);
    if b.crashed then b
    else
      var f := fetch(feed, b.marker);
      var s := SendUntilRaise(NonBlank(f.entries), raises);
      Run(b.sent + s.sent, f.marker, s.crashed)
  }

  /** `trump_poll_once` as written, over `trump_fetch_new_entries` as written (auto_x_to_telegram_v2.py:949-978). */
  function PollOnce(marker: int, backfillFeed: seq<Entry>, feed: seq<Entry>, raises: Entry -> bool): (r: Run)
    ensures marker != 0 && feed != [] ==> r.marker == Newest(feed)
    ensures marker != 0 && feed == [] ==> r == Run([], marker, false)
  {
    PollWith(FetchNewAsWritten, marker, backfillFeed, feed, raises)
  }

  /** The poll over the corrected fetch, whose marker only moves forward. */
  function PollOnceCorrected(marker: int, backfillFeed: seq<Entry>, feed: seq<Entry>, raises: Entry -> bool): (r: Run)
    ensures marker != 0 ==> marker <= r.marker
  {
    PollWith(FetchNew, marker, backfillFeed, feed, raises)
  }

  /** The feed holds nothing newer than its own newest timestamp. */
  lemma NothingAboveNewest(feed: seq<Entry>)
    requires feed != []
    ensures NewerThan(Sort(feed), Newest(feed)) == []
  {
    var m := Newest(feed);
    var sorted := Sort(feed);
    forall k | 0 <= k < |sorted|
      ensures !Newer(m)(sorted[k])
    {
      assert sorted[k] in multiset(feed);
    }
    Seqs.FilterNone(sorted, Newer(m));
  }

  /**
   * A first run over an unchanged, non-empty feed sends the newest three
   * entries (blank ones included) and nothing else, and stores the newest
   * timestamp, when none of them raises; either fetch gives the same run.
   */
  lemma FirstRunSendsBackfill(feed: seq<Entry>, raises: Entry -> bool)
    requires feed != []
    ensures !AnyRaises(Last(Sort(feed), BackfillCount), raises) ==>
      PollOnce(0, feed, feed, raises) == Run(Last(Sort(feed), BackfillCount), Newest(feed), false)
      && PollOnceCorrected(0, feed, feed, raises) == PollOnce(0, feed, feed, raises)
  {
    NothingAboveNewest(feed);
    var none: seq<Entry> := [];
    assert NonBlank(none) == [];
    assert Last(Sort(feed), BackfillCount) + none == Last(Sort(feed), BackfillCount);
  }

  /**
   * When a backfilled entry raises, the first run ends with the marker still
   * 0, so the next poll is a first run again and backfills once more.
   */
  lemma BackfillCrashStaysFirstRun(backfillFeed: seq<Entry>, feed: seq<Entry>, raises: Entry -> bool)
    requires backfillFeed != []
    ensures AnyRaises(Last(Sort(backfillFeed), BackfillCount), raises) ==>
      PollOnce(0, backfillFeed, feed, raises).crashed && PollOnce(0, backfillFeed, feed, raises).marker == 0
  {
  }

  /**
   * A later run sends, oldest first, the non-blank entries newer than the
   * marker up to the first whose sending raises, and all of them when none
   * does. It stores the newest timestamp of the feed read, even when that is
   * below the stored marker.
   */
  lemma LaterRunSendsNewer(marker: int, backfillFeed: seq<Entry>, feed: seq<Entry>, raises: Entry -> bool)
    requires marker != 0
    ensures var r := PollOnce(marker, backfillFeed, feed, raises);
      var newer := NonBlank(NewerThan(Sort(feed), marker));
      |r.sent| <= |newer| && r.sent == newer[..|r.sent|]
      && (r.crashed <==> AnyRaises(newer, raises))
      && (!r.crashed ==> r.sent == newer)
      && (feed != [] ==> r.marker == Newest(feed))
  {
    var newer := NonBlank(NewerThan(Sort(feed), marker));
    SendUntilRaiseStops(newer, raises);
    var none: seq<Entry> := [];
    assert none + SendUntilRaise(newer, raises).sent == SendUntilRaise(newer, raises).sent;
  }

  /**
   * A send that raises during a later run loses the entries after it: the
   * marker is already stored, so the same feed yields nothing new next time.
   */
  lemma CrashLosesRest(marker: int, backfillFeed: seq<Entry>, feed: seq<Entry>, raises: Entry -> bool)
    requires marker != 0 && feed != []
    ensures var r := PollOnce(marker, backfillFeed, feed, raises);
      r.crashed ==> FetchNewAsWritten(feed, r.marker).entries == []
  {
    NothingAboveNewest(feed);
  }

  /** As written, a feed whose entries are all older than the marker moves the marker back. */
  lemma LaterRunLowersMarker(b: Entry, raises: Entry -> bool)
    requires b.ts == 50
    ensures PollOnce(100, [], [b], raises) == Run([], 50, false)
  {
    Single(b, 100);
    var none: seq<Entry> := [];
    assert NonBlank(none) == [];
    assert none + none == none;
  }

  /**
   * With the corrected fetch, a later run sends the same entries and never
   * moves the marker back.
   */
  lemma LaterRunSendsNewerCorrected(marker: int, backfillFeed: seq<Entry>, feed: seq<Entry>, raises: Entry -> bool)
    requires marker != 0
    ensures var r := PollOnceCorrected(marker, backfillFeed, feed, raises);
      r.sent == PollOnce(marker, backfillFeed, feed, raises).sent
      && r.crashed == PollOnce(marker, backfillFeed, feed, raises).crashed
      && marker <= r.marker
  {
  }

  /** An enclosure of an RSS entry: its `href` and `type`, either possibly missing. */
  datatype Enclosure = Enclosure(href: string, kind: string)

  /** Image file endings accepted for enclosures. */
  const ImageEndings: seq<string> := [".jpg", ".jpeg", ".png", ".gif", ".webp"]

  /** An enclosure counts as an image by its type, or by the ending of its lower-cased address. */
  predicate IsImageEnclosure(e: Enclosure)
  {
    e.href != [] && (Contains(Lower(e.kind), "image") || exists k :: 0 <= k < |ImageEndings| && EndsWith(Lower(e.href), ImageEndings[k]))
  }

  predicate NoneEmpty(r: seq<string>)
  {
    forall k :: 0 <= k < |r| ==> r[k] != []
  }

  lemma NoneEmptyAppend(a: seq<string>, b: seq<string>)
    requires NoneEmpty(a) && NoneEmpty(b)
    ensures NoneEmpty(a + b)
  {
    forall k | 0 <= k < |a + b|
      ensures (a + b)[k] != []
    {
      if k < |a| {
        assert (a + b)[k] == a[k];
      } else {
        assert (a + b)[k] == b[k - |a|];
      }
    }
  }

  /** The stripped, non-empty `<img src>` values, in document order. */
  function SourceCandidates(srcs: seq<string>): (r: seq<string>)
    ensures NoneEmpty(r)
  {
    if srcs == [] then []
    else
      var u := Strip(srcs[0]);
      var head := if u != [] then [u] else [];
      NoneEmptyAppend(head, SourceCandidates(srcs[1..]));
      head + SourceCandidates(srcs[1..])
  }

  /** The addresses of the image enclosures, in order. */
  function EnclosureCandidates(encs: seq<Enclosure>): (r: seq<string>)
    ensures NoneEmpty(r)
  {
    if encs == [] then []
    else
      var head := if IsImageEnclosure(encs[0]) then [encs[0].href] else [];
      NoneEmptyAppend(head, EnclosureCandidates(encs[1..]));
      head + EnclosureCandidates(encs[1..])
  }

  /** The image candidates in document order: stripped, non-empty `<img src>` values, then image enclosures. */
  function Candidates(srcs: seq<string>, encs: seq<Enclosure>): (r: seq<string>)
    ensures NoneEmpty(r)
  {
    NoneEmptyAppend(SourceCandidates(srcs), EnclosureCandidates(encs));
    SourceCandidates(srcs) + EnclosureCandidates(encs)
  }

  /** URLs are compared as they are. */
  function Same(u: string): string
  {
    u
  }

  /** The loops of `trump_extract_image_urls`: append each candidate not yet in `urls`. */
  function AddNew(urls: seq<string>, cands: seq<string>): seq<string>
    decreases |cands|
  {
    if cands == [] then urls
    else AddNew(if cands[0] in urls then urls else urls + [cands[0]], cands[1..])
  }

  /**
   * `trump_extract_image_urls`, given the `src` captures of the `<img>` pattern
   * over the entry's HTML and its enclosures. A missing `href` or `type` is
   * the empty string.
   */
  function ImageUrls(srcs: seq<string>, encs: seq<Enclosure>): seq<string>
  {
    AddNew([], Candidates(srcs, encs))
  }

  lemma {:induction false} AddNewIsDedup(urls: seq<string>, cands: seq<string>)
    ensures AddNew(urls, cands) == urls + Seqs.DedupFrom(cands, Same, set u | u in urls)
    decreases |cands|
  {
    if cands != [] {
      var c := cands[0];
      var next := if c in urls then urls else urls + [c];
      AddNewIsDedup(next, cands[1..]);
      assert (set u | u in next) == (set u | u in urls) + {c};
    }
  }

  /**
   * The image list holds each candidate once, in order of first appearance:
   * it is the order-preserving deduplication of the candidates, a
   * subsequence of them with no repeats and every candidate present.
   */
  lemma ImageUrlsDedup(srcs: seq<string>, encs: seq<Enclosure>)
    ensures ImageUrls(srcs, encs) == Seqs.DedupBy(Candidates(srcs, encs), Same)
    ensures Seqs.IsSubseq(ImageUrls(srcs, encs), Candidates(srcs, encs))
    ensures forall i, j :: 0 <= i < j < |ImageUrls(srcs, encs)| ==> ImageUrls(srcs, encs)[i] != ImageUrls(srcs, encs)[j]
    ensures forall u :: u in ImageUrls(srcs, encs) <==> u in Candidates(srcs, encs)
  {
    var cands := Candidates(srcs, encs);
    var none: seq<string> := [];
    AddNewIsDedup(none, cands);
    assert (set u | u in none) == {};
    assert ImageUrls(srcs, encs) == Seqs.DedupFrom(cands, Same, {});
    Seqs.DedupFromProperties(cands, Same, {});
    var r := ImageUrls(srcs, encs);
    Seqs.SubseqMembers(r, cands);
    forall u | u in cands
      ensures u in r
    {
      var i :| 0 <= i < |cands| && cands[i] == u;
      Seqs.KeysOfMember(cands, Same, i);
      Seqs.KeysOfIndex(r, Same, u);
    }
  }
}

=== FILE: html.dfy ===
/**
 * `trump_clean_text` (auto_x_to_telegram_v2.py:862-866): turning an RSS
 * summary into plain text with three regex substitutions and a strip.
 * Each substitution is a left-to-right scan that replaces non-overlapping
 * matches, as `re.sub` does.
 */
module Html {
  import opened Text
  import Seqs

  /** Length of the run of whitespace at the start of `s`. */
  function SpaceRun(s: string): (n: nat)
    ensures n <= |s| && AllSpace(s[..n])
    ensures n == |s| || !IsSpace(s[n])
  {
    if s == [] || !IsSpace(s[0]) then 0 else 1 + SpaceRun(s[1..])
  }

  /**
   * Length of a match of `<br\s*\/?>` (case-insensitive) at the start of `s`,
   * or 0 when there is none. Greedy `\s*` cannot give back whitespace usefully,
   * so the match is unique.
   */
  function BreakLen(s: string): (n: nat)
    ensures n <= |s|
    ensures n > 0 ==> n >= 4 && s[0] == '<' && Fold(s[1]) == 'b' && Fold(s[2]) == 'r' && s[n - 1] == '>'
  {
    if |s| >= 3 && s[0] == '<' && Fold(s[1]) == 'b' && Fold(s[2]) == 'r' then
      var k := 3 + SpaceRun(s[3..]);
      if k < |s| && s[k] == '>' then k + 1
      else if k + 1 < |s| && s[k] == '/' && s[k + 1] == '>' then k + 2
      else 0
    else 0
  }

  /** `re.sub(r"<br\s*\/?>", "\n", s, flags=re.I)` */
  function Breaks(s: string): (r: string)
    ensures CountChar(r, '<') <= CountChar(s, '<')
    decreases |s|
  {
    if s == [] then []
    else if BreakLen(s) > 0 then
      var n := BreakLen(s);
      assert s == [s[0]] + s[1..n] + s[n..];
      CountCharAppend([s[0]] + s[1..n], s[n..], '<');
      CountCharAppend([s[0]], s[1..n], '<');
      "\n" + Breaks(s[n..])
    else
      assert s == [s[0]] + s[1..];
      CountCharAppend([s[0]], s[1..], '<');
      [s[0]] + Breaks(s[1..])
  }

  /** Index of the first `c` in `s`, if any. */
  function Find(s: string, c: char): (r: int)
    ensures -1 <= r < |s|
    ensures r >= 0 ==> s[r] == c && forall k :: 0 <= k < r ==> s[k] != c
    ensures r == -1 ==> forall k :: 0 <= k < |s| ==> s[k] != c
  {
    if s == [] then -1
    else if s[0] == c then 0
    else
      var r := Find(s[1..], c);
      if r == -1 then -1 else r + 1
  }

  /**
   * Length of a match of `<[^>]+>` at the start of `s`, or 0: a `<`, at least
   * one character other than `>`, and the first `>` after it.
   */
  function TagLen(s: string): (n: nat)
    ensures n <= |s|
    ensures n > 0 ==> n >= 3 && s[0] == '<' && s[n - 1] == '>' && forall k :: 1 <= k < n - 1 ==> s[k] != '>'
    ensures n == 0 && |s| >= 2 && s[0] == '<' ==> s[1] == '>' || forall k :: 1 <= k < |s| ==> s[k] != '>'
  {
    if |s| >= 2 && s[0] == '<' && s[1] != '>' then
      var j := Find(s[1..], '>');
      if j == -1 then 0 else j + 2
    else 0
  }

  /** `re.sub(r"<[^>]+>", "", s)` */
  function StripTags(s: string): (r: string)
    ensures Seqs.IsSubseq(r, s)
    ensures forall k :: 0 <= k < |r| ==> r[k] in s
    decreases |s|
  {
    if s == [] then []
    else if TagLen(s) > 0 then
      var r := StripTags(s[TagLen(s)..]);
      assert forall k :: 0 <= k < |r| ==> r[k] in s[TagLen(s)..];
      Seqs.SubseqDrop(r, s, TagLen(s));
      r
    else
      var r := StripTags(s[1..]);
      assert forall k :: 0 <= k < |r| ==> r[k] in s[1..];
      [s[0]] + r
  }

  /** No match of `<[^>]+>` starts anywhere in `s`. */
  predicate NoTag(s: string)
  {
    forall i :: 0 <= i < |s| ==> TagLen(s[i..]) == 0
  }

  /** After the tag pass no tag is left: the scan never joins a kept `<` to a later `>`. */
  lemma {:induction false} StripTagsLeavesNoTag(s: string)
    ensures NoTag(StripTags(s))
    decreases |s|
  {
    if s != [] {
      if TagLen(s) > 0 {
        StripTagsLeavesNoTag(s[TagLen(s)..]);
      } else {
        var rest := StripTags(s[1..]);
        StripTagsLeavesNoTag(s[1..]);
        var r := [s[0]] + rest;
        assert r[1..] == rest;
        forall i | 0 <= i < |r|
          ensures TagLen(r[i..]) == 0
        {
          if i == 0 {
            HeadKeepsNoTag(s, rest);
          } else {
            assert r[i..] == rest[i - 1..];
          }
        }
      }
    }
  }

  /** A `<` kept by the tag pass is followed by `>` at once, or by no `>` at all. */
  lemma HeadKeepsNoTag(s: string, rest: string)
    requires s != [] && TagLen(s) == 0 && rest == StripTags(s[1..])
    ensures TagLen([s[0]] + rest) == 0
  {
    var r := [s[0]] + rest;
    if s[0] == '<' && |s| >= 2 {
      if s[1] == '>' {
        assert TagLen(s[1..]) == 0;
        assert r[1] == '>';
      } else {
        assert forall k :: 1 <= k < |s| ==> s[k] != '>';
        assert forall k :: 1 <= k < |r| ==> r[k] != '>' by {
          forall k | 1 <= k < |r|
            ensures r[k] != '>'
          {
            assert r[k] == rest[k - 1] && rest[k - 1] in s[1..];
          }
        }
        assert Find(r[1..], '>') == -1;
      }
    }
  }

  /** On text without tags the tag pass changes nothing, so applying it twice is applying it once. */
  lemma {:induction false} StripTagsIdempotent(s: string)
    requires NoTag(s)
    ensures StripTags(s) == s
    decreases |s|
  {
    if s != [] {
      assert s[0..] == s;
      assert NoTag(s[1..]) by {
        forall i | 0 <= i < |s| - 1
          ensures TagLen(s[1..][i..]) == 0
        {
          assert s[1..][i..] == s[i + 1..];
        }
      }
      StripTagsIdempotent(s[1..]);
    }
  }

  /** Length of the run of newlines at the start of `s`. */
  function NewlineRun(s: string): (n: nat)
    ensures n <= |s| && forall k :: 0 <= k < n ==> s[k] == '\n'
    ensures n == |s| || s[n] != '\n'
  {
    if s == [] || s[0] != '\n' then 0 else 1 + NewlineRun(s[1..])
  }

  predicate NotNewline(c: char)
  {
    c != '\n'
  }

  /**
   * `re.sub(r"\n{3,}", "\n\n", s)`: the result is `s` with some newlines
   * deleted and every other character kept in order, and text without three
   * newlines in a row is left as it is.
   */
  function Collapse(s: string): (r: string)
    ensures r != [] && r[0] == '\n' <==> s != [] && s[0] == '\n'
    ensures Seqs.IsSubseq(r, s)
    ensures Seqs.Filter(r, NotNewline) == Seqs.Filter(s, NotNewline)
    ensures NoTriple(s) ==> r == s
    decreases |s|
  {
    if s == [] then []
    else
      var n := NewlineRun(s);
      if n >= 3 then
        var c := Collapse(s[n..]);
        CollapseRun(s, n, c);
        "\n\n" + c
      else
        var c := Collapse(s[1..]);
        CollapseKeep(s, c);
        [s[0]] + c
  }

  /** A run of `n >= 3` newlines replaced by two, in front of the collapsed rest. */
  lemma CollapseRun(s: string, n: nat, c: string)
    requires 3 <= n <= |s| && forall k :: 0 <= k < n ==> s[k] == '\n'
    requires Seqs.IsSubseq(c, s[n..]) && Seqs.Filter(c, NotNewline) == Seqs.Filter(s[n..], NotNewline)
    ensures Seqs.IsSubseq("\n\n" + c, s)
    ensures Seqs.Filter("\n\n" + c, NotNewline) == Seqs.Filter(s, NotNewline)
    ensures !NoTriple(s)
  {
    assert s[2..][n - 2..] == s[n..];
    Seqs.SubseqDrop(c, s[2..], n - 2);
    SubseqBoth('\n', c, s[2..]);
    SubseqBoth('\n', "\n" + c, s[1..]);
    assert ['\n'] + s[2..] == s[1..] && ['\n'] + s[1..] == s;
    assert ['\n'] + ("\n" + c) == "\n\n" + c;
    assert s == s[..n] + s[n..];
    Seqs.FilterAppend(s[..n], s[n..], NotNewline);
    Seqs.FilterNone(s[..n], NotNewline);
    Seqs.FilterAppend("\n\n", c, NotNewline);
    Seqs.FilterNone("\n\n", NotNewline);
    assert s[0] == '\n' && s[1] == '\n' && s[2] == '\n';
  }

  /** A character kept in front of the collapsed rest. */
  lemma CollapseKeep(s: string, c: string)
    requires s != [] && Seqs.IsSubseq(c, s[1..])
    requires Seqs.Filter(c, NotNewline) == Seqs.Filter(s[1..], NotNewline)
    requires NoTriple(s[1..]) ==> c == s[1..]
    ensures Seqs.IsSubseq([s[0]] + c, s)
    ensures Seqs.Filter([s[0]] + c, NotNewline) == Seqs.Filter(s, NotNewline)
    ensures NoTriple(s) ==> [s[0]] + c == s
  {
    SubseqBoth(s[0], c, s[1..]);
    assert [s[0]] + s[1..] == s;
    assert ([s[0]] + c)[1..] == c;
    if NoTriple(s) {
      NoTripleSlice(s, 1, |s|);
    }
  }

  lemma SubseqBoth(x: char, a: string, b: string)
    requires Seqs.IsSubseq(a, b)
    ensures Seqs.IsSubseq([x] + a, [x] + b)
  {
    assert ([x] + a)[1..] == a && ([x] + b)[1..] == b;
  }

  /** Deleting newlines does not change the non-whitespace characters. */
  lemma {:induction false} NonSpaceIgnoresNewlines(s: string)
    ensures NonSpace(Seqs.Filter(s, NotNewline)) == NonSpace(s)
    decreases |s|
  {
    if s != [] {
      NonSpaceIgnoresNewlines(s[1..]);
      var t := Seqs.Filter(s[1..], NotNewline);
      if NotNewline(s[0]) {
        assert ([s[0]] + t)[0] == s[0] && ([s[0]] + t)[1..] == t;
      }
    }
  }

  /** The newline pass keeps every non-whitespace character, in order. */
  lemma CollapseKeepsNonSpace(s: string)
    ensures NonSpace(Collapse(s)) == NonSpace(s)
  {
    NonSpaceIgnoresNewlines(s);
    NonSpaceIgnoresNewlines(Collapse(s));
  }

  /** No three newlines in a row. */
  predicate NoTriple(s: string)
  {
    forall i :: 0 <= i && i + 2 < |s| ==> !(s[i] == '\n' && s[i + 1] == '\n' && s[i + 2] == '\n')
  }

  lemma PrefixNewlines(c: string, out: string, n: nat)
    requires n <= 2 && NoTriple(c) && (c == [] || c[0] != '\n')
    requires out == seq(n, _ => '\n') + c
    ensures NoTriple(out)
  {
    forall i | 0 <= i && i + 2 < |out|
      ensures !(out[i] == '\n' && out[i + 1] == '\n' && out[i + 2] == '\n')
    {
      if i >= n {
        assert out[i] == c[i - n] && out[i + 1] == c[i - n + 1] && out[i + 2] == c[i - n + 2];
      } else {
        assert out[n] == c[0];
      }
    }
  }

  lemma PrefixOther(x: char, c: string)
    requires x != '\n' && NoTriple(c)
    ensures NoTriple([x] + c)
  {
    var out := [x] + c;
    forall i | 1 <= i && i + 2 < |out|
      ensures !(out[i] == '\n' && out[i + 1] == '\n' && out[i + 2] == '\n')
    {
      assert out[i] == c[i - 1] && out[i + 1] == c[i] && out[i + 2] == c[i + 1];
    }
  }

  /** After the newline pass no three newlines are left in a row. */
  lemma {:induction false} CollapseLeavesNoTriple(s: string)
    ensures NoTriple(Collapse(s))
    decreases |s|
  {
    if s != [] {
      var n := NewlineRun(s);
      if n >= 3 {
        CollapseLeavesNoTriple(s[n..]);
        PrefixNewlines(Collapse(s[n..]), Collapse(s), 2);
      } else if s[0] != '\n' {
        CollapseLeavesNoTriple(s[1..]);
        PrefixOther(s[0], Collapse(s[1..]));
      } else if n == 1 {
        CollapseLeavesNoTriple(s[1..]);
        PrefixNewlines(Collapse(s[1..]), Collapse(s), 1);
      } else {
        CollapseTwo(s);
        assert seq(2, _ => '\n') == "\n\n";
        CollapseLeavesNoTriple(s[2..]);
        PrefixNewlines(Collapse(s[2..]), Collapse(s), 2);
      }
    }
  }

  /** A run of exactly two newlines is kept. */
  lemma CollapseTwo(s: string)
    requires s != [] && NewlineRun(s) == 2
    ensures Collapse(s) == "\n\n" + Collapse(s[2..]) && (s[2..] == [] || s[2] != '\n')
  {
    assert NewlineRun(s[1..]) == 1;
    assert s[1..][1..] == s[2..];
    assert Collapse(s[1..]) == "\n" + Collapse(s[2..]);
  }

  lemma NoTripleSlice(s: string, i: nat, j: nat)
    requires NoTriple(s) && i <= j <= |s|
    ensures NoTriple(s[i..j])
  {
    var t := s[i..j];
    forall k | 0 <= k && k + 2 < |t|
      ensures !(t[k] == '\n' && t[k + 1] == '\n' && t[k + 2] == '\n')
    {
      assert t[k] == s[i + k] && t[k + 1] == s[i + k + 1] && t[k + 2] == s[i + k + 2];
    }
  }

  /**
   * `trump_clean_text`: line breaks for `<br>`, tags dropped, blank lines
   * collapsed, stripped. Only whitespace differs from the tag-free text: the
   * visible characters are all there, in order.
   */
  function CleanText(html: string): (r: string)
    ensures r == [] || (!IsSpace(r[0]) && !IsSpace(r[|r| - 1]))
    ensures NoTriple(r)
    ensures NonSpace(r) == NonSpace(StripTags(Breaks(html)))
  {
    var c := Collapse(StripTags(Breaks(html)));
    var r := Strip(c);
    CollapseLeavesNoTriple(StripTags(Breaks(html)));
    CollapseKeepsNonSpace(StripTags(Breaks(html)));
    NonSpaceStrip(c);
    var i, j :| 0 <= i <= j <= |c| && r == c[i..j] && AllSpace(c[..i]) && AllSpace(c[j..]);
    NoTripleSlice(c, i, j);
    r
  }
}

=== FILE: masking.dfy ===
/**
 * Protected-span masking for the translation pipeline: emoji runs become
 * `[EMOJI_i]` and URLs become `[URL_i]`, numbered left to right, and the
 * restorers replace each placeholder, matched case-insensitively, by its span
 * (a URL comes back with a space on each side).
 *
 * Both masks are one scanner over a `SpanKind`: `SpanAt` is the length of the
 * span the kind's regular expression matches at the start of a string (0 when
 * none does), and `MaskFrom` is the left-to-right, non-overlapping substitution
 * `re.sub` performs.
 */
module Masking {
  import opened Wrappers
  import opened Text
  import opened Template

  datatype SpanKind = Emoji | Url

  /** The character class `[\U0001F300-\U0001FAFF\U00002700-\U000027BF]`. */
  predicate IsEmojiChar(c: char)
  {
    ('\U{1F300}' <= c <= '\U{1FAFF}') || ('\U{2700}' <= c <= '\U{27BF}')
  }

  /** The character class `[^\s\)\]\}]` that a URL continues with. */
  predicate IsUrlChar(c: char)
  {
    !IsSpace(c) && c != ')' && c != ']' && c != '}'
  }

  predicate InClass(kind: SpanKind, c: char)
  {
    match kind
    case Emoji => IsEmojiChar(c)
    case Url => IsUrlChar(c)
  }

  /** Length of the longest prefix of `s` in the kind's character class (a greedy `[...]*`). */
  function ClassRun(kind: SpanKind, s: string): (n: nat)
    ensures n <= |s|
    ensures forall i :: 0 <= i < n ==> InClass(kind, s[i])
    ensures n < |s| ==> !InClass(kind, s[n])
  {
    if s == [] || !InClass(kind, s[0]) then 0 else 1 + ClassRun(kind, s[1..])
  }

  /** Length of the `https?://` part of a URL match at the start of `s`, or 0. */
  function SchemeLen(s: string): (n: nat)
    ensures n == 0 || n == 7 || n == 8
    ensures n > 0 ==> n < |s| && IsUrlChar(s[n]) && CIPrefix("http", s)
    ensures n > 0 ==> forall i :: 0 <= i < n ==> s[i] != ']'
  {
    if CIPrefix("https://", s) && |s| > 8 && IsUrlChar(s[8]) then
      assert forall i :: 0 <= i < 8 ==> Fold(s[i]) != ']';
      8
    else if CIPrefix("http://", s) && |s| > 7 && IsUrlChar(s[7]) then
      assert forall i :: 0 <= i < 7 ==> Fold(s[i]) != ']';
      7
    else 0
  }

  /**
   * Length of the span the kind's pattern matches at the start of `s`
   * (`EMOJI_PATTERN` or `URL_PATTERN`, auto_x_to_telegram_v2.py:39-40), 0 if none.
   */
  function SpanAt(kind: SpanKind, s: string): (n: nat)
    ensures n <= |s|
    ensures n > 0 ==> InClass(kind, s[0]) || (kind == Url && CIPrefix("http", s))
    ensures kind == Emoji ==> forall i :: 0 <= i < n ==> IsEmojiChar(s[i])
    ensures kind == Emoji ==> (n > 0 <==> s != [] && IsEmojiChar(s[0]))
    ensures kind == Url ==> forall i :: 0 <= i < n ==> s[i] != ']'
  {
    match kind
    case Emoji => ClassRun(Emoji, s)
    case Url =>
      var p := SchemeLen(s);
      if p == 0 then 0
      else
        var r := ClassRun(Url, s[p..]);
        assert forall i :: p <= i < p + r ==> s[i] == s[p..][i - p];
        p + r
  }

  function Word(kind: SpanKind): string
  {
    match kind
    case Emoji => "EMOJI"
    case Url => "URL"
  }

  /** The placeholder the masker writes for span number `k`. */
  function Tag(kind: SpanKind, k: nat): string
  {
    "[" + Word(kind) + "_" + Digits(k) + "]"
  }

  /** What every restoration pattern of the kind starts with: `[emoji_` or `[url_`. */
  function TagPrefix(kind: SpanKind): string
  {
    match kind
    case Emoji => "[emoji_"
    case Url => "[url_"
  }

  /** The restorer's pattern `\[emoji_{idx}\]` / `\[url_{idx}\]`, matched case-insensitively. */
  function TagPattern(kind: SpanKind, k: nat): string
  {
    TagPrefix(kind) + Digits(k) + "]"
  }

  /** What the restorer puts back for a span: the emoji run itself, or `" {url} "`. */
  function Restored(kind: SpanKind, span: string): string
  {
    match kind
    case Emoji => span
    case Url => " " + span + " "
  }

  datatype Masked = Masked(text: string, spans: seq<string>)

  /** `PATTERN.sub(replacer, t)` with the replacer numbering spans from `k`. */
  function MaskFrom(kind: SpanKind, t: string, k: nat): (m: Masked)
    decreases |t|
  {
    if t == [] then Masked([], [])
    else
      var n := SpanAt(kind, t);
      if n == 0 then
        var rest := MaskFrom(kind, t[1..], k);
        Masked([t[0]] + rest.text, rest.spans)
      else
        var rest := MaskFrom(kind, t[n..], k + 1);
        Masked(Tag(kind, k) + rest.text, [t[..n]] + rest.spans)
  }

  /** `replace_emojis_with_tags` (kind Emoji) and `mask_urls` (kind Url). */
  function Mask(kind: SpanKind, t: string): Masked
  {
    MaskFrom(kind, t, 0)
  }

  /**
   * The restorer's loop from index `i` on, each replacement taken as literal
   * text: what the restorers do when no span holds a backslash.
   */
  function LiteralRestoreFrom(kind: SpanKind, s: string, spans: seq<string>, i: nat): string
    decreases |spans| - i
  {
    if i >= |spans| then s
    else LiteralRestoreFrom(kind, ReplaceAll(s, TagPattern(kind, i), Restored(kind, spans[i])), spans, i + 1)
  }

  function LiteralRestore(kind: SpanKind, s: string, spans: seq<string>): string
  {
    LiteralRestoreFrom(kind, s, spans, 0)
  }

  /**
   * The restorer's loop from index `i` on: each placeholder pattern in turn,
   * over the whole text, with the replacement compiled as an `re.sub`
   * template. `None` when a replacement does not compile.
   */
  function RestoreFrom(kind: SpanKind, s: string, spans: seq<string>, i: nat): Option<string>
    decreases |spans| - i
  {
    if i >= |spans| then Some(s)
    else match Expand(Restored(kind, spans[i]))
      case None => None
      case Some(ps) => RestoreFrom(kind, Sub(s, TagPattern(kind, i), ps), spans, i + 1)
  }

  /** `restore_emojis` (kind Emoji) and `restore_urls` (kind Url); `None` when they raise. */
  function Restore(kind: SpanKind, s: string, spans: seq<string>): Option<string>
  {
    RestoreFrom(kind, s, spans, 0)
  }

  /** No span holds a backslash, so every replacement compiles to its own text. */
  predicate Escapeless(spans: seq<string>)
  {
    forall i :: 0 <= i < |spans| ==> '\\' !in spans[i]
  }

  /** The text with every span replaced by what the restorer puts back for it. */
  function Unmasked(kind: SpanKind, t: string): string
    decreases |t|
  {
    if t == [] then []
    else
      var n := SpanAt(kind, t);
      if n == 0 then [t[0]] + Unmasked(kind, t[1..])
      else Restored(kind, t[..n]) + Unmasked(kind, t[n..])
  }

  /** The masked text with the spans numbered below `j` already restored (spans numbered from `k`). */
  function Render(kind: SpanKind, t: string, k: nat, j: nat): string
    decreases |t|
  {
    if t == [] then []
    else
      var n := SpanAt(kind, t);
      if n == 0 then [t[0]] + Render(kind, t[1..], k, j)
      else (if k < j then Restored(kind, t[..n]) else Tag(kind, k)) + Render(kind, t[n..], k + 1, j)
  }
  /** Does a span of the kind start anywhere in `t`? For emoji, at an emoji character. */
  predicate HasSpan(kind: SpanKind, t: string)
  {
    exists i :: 0 <= i < |t| && SpanAt(kind, t[i..]) > 0
  }

  /** The masked text together with the emoji runs and URLs it stands for. */
  datatype Protected = Protected(text: string, emojis: seq<string>, urls: seq<string>)

  /**
   * The masking steps of `translate_preserving_emojis_and_urls` as written:
   * emoji runs first, then URLs over the emoji-tagged text.
   */
  function ProtectAsWritten(t: string): Protected
  {
    var e := Mask(Emoji, t);
    var u := Mask(Url, e.text);
    Protected(u.text, e.spans, u.spans)
  }

  /** The masking steps in the order that keeps placeholders out of URLs: URLs first, then emoji runs. */
  function Protect(t: string): Protected
  {
    var u := Mask(Url, t);
    var e := Mask(Emoji, u.text);
    Protected(e.text, e.spans, u.spans)
  }

  /** The restoring steps: emoji placeholders, then URL placeholders; `None` when a restorer raises. */
  function Unprotect(s: string, p: Protected): Option<string>
  {
    match Restore(Emoji, s, p.emojis)
    case None => None
    case Some(r) => Restore(Url, r, p.urls)
  }
}

module MaskingProofs {
  import opened Wrappers
  import opened Text
  import opened Template
  import opened Masking
  import Seqs

  /** A character a placeholder pattern may hold after its opening `[`. */
  predicate TailChar(c: char)
  {
    ('a' <= c <= 'z') || IsDigit(c) || c == '_' || c == ']'
  }

  lemma TagPatternShape(kind: SpanKind, k: nat)
    ensures var p := TagPattern(kind, k);
      |p| >= 2 && p[0] == '[' && p[|p| - 1] == ']' && forall i :: 1 <= i < |p| ==> TailChar(p[i])
  {
    var d := Digits(k);
    var p := TagPattern(kind, k);
    var w := TagPrefix(kind);
    assert p == w + d + "]";
    assert forall i :: 1 <= i < |w| ==> TailChar(w[i]);
    forall i | 1 <= i < |p|
      ensures TailChar(p[i])
    {
      if i < |w| {
        assert p[i] == w[i];
      } else if i < |w| + |d| {
        assert p[i] == d[i - |w|];
      }
    }
  }

  /** The placeholder `Tag(kind, k)` folds onto its restoration pattern character by character. */
  lemma TagFolds(kind: SpanKind, k: nat)
    ensures |Tag(kind, k)| == |TagPattern(kind, k)|
    ensures forall i :: 0 <= i < |Tag(kind, k)| ==> Fold(Tag(kind, k)[i]) == TagPattern(kind, k)[i]
  {
    var d := Digits(k);
    var t, p := Tag(kind, k), TagPattern(kind, k);
    var u := "[" + Word(kind) + "_";
    var w := TagPrefix(kind);
    assert t == u + d + "]" && p == w + d + "]";
    assert |u| == |w| && forall i :: 0 <= i < |u| ==> Fold(u[i]) == w[i];
    forall i | 0 <= i < |t|
      ensures Fold(t[i]) == p[i]
    {
      if i < |u| {
        assert t[i] == u[i] && p[i] == w[i];
      } else if i < |u| + |d| {
        assert t[i] == d[i - |u|] && p[i] == d[i - |u|];
      }
    }
  }

  /** Replacing in `P + X` when no match starts inside `P` leaves `P` alone. */
  lemma {:induction false} ReplaceSkip(P: string, X: string, pat: string, rep: string)
    requires |pat| > 0
    requires forall i :: 0 <= i < |P| ==> !CIPrefix(pat, (P + X)[i..])
    ensures ReplaceAll(P + X, pat, rep) == P + ReplaceAll(X, pat, rep)
    decreases |P|
  {
    if P == [] {
      assert P + X == X;
    } else {
      assert (P + X)[0..] == P + X;
      assert (P + X)[1..] == P[1..] + X;
      forall i | 0 <= i < |P[1..]|
        ensures !CIPrefix(pat, (P[1..] + X)[i..])
      {
        assert (P[1..] + X)[i..] == (P + X)[i + 1..];
      }
      ReplaceSkip(P[1..], X, pat, rep);
    }
  }

  /** A match at the very start is replaced. */
  lemma ReplaceHit(P: string, X: string, pat: string, rep: string)
    requires |pat| > 0 && |P| == |pat|
    requires CIPrefix(pat, P + X)
    ensures ReplaceAll(P + X, pat, rep) == rep + ReplaceAll(X, pat, rep)
  {
    assert (P + X)[|pat|..] == X;
  }

  /** No placeholder pattern can start at a character other than `[`. */
  lemma NoMatchWithoutBracket(R: string, X: string, pat: string)
    requires |pat| > 0 && pat[0] == '['
    requires forall i :: 0 <= i < |R| ==> R[i] != '['
    ensures forall i :: 0 <= i < |R| ==> !CIPrefix(pat, (R + X)[i..])
  {
    forall i | 0 <= i < |R|
      ensures !CIPrefix(pat, (R + X)[i..])
    {
      assert (R + X)[i..][0] == R[i];
    }
  }

  /** A placeholder of another number is not matched anywhere inside it. */
  lemma NoMatchInOtherTag(kind: SpanKind, m: nat, j: nat, X: string)
    requires m != j
    ensures forall i :: 0 <= i < |Tag(kind, m)| ==> !CIPrefix(TagPattern(kind, j), (Tag(kind, m) + X)[i..])
  {
    var t, p := Tag(kind, m), TagPattern(kind, j);
    var s := t + X;
    TagPatternShape(kind, j);
    NoMatchWithoutBracket(t[1..], X, p);
    forall i | 1 <= i < |t|
      ensures !CIPrefix(p, s[i..])
    {
      assert s[i..] == (t[1..] + X)[i - 1..];
    }
    if Digits(m) == Digits(j) {
      DigitsInjective(m, j);
    }
    var u := "[" + Word(kind) + "_";
    assert t == u + Digits(m) + "]" && p == TagPrefix(kind) + Digits(j) + "]";
    OtherNumberMismatch(u, TagPrefix(kind), Digits(m), Digits(j), X);
    assert s[0..] == s;
  }

  /** Two placeholders of the same width with different digit strings never match. */
  lemma OtherNumberMismatch(u: string, w: string, dm: string, dj: string, X: string)
    requires |u| == |w| && dm != dj
    requires forall i :: 0 <= i < |dm| ==> IsDigit(dm[i])
    requires forall i :: 0 <= i < |dj| ==> IsDigit(dj[i])
    ensures !CIPrefix(w + dj + "]", u + dm + "]" + X)
  {
    var p, s := w + dj + "]", u + dm + "]" + X;
    var c := |w|;
    if |p| <= |s| {
      if |dj| == |dm| {
        var x :| 0 <= x < |dm| && dm[x] != dj[x];
        assert s[c + x] == dm[x] && p[c + x] == dj[x];
        assert Fold(s[c + x]) != p[c + x];
      } else if |dj| < |dm| {
        assert s[c + |dj|] == dm[|dj|] && p[c + |dj|] == ']';
        assert Fold(s[c + |dj|]) != p[c + |dj|];
      } else {
        assert s[c + |dm|] == ']' && p[c + |dm|] == dj[|dm|];
        assert Fold(s[c + |dm|]) != p[c + |dm|];
      }
    }
  }

  /** No pattern starts inside a restored URL `" url "`, since a URL holds no `]`. */
  lemma NoMatchInPaddedUrl(u: string, X: string, pat: string)
    requires |pat| >= 2 && pat[0] == '[' && pat[|pat| - 1] == ']'
    requires forall i :: 1 <= i < |pat| ==> TailChar(pat[i])
    requires forall i :: 0 <= i < |u| ==> u[i] != ']'
    ensures forall i :: 0 <= i < |" " + u + " "| ==> !CIPrefix(pat, ((" " + u + " ") + X)[i..])
  {
    var R := " " + u + " ";
    var s := R + X;
    forall i | 0 <= i < |R|
      ensures !CIPrefix(pat, s[i..])
    {
      if |pat| <= |s| - i {
        var last := i + |pat| - 1;
        if last < |R| - 1 {
          assert s[i..][|pat| - 1] == s[last] == u[last - 1];
          assert Fold(s[i..][|pat| - 1]) != pat[|pat| - 1];
        } else {
          var q := |R| - 1 - i;
          assert s[i..][q] == s[|R| - 1] == ' ';
          assert Fold(s[i..][q]) != pat[q];
        }
      }
    }
  }

  /** The first character a span turns into can never continue a pattern. */
  lemma RenderStartsWithBreaker(kind: SpanKind, t: string, k: nat, j: nat)
    requires t != [] && SpanAt(kind, t) > 0
    ensures Render(kind, t, k, j) != [] && !TailChar(Fold(Render(kind, t, k, j)[0]))
  {
    var n := SpanAt(kind, t);
    RenderSpan(kind, t, k, j);
    assert kind == Emoji ==> IsEmojiChar(t[..n][0]);
    HeadIsBreaker(kind, t[..n], k, j, Render(kind, t[n..], k + 1, j));
  }

  lemma HeadIsBreaker(kind: SpanKind, span: string, k: nat, j: nat, X: string)
    requires span != [] && (kind == Emoji ==> IsEmojiChar(span[0]))
    ensures var r := (if k < j then Restored(kind, span) else Tag(kind, k)) + X;
      r != [] && !TailChar(Fold(r[0]))
  {
    if k >= j {
      assert Tag(kind, k)[0] == '[';
    } else if kind == Emoji {
      assert Restored(kind, span)[0] == span[0];
    } else {
      assert Restored(kind, span)[0] == ' ';
    }
  }

  /** A pattern matched at a plain character of the rendering is already matched in the source text. */
  lemma {:induction false} PlainMatch(kind: SpanKind, t: string, k: nat, j: nat, q: string)
    requires t != [] && SpanAt(kind, t) == 0
    requires |q| >= 1 && forall i :: 1 <= i < |q| ==> TailChar(q[i])
    requires CIPrefix(q, Render(kind, t, k, j))
    ensures CIPrefix(q, t)
    decreases |q|
  {
    var r := Render(kind, t, k, j);
    var t' := t[1..];
    var r' := Render(kind, t', k, j);
    assert r == [t[0]] + r';
    assert r[0] == t[0];
    if |q| > 1 {
      CIPrefixTail(q, r);
      assert r[1..] == r';
      if SpanAt(kind, t') > 0 {
        RenderStartsWithBreaker(kind, t', k, j);
        assert false;
      }
      PlainMatch(kind, t', k, j, q[1..]);
      CIPrefixCons(q, t);
    }
  }

  /** A case-insensitive match continues on the tails. */
  lemma CIPrefixTail(q: string, r: string)
    requires |q| > 1 && CIPrefix(q, r)
    ensures CIPrefix(q[1..], r[1..])
  {
    forall i | 0 <= i < |q| - 1
      ensures Fold(r[1..][i]) == q[1..][i]
    {
      assert r[1..][i] == r[i + 1];
    }
  }

  /** A matching first character in front of a match on the tails is a match. */
  lemma CIPrefixCons(q: string, t: string)
    requires |q| >= 1 && t != [] && Fold(t[0]) == q[0] && CIPrefix(q[1..], t[1..])
    ensures CIPrefix(q, t)
  {
    forall i | 0 <= i < |q|
      ensures Fold(t[i]) == q[i]
    {
      if i > 0 {
        assert t[i] == t[1..][i - 1] && q[i] == q[1..][i - 1];
      }
    }
  }

  lemma NoOccurrenceSuffix(pat: string, s: string, n: nat)
    requires NoOccurrence(pat, s) && n <= |s|
    ensures NoOccurrence(pat, s[n..])
  {
    forall i | 0 <= i <= |s| - n
      ensures !CIPrefix(pat, s[n..][i..])
    {
      assert s[n..][i..] == s[n + i..];
    }
  }

  /** Restoring placeholder `j` at a plain character leaves the character alone. */
  lemma PlainStep(kind: SpanKind, t: string, k: nat, j: nat, rep: string)
    requires t != [] && SpanAt(kind, t) == 0
    requires NoOccurrence(TagPrefix(kind), t)
    requires var pat := TagPattern(kind, j);
      ReplaceAll(Render(kind, t[1..], k, j), pat, rep) == Render(kind, t[1..], k, j + 1)
    ensures ReplaceAll(Render(kind, t, k, j), TagPattern(kind, j), rep) == Render(kind, t, k, j + 1)
  {
    var pat := TagPattern(kind, j);
    TagPatternShape(kind, j);
    var X := Render(kind, t[1..], k, j);
    assert Render(kind, t, k, j) == [t[0]] + X;
    assert pat == TagPrefix(kind) + (Digits(j) + "]");
    NoOccurrenceTail(TagPrefix(kind), t);
    if CIPrefix(pat, [t[0]] + X) {
      PlainMatch(kind, t, k, j, pat);
      CIPrefixOfPrefix(TagPrefix(kind), Digits(j) + "]", t);
      assert false;
    }
    assert ([t[0]] + X)[0..] == [t[0]] + X;
    ReplaceSkip([t[0]], X, pat, rep);
  }

  lemma RenderSpan(kind: SpanKind, t: string, k: nat, j: nat)
    requires t != [] && SpanAt(kind, t) > 0
    ensures Render(kind, t, k, j)
      == (if k < j then Restored(kind, t[..SpanAt(kind, t)]) else Tag(kind, k)) + Render(kind, t[SpanAt(kind, t)..], k + 1, j)
  {
  }

  /** The bracket a span cannot hold: an emoji run holds no `[`, a URL no `]`. */
  predicate BracketFree(kind: SpanKind, span: string)
  {
    match kind
    case Emoji => forall i :: 0 <= i < |span| ==> span[i] != '['
    case Url => forall i :: 0 <= i < |span| ==> span[i] != ']'
  }

  lemma SpanIsBracketFree(kind: SpanKind, t: string)
    ensures BracketFree(kind, t[..SpanAt(kind, t)])
  {
    var span := t[..SpanAt(kind, t)];
    if kind == Emoji {
      assert forall i :: 0 <= i < |span| ==> IsEmojiChar(span[i]);
    }
  }

  /** Restoring placeholder `j` at a span numbered `k`, ahead of the text `X`. */
  lemma SpanStepCore(kind: SpanKind, span: string, X: string, Y: string, k: nat, j: nat, e: string)
    requires BracketFree(kind, span)
    requires k == j ==> e == span
    requires ReplaceAll(X, TagPattern(kind, j), Restored(kind, e)) == Y
    ensures ReplaceAll((if k < j then Restored(kind, span) else Tag(kind, k)) + X, TagPattern(kind, j), Restored(kind, e))
      == (if k < j + 1 then Restored(kind, span) else Tag(kind, k)) + Y
  {
    var pat, rep := TagPattern(kind, j), Restored(kind, e);
    TagPatternShape(kind, j);
    if k < j {
      if kind == Emoji {
        NoMatchWithoutBracket(span, X, pat);
      } else {
        NoMatchInPaddedUrl(span, X, pat);
      }
      ReplaceSkip(Restored(kind, span), X, pat, rep);
    } else if k == j {
      TagFolds(kind, k);
      ReplaceHit(Tag(kind, k), X, pat, rep);
    } else {
      NoMatchInOtherTag(kind, k, j, X);
      ReplaceSkip(Tag(kind, k), X, pat, rep);
    }
  }

  /** Restoring placeholder `j` at span number `k` restores it when `k == j` and otherwise leaves it. */
  lemma SpanStep(kind: SpanKind, t: string, k: nat, j: nat, e: string)
    requires t != [] && SpanAt(kind, t) > 0
    requires k == j ==> e == t[..SpanAt(kind, t)]
    requires var n := SpanAt(kind, t);
      ReplaceAll(Render(kind, t[n..], k + 1, j), TagPattern(kind, j), Restored(kind, e)) == Render(kind, t[n..], k + 1, j + 1)
    ensures ReplaceAll(Render(kind, t, k, j), TagPattern(kind, j), Restored(kind, e)) == Render(kind, t, k, j + 1)
  {
    var n := SpanAt(kind, t);
    RenderSpan(kind, t, k, j);
    RenderSpan(kind, t, k, j + 1);
    SpanIsBracketFree(kind, t);
    SpanStepCore(kind, t[..n], Render(kind, t[n..], k + 1, j), Render(kind, t[n..], k + 1, j + 1), k, j, e);
  }

  /** One pass of the restorer turns placeholder `j` back into its span and touches nothing else. */
  lemma {:induction false} RestoreStep(kind: SpanKind, t: string, k: nat, j: nat, e: string)
    requires NoOccurrence(TagPrefix(kind), t)
    requires k <= j < k + |MaskFrom(kind, t, k).spans| ==> e == MaskFrom(kind, t, k).spans[j - k]
    ensures ReplaceAll(Render(kind, t, k, j), TagPattern(kind, j), Restored(kind, e)) == Render(kind, t, k, j + 1)
    decreases |t|, 2
  {
    if t != [] {
      if SpanAt(kind, t) == 0 {
        RestorePlainCase(kind, t, k, j, e);
      } else {
        RestoreSpanCase(kind, t, k, j, e);
      }
    }
  }

  lemma {:induction false} RestorePlainCase(kind: SpanKind, t: string, k: nat, j: nat, e: string)
    requires t != [] && SpanAt(kind, t) == 0
    requires NoOccurrence(TagPrefix(kind), t)
    requires k <= j < k + |MaskFrom(kind, t, k).spans| ==> e == MaskFrom(kind, t, k).spans[j - k]
    ensures ReplaceAll(Render(kind, t, k, j), TagPattern(kind, j), Restored(kind, e)) == Render(kind, t, k, j + 1)
    decreases |t|, 0
  {
    NoOccurrenceTail(TagPrefix(kind), t);
    MaskFromPlain(kind, t, k);
    RestoreStep(kind, t[1..], k, j, e);
    PlainStep(kind, t, k, j, Restored(kind, e));
  }

  lemma {:induction false} RestoreSpanCase(kind: SpanKind, t: string, k: nat, j: nat, e: string)
    requires t != [] && SpanAt(kind, t) > 0
    requires NoOccurrence(TagPrefix(kind), t)
    requires k <= j < k + |MaskFrom(kind, t, k).spans| ==> e == MaskFrom(kind, t, k).spans[j - k]
    ensures ReplaceAll(Render(kind, t, k, j), TagPattern(kind, j), Restored(kind, e)) == Render(kind, t, k, j + 1)
    decreases |t|, 1
  {
    var rest := RestoreSpanFacts(kind, t, k, j, e);
    RestoreSpanTail(kind, t, rest, k, j, e);
  }

  lemma {:induction false} RestoreSpanTail(kind: SpanKind, t: string, rest: string, k: nat, j: nat, e: string)
    requires t != [] && SpanAt(kind, t) > 0
    requires rest == t[SpanAt(kind, t)..] && |rest| < |t|
    requires NoOccurrence(TagPrefix(kind), rest)
    requires k + 1 <= j < k + 1 + |MaskFrom(kind, rest, k + 1).spans| ==> e == MaskFrom(kind, rest, k + 1).spans[j - (k + 1)]
    requires k == j ==> e == t[..SpanAt(kind, t)]
    ensures ReplaceAll(Render(kind, t, k, j), TagPattern(kind, j), Restored(kind, e)) == Render(kind, t, k, j + 1)
    decreases |t|, 0
  {
    RestoreStep(kind, rest, k + 1, j, e);
    var n := SpanAt(kind, t);
    assert t[n..] == rest;
    SpanStep(kind, t, k, j, e);
  }

  /** What the restorer's step at a span needs about the text after it. */
  lemma RestoreSpanFacts(kind: SpanKind, t: string, k: nat, j: nat, e: string) returns (rest: string)
    requires t != [] && SpanAt(kind, t) > 0
    requires NoOccurrence(TagPrefix(kind), t)
    requires k <= j < k + |MaskFrom(kind, t, k).spans| ==> e == MaskFrom(kind, t, k).spans[j - k]
    ensures rest == t[SpanAt(kind, t)..] && |rest| < |t|
    ensures NoOccurrence(TagPrefix(kind), rest)
    ensures k + 1 <= j < k + 1 + |MaskFrom(kind, rest, k + 1).spans| ==> e == MaskFrom(kind, rest, k + 1).spans[j - (k + 1)]
    ensures k == j ==> e == t[..SpanAt(kind, t)]
  {
    var n := SpanAt(kind, t);
    rest := t[n..];
    NoOccurrenceSuffix(TagPrefix(kind), t, n);
    MaskFromSpan(kind, t, k);
    SpansShift(MaskFrom(kind, t, k).spans, t[..n], MaskFrom(kind, rest, k + 1).spans, k, j, e);
  }

  /** The span restored for placeholder `j`, seen from the spans after the first. */
  lemma SpansShift(spans: seq<string>, head: string, rest: seq<string>, k: nat, j: nat, e: string)
    requires spans == [head] + rest
    requires k <= j < k + |spans| ==> e == spans[j - k]
    ensures k + 1 <= j < k + 1 + |rest| ==> e == rest[j - (k + 1)]
    ensures k == j ==> e == head
  {
    if k + 1 <= j < k + 1 + |rest| {
      assert spans[j - k] == rest[j - (k + 1)];
    }
  }

  /** The masker's output is the rendering with no span restored yet. */
  lemma {:induction false} MaskIsRender(kind: SpanKind, t: string, k: nat, j: nat)
    requires j <= k
    ensures MaskFrom(kind, t, k).text == Render(kind, t, k, j)
    decreases |t|
  {
    if t != [] {
      var n := SpanAt(kind, t);
      if n == 0 {
        MaskIsRender(kind, t[1..], k, j);
      } else {
        MaskIsRender(kind, t[n..], k + 1, j);
      }
    }
  }

  /** Once every span number is below `j`, the rendering is the fully unmasked text. */
  lemma {:induction false} RenderAllRestored(kind: SpanKind, t: string, k: nat, j: nat)
    requires j >= k + |MaskFrom(kind, t, k).spans|
    ensures Render(kind, t, k, j) == Unmasked(kind, t)
    decreases |t|
  {
    if t != [] {
      var n := SpanAt(kind, t);
      if n == 0 {
        RenderAllRestored(kind, t[1..], k, j);
      } else {
        RenderAllRestored(kind, t[n..], k + 1, j);
      }
    }
  }

  lemma {:induction false} RestoreFromRender(kind: SpanKind, t: string, i: nat)
    requires NoOccurrence(TagPrefix(kind), t)
    ensures LiteralRestoreFrom(kind, Render(kind, t, 0, i), Mask(kind, t).spans, i) == Unmasked(kind, t)
    decreases |Mask(kind, t).spans| - i
  {
    if i >= |Mask(kind, t).spans| {
      RestoreFromDone(kind, t, i);
    } else {
      RestoreFromNext(kind, t, i);
      RestoreFromRender(kind, t, i + 1);
    }
  }

  lemma RestoreFromDone(kind: SpanKind, t: string, i: nat)
    requires i >= |Mask(kind, t).spans|
    ensures LiteralRestoreFrom(kind, Render(kind, t, 0, i), Mask(kind, t).spans, i) == Unmasked(kind, t)
  {
    RenderAllRestored(kind, t, 0, i);
  }

  /** One pass of the restorer's loop moves the rendering on by one placeholder. */
  lemma RestoreFromNext(kind: SpanKind, t: string, i: nat)
    requires NoOccurrence(TagPrefix(kind), t)
    requires i < |Mask(kind, t).spans|
    ensures LiteralRestoreFrom(kind, Render(kind, t, 0, i), Mask(kind, t).spans, i)
      == LiteralRestoreFrom(kind, Render(kind, t, 0, i + 1), Mask(kind, t).spans, i + 1)
  {
    var spans := Mask(kind, t).spans;
    RestoreStep(kind, t, 0, i, spans[i]);
  }

  lemma LiteralRestoreInvertsMask(kind: SpanKind, t: string)
    requires NoOccurrence(TagPrefix(kind), t)
    ensures LiteralRestore(kind, Mask(kind, t).text, Mask(kind, t).spans) == Unmasked(kind, t)
  {
    MaskIsRender(kind, t, 0, 0);
    RestoreFromRender(kind, t, 0);
  }

  /** With no backslash in any span, each replacement compiles to its own text and the restorer replaces literally. */
  lemma {:induction false} RestoreIsLiteral(kind: SpanKind, s: string, spans: seq<string>, i: nat)
    requires Escapeless(spans)
    ensures RestoreFrom(kind, s, spans, i) == Some(LiteralRestoreFrom(kind, s, spans, i))
    decreases |spans| - i
  {
    if i < |spans| {
      var rep := Restored(kind, spans[i]);
      assert '\\' !in rep;
      ExpandPlain(rep);
      SubLiteral(s, TagPattern(kind, i), rep);
      RestoreIsLiteral(kind, ReplaceAll(s, TagPattern(kind, i), rep), spans, i + 1);
    }
  }

  /** A span whose replacement does not compile makes the restorer raise, whatever the text. */
  lemma {:induction false} RestoreRaises(kind: SpanKind, s: string, spans: seq<string>, i: nat)
    ensures (exists j :: i <= j < |spans| && Expand(Restored(kind, spans[j])).None?) ==> RestoreFrom(kind, s, spans, i) == None
    decreases |spans| - i
  {
    if i < |spans| {
      match Expand(Restored(kind, spans[i])) {
        case None =>
        case Some(ps) =>
          RestoreRaises(kind, Sub(s, TagPattern(kind, i), ps), spans, i + 1);
      }
    }
  }

  /**
   * Restoring the masker's output gives back the text with every span replaced
   * by what the restorer writes for it, provided the text held no
   * placeholder-like `[emoji_` / `[url_` of its own and no span holds a
   * backslash (which the restorer would read as a template escape).
   */
  lemma RestoreInvertsMask(kind: SpanKind, t: string)
    requires NoOccurrence(TagPrefix(kind), t)
    ensures Escapeless(Mask(kind, t).spans) ==> Restore(kind, Mask(kind, t).text, Mask(kind, t).spans) == Some(Unmasked(kind, t))
  {
    LiteralRestoreInvertsMask(kind, t);
    if Escapeless(Mask(kind, t).spans) {
      RestoreIsLiteral(kind, Mask(kind, t).text, Mask(kind, t).spans, 0);
    }
  }

  lemma {:induction false} UnmaskedEmojiIsIdentity(t: string)
    ensures Unmasked(Emoji, t) == t
    decreases |t|
  {
    if t != [] {
      var n := SpanAt(Emoji, t);
      if n == 0 {
        UnmaskedEmojiIsIdentity(t[1..]);
      } else {
        UnmaskedEmojiIsIdentity(t[n..]);
        assert t == t[..n] + t[n..];
      }
    }
  }

  /** `restore_emojis(*replace_emojis_with_tags(t)) == t` for text without `[emoji_`. */
  lemma EmojiRoundTrip(t: string)
    requires NoOccurrence(TagPrefix(Emoji), t)
    ensures Restore(Emoji, Mask(Emoji, t).text, Mask(Emoji, t).spans) == Some(t)
  {
    EmojiSpansEscapeless(t);
    RestoreInvertsMask(Emoji, t);
    UnmaskedEmojiIsIdentity(t);
  }

  /** Emoji runs hold no backslash. */
  lemma EmojiSpansEscapeless(t: string)
    ensures Escapeless(Mask(Emoji, t).spans)
  {
    var spans := Mask(Emoji, t).spans;
    EmojiMaskContents(t, 0);
    forall i | 0 <= i < |spans|
      ensures '\\' !in spans[i]
    {
      assert AllEmoji(spans[i]);
    }
  }

  lemma UnmaskedPlain(kind: SpanKind, t: string)
    requires t != [] && SpanAt(kind, t) == 0
    ensures Unmasked(kind, t) == [t[0]] + Unmasked(kind, t[1..])
  {
  }

  lemma UnmaskedSpan(kind: SpanKind, t: string)
    requires t != [] && SpanAt(kind, t) > 0
    ensures Unmasked(kind, t) == Restored(kind, t[..SpanAt(kind, t)]) + Unmasked(kind, t[SpanAt(kind, t)..])
  {
  }

  /** A padded URL has the non-space characters of the URL. */
  lemma NonSpacePadded(span: string, rest: string, tail: string)
    requires NonSpace(rest) == NonSpace(tail)
    ensures NonSpace(Restored(Url, span) + rest) == NonSpace(span + tail)
  {
    NonSpaceAppend(" " + span + " ", rest);
    NonSpaceAppend(" " + span, " ");
    NonSpaceAppend(" ", span);
    NonSpaceAppend(span, tail);
  }

  lemma NonSpacePaddedAt(t: string, n: nat, rest: string)
    requires n <= |t| && NonSpace(rest) == NonSpace(t[n..])
    ensures NonSpace(Restored(Url, t[..n]) + rest) == NonSpace(t)
  {
    NonSpacePadded(t[..n], rest, t[n..]);
    assert t[..n] + t[n..] == t;
  }

  lemma UnmaskedPlainNonSpace(t: string)
    requires t != [] && SpanAt(Url, t) == 0
    requires NonSpace(Unmasked(Url, t[1..])) == NonSpace(t[1..])
    ensures NonSpace(Unmasked(Url, t)) == NonSpace(t)
  {
    UnmaskedPlain(Url, t);
    NonSpaceAppend([t[0]], Unmasked(Url, t[1..]));
    NonSpaceAppend([t[0]], t[1..]);
    assert [t[0]] + t[1..] == t;
  }

  lemma UnmaskedSpanNonSpace(t: string)
    requires t != [] && SpanAt(Url, t) > 0
    requires NonSpace(Unmasked(Url, t[SpanAt(Url, t)..])) == NonSpace(t[SpanAt(Url, t)..])
    ensures NonSpace(Unmasked(Url, t)) == NonSpace(t)
  {
    UnmaskedSpan(Url, t);
    NonSpacePaddedAt(t, SpanAt(Url, t), Unmasked(Url, t[SpanAt(Url, t)..]));
  }

  /** Restoring URLs only adds spaces: the non-space characters are exactly those of the input. */
  lemma {:induction false} UnmaskedUrlOnlyAddsSpaces(t: string)
    ensures NonSpace(Unmasked(Url, t)) == NonSpace(t)
    decreases |t|
  {
    if t != [] {
      var n := SpanAt(Url, t);
      if n == 0 {
        UnmaskedUrlOnlyAddsSpaces(t[1..]);
        UnmaskedPlainNonSpace(t);
      } else {
        UnmaskedUrlOnlyAddsSpaces(t[n..]);
        UnmaskedSpanNonSpace(t);
      }
    }
  }

  lemma ExampleHasNoUrlTag(t: string)
    requires t == "http://a"
    ensures NoOccurrence(TagPrefix(Url), t)
  {
    forall i | 0 <= i <= |t|
      ensures !CIPrefix(TagPrefix(Url), t[i..])
    {
      if i < |t| {
        assert t[i..][0] == t[i] != '[';
      }
    }
  }

  lemma ExampleIsOneUrl(t: string)
    requires t == "http://a"
    ensures SpanAt(Url, t) == |t|
  {
    assert Fold(t[4]) != "https://"[4];
    assert !CIPrefix("https://", t);
    assert forall i :: 0 <= i < 7 ==> Fold(t[i]) == "http://"[i];
    assert CIPrefix("http://", t);
    assert SchemeLen(t) == 7;
    assert t[7..] == ['a'];
    assert ClassRun(Url, ['a'][1..]) == 0;
  }

  /** URL masking does not round-trip: the restored URL comes back padded with spaces. */
  lemma UrlRoundTripPads(t: string)
    requires t == "http://a"
    ensures Unprotect(Protect(t).text, Protect(t)) == Some(" http://a ")
  {
    UrlShape(t);
    LoneUrl(t);
    PaddedTemplate(t);
    InstantiateLiteral(" http://a ", Tag(Url, 0));
  }

  lemma PaddedTemplate(t: string)
    requires t == "http://a"
    ensures Expand(Restored(Url, t)) == Some(Literal(" http://a "))
  {
    var r := Restored(Url, t);
    assert r == " http://a ";
    ExpandPlain(r);
  }

  /** The example URLs are one URL match each: `http://` and then URL characters only. */
  lemma UrlShape(t: string)
    requires t == "http://a" || t == "http://a\\\\b" || t == "http://a\\d"
    ensures |t| > 7 && t[..7] == "http://"
    ensures forall i :: 7 <= i < |t| ==> IsUrlChar(t[i])
  {
  }

  /** A doubled backslash in a URL comes back as a single one. */
  lemma UrlBackslashHalved(t: string)
    requires t == "http://a\\\\b"
    ensures Unprotect(Protect(t).text, Protect(t)) == Some(" http://a\\b ")
  {
    UrlShape(t);
    LoneUrl(t);
    HalvedTemplate(t);
    InstantiateLiteral(" http://a\\b ", Tag(Url, 0));
  }

  lemma HalvedTemplate(t: string)
    requires t == "http://a\\\\b"
    ensures Expand(Restored(Url, t)) == Some(Literal(" http://a\\b "))
  {
    assert Restored(Url, t) == " http://a" + "\\\\" + "b ";
    ExpandDoubleBackslash(" http://a", "b ");
    assert " http://a" + "\\" + "b " == " http://a\\b ";
  }

  /** A URL holding `\d` makes the URL restorer raise: `\d` is no template escape. */
  lemma UrlBadEscapeRaises(t: string)
    requires t == "http://a\\d"
    ensures Unprotect(Protect(t).text, Protect(t)) == None
  {
    UrlShape(t);
    LoneUrl(t);
    BadEscapeTemplate(t);
  }

  lemma BadEscapeTemplate(t: string)
    requires t == "http://a\\d"
    ensures Expand(Restored(Url, t)) == None
  {
    assert Restored(Url, t) == " http://a" + ['\\', 'd'] + " ";
    ExpandBadEscape(" http://a", 'd', " ");
  }

  /** A run of URL characters after `http://` is masked as one URL. */
  lemma WholeUrl(t: string)
    requires |t| > 7 && t[..7] == "http://"
    requires forall i :: 7 <= i < |t| ==> IsUrlChar(t[i])
    ensures SpanAt(Url, t) == |t|
    ensures Mask(Url, t) == Masked(Tag(Url, 0), [t])
  {
    assert t[4] == ':';
    assert !CIPrefix("https://", t);
    assert forall i :: 0 <= i < 7 ==> Fold(t[i]) == "http://"[i];
    assert SchemeLen(t) == 7;
    ClassRunAll(Url, t[7..]);
    assert t[..|t|] == t && t[|t|..] == [];
    assert MaskFrom(Url, t[|t|..], 1) == Masked([], []);
    assert Tag(Url, 0) + [] == Tag(Url, 0);
  }

  /** A class run over a string entirely in the class is the whole string. */
  lemma {:induction false} ClassRunAll(kind: SpanKind, P: string)
    requires forall i :: 0 <= i < |P| ==> InClass(kind, P[i])
    ensures ClassRun(kind, P) == |P|
    decreases |P|
  {
    if P != [] {
      ClassRunAll(kind, P[1..]);
    }
  }

  /**
   * A text that is one URL comes back from the pipeline as the compiled
   * replacement `" {url} "` written in place of its placeholder, or the
   * restorer raises when that replacement does not compile.
   */
  lemma LoneUrl(t: string)
    requires |t| > 7 && t[..7] == "http://"
    requires forall i :: 7 <= i < |t| ==> IsUrlChar(t[i])
    ensures Unprotect(Protect(t).text, Protect(t)) ==
      match Expand(Restored(Url, t)) case None => None case Some(ps) => Some(Instantiate(ps, Tag(Url, 0)))
  {
    LoneUrlProtect(t);
    LoneTagRestore(Tag(Url, 0), t);
  }

  lemma LoneUrlProtect(t: string)
    requires |t| > 7 && t[..7] == "http://"
    requires forall i :: 7 <= i < |t| ==> IsUrlChar(t[i])
    ensures Protect(t) == Protected(Tag(Url, 0), [], [t])
  {
    WholeUrl(t);
    var g := Tag(Url, 0);
    TagZero();
    var none: string := [];
    assert g + none == g;
    NoEmojiSpanInAscii(g, none);
    MaskPlainPrefix(Emoji, g, none, 0);
  }

  /** Restoring the lone placeholder `g` of a URL. */
  lemma LoneTagRestore(g: string, t: string)
    requires g == Tag(Url, 0)
    ensures Unprotect(g, Protected(g, [], [t])) ==
      match Expand(Restored(Url, t)) case None => None case Some(ps) => Some(Instantiate(ps, g))
  {
    assert Restore(Emoji, g, []) == Some(g);
    assert [t][0] == t;
    match Expand(Restored(Url, t)) {
      case None =>
      case Some(ps) =>
        var pat := TagPattern(Url, 0);
        TagFolds(Url, 0);
        assert CIPrefix(pat, g);
        assert g[|pat|..] == [] && g[..|pat|] == g;
        assert Sub(g, pat, ps) == Instantiate(ps, g) + Sub([], pat, ps);
        assert Sub([], pat, ps) == [];
        assert Sub(g, pat, ps) == Instantiate(ps, g);
        assert RestoreFrom(Url, Sub(g, pat, ps), [t], 1) == Some(Sub(g, pat, ps));
        assert RestoreFrom(Url, g, [t], 0) == RestoreFrom(Url, Sub(g, pat, ps), [t], 1);
        assert Restore(Url, g, [t]) == Some(Instantiate(ps, g));
    }
  }

  /** A text that is one whole span comes back as that span restored. */
  lemma UnmaskedWhole(kind: SpanKind, t: string)
    requires t != [] && SpanAt(kind, t) == |t|
    ensures Unmasked(kind, t) == Restored(kind, t)
  {
    UnmaskedSpan(kind, t);
    assert t[..|t|] == t && t[|t|..] == [];
  }

  lemma NoOccurrenceConcat(pat: string, P: string, X: string)
    requires forall i :: 0 <= i < |P| ==> !CIPrefix(pat, (P + X)[i..])
    requires NoOccurrence(pat, X)
    ensures NoOccurrence(pat, P + X)
  {
    forall i | |P| <= i <= |P + X|
      ensures !CIPrefix(pat, (P + X)[i..])
    {
      assert (P + X)[i..] == X[i - |P|..];
    }
  }

  /** A plain character cannot start the other kind's prefix in the masked text. */
  lemma PlainKeepsOtherPrefixAbsent(kind: SpanKind, other: SpanKind, t: string, k: nat)
    requires t != [] && SpanAt(kind, t) == 0
    requires NoOccurrence(TagPrefix(other), t)
    requires NoOccurrence(TagPrefix(other), MaskFrom(kind, t[1..], k).text)
    ensures NoOccurrence(TagPrefix(other), MaskFrom(kind, t, k).text)
  {
    var q := TagPrefix(other);
    assert |q| >= 2 && forall i :: 1 <= i < |q| ==> TailChar(q[i]);
    MaskIsRender(kind, t, k, 0);
    NoOccurrenceTail(q, t);
    var X := MaskFrom(kind, t[1..], k).text;
    var r := [t[0]] + X;
    assert MaskFrom(kind, t, k).text == r;
    assert r[0..] == r;
    if CIPrefix(q, Render(kind, t, k, 0)) {
      PlainMatch(kind, t, k, 0, q);
      assert false;
    }
    NoOccurrenceConcat(q, [t[0]], X);
  }

  /** No placeholder of one kind reads as the other kind's prefix. */
  lemma TagKeepsOtherPrefixAbsent(kind: SpanKind, other: SpanKind, k: nat, X: string)
    requires kind != other
    requires NoOccurrence(TagPrefix(other), X)
    ensures NoOccurrence(TagPrefix(other), Tag(kind, k) + X)
  {
    var q := TagPrefix(other);
    var g := Tag(kind, k);
    assert |q| >= 2 && q[0] == '[';
    assert g == "[" + Word(kind) + "_" + Digits(k) + "]";
    assert forall i :: 1 <= i < |g| ==> g[i] != '[';
    NoMatchWithoutBracket(g[1..], X, q);
    forall i | 0 <= i < |g|
      ensures !CIPrefix(q, (g + X)[i..])
    {
      if i == 0 {
        assert (g + X)[0..][1] == g[1] == Word(kind)[0];
        assert Fold((g + X)[0..][1]) != q[1];
      } else {
        assert (g + X)[i..] == (g[1..] + X)[i - 1..];
      }
    }
    NoOccurrenceConcat(q, g, X);
  }

  /**
   * Masking one kind cannot create the other kind's placeholder prefix: a
   * `[URL_k]` tag never reads as `[emoji_` and an `[EMOJI_k]` tag never as `[url_`.
   */
  lemma {:induction false} MaskKeepsOtherPrefixAbsent(kind: SpanKind, other: SpanKind, t: string, k: nat)
    requires kind != other
    requires NoOccurrence(TagPrefix(other), t)
    ensures NoOccurrence(TagPrefix(other), MaskFrom(kind, t, k).text)
    decreases |t|
  {
    var q := TagPrefix(other);
    if t == [] {
      assert !CIPrefix(q, MaskFrom(kind, t, k).text[0..]);
    } else {
      var n := SpanAt(kind, t);
      if n == 0 {
        NoOccurrenceTail(q, t);
        MaskKeepsOtherPrefixAbsent(kind, other, t[1..], k);
        PlainKeepsOtherPrefixAbsent(kind, other, t, k);
      } else {
        NoOccurrenceSuffix(q, t, n);
        MaskKeepsOtherPrefixAbsent(kind, other, t[n..], k + 1);
        TagKeepsOtherPrefixAbsent(kind, other, k, MaskFrom(kind, t[n..], k + 1).text);
      }
    }
  }

  /** The emoji characters of a text, in order. */
  function EmojiChars(t: string): string
  {
    if t == [] then [] else (if IsEmojiChar(t[0]) then [t[0]] else []) + EmojiChars(t[1..])
  }

  predicate AllEmoji(s: string)
  {
    forall i :: 0 <= i < |s| ==> IsEmojiChar(s[i])
  }

  lemma {:induction false} EmojiCharsAppend(a: string, b: string)
    ensures EmojiChars(a + b) == EmojiChars(a) + EmojiChars(b)
    decreases |a|
  {
    if a == [] {
      assert a + b == b;
    } else {
      var h := if IsEmojiChar(a[0]) then [a[0]] else [];
      assert (a + b)[0] == a[0];
      assert (a + b)[1..] == a[1..] + b;
      assert EmojiChars(a + b) == h + EmojiChars(a[1..] + b);
      EmojiCharsAppend(a[1..], b);
      assert h + (EmojiChars(a[1..]) + EmojiChars(b)) == (h + EmojiChars(a[1..])) + EmojiChars(b);
    }
  }

  lemma {:induction false} EmojiCharsOfRun(s: string)
    requires AllEmoji(s)
    ensures EmojiChars(s) == s
    decreases |s|
  {
    if s != [] {
      EmojiCharsOfRun(s[1..]);
    }
  }

  lemma TagHasNoEmoji(k: nat)
    ensures EmojiChars(Tag(Emoji, k)) == []
  {
    var g := Tag(Emoji, k);
    assert g == "[" + "EMOJI" + "_" + Digits(k) + "]";
    assert forall i :: 0 <= i < |g| ==> g[i] < '\U{2700}';
    EmojiCharsOfAscii(g);
  }

  /**
   * `replace_emojis_with_tags` records nonempty emoji runs whose concatenation is
   * exactly the emoji characters of the input, and leaves no emoji in the text.
   */
  lemma {:induction false} EmojiMaskContents(t: string, k: nat)
    ensures var m := MaskFrom(Emoji, t, k);
      (forall i :: 0 <= i < |m.spans| ==> m.spans[i] != [] && AllEmoji(m.spans[i]))
      && Seqs.Flatten(m.spans) == EmojiChars(t)
      && EmojiChars(m.text) == []
    decreases |t|, 1
  {
    if t != [] {
      var n := SpanAt(Emoji, t);
      if n == 0 {
        EmojiMaskContents(t[1..], k);
        EmojiCharsAppend([t[0]], MaskFrom(Emoji, t[1..], k).text);
      } else {
        EmojiMaskSpanCase(t, k);
      }
    }
  }

  lemma EmojiMaskSpanCase(t: string, k: nat)
    requires t != [] && SpanAt(Emoji, t) > 0
    ensures var m := MaskFrom(Emoji, t, k);
      (forall i :: 0 <= i < |m.spans| ==> m.spans[i] != [] && AllEmoji(m.spans[i]))
      && Seqs.Flatten(m.spans) == EmojiChars(t)
      && EmojiChars(m.text) == []
    decreases |t|, 0
  {
    var n := SpanAt(Emoji, t);
    EmojiMaskContents(t[n..], k + 1);
    EmojiSpanFinish(t, k, t[n..], MaskFrom(Emoji, t[n..], k + 1));
  }

  lemma EmojiSpanFinish(t: string, k: nat, tail: string, rest: Masked)
    requires t != [] && SpanAt(Emoji, t) > 0
    requires tail == t[SpanAt(Emoji, t)..] && rest == MaskFrom(Emoji, tail, k + 1)
    requires forall i :: 0 <= i < |rest.spans| ==> rest.spans[i] != [] && AllEmoji(rest.spans[i])
    requires Seqs.Flatten(rest.spans) == EmojiChars(tail) && EmojiChars(rest.text) == []
    ensures var m := MaskFrom(Emoji, t, k);
      (forall i :: 0 <= i < |m.spans| ==> m.spans[i] != [] && AllEmoji(m.spans[i]))
      && Seqs.Flatten(m.spans) == EmojiChars(t)
      && EmojiChars(m.text) == []
  {
    var span := EmojiSpanParts(t, k);
    EmojiSpanCore(t, span, tail, k, rest, MaskFrom(Emoji, t, k));
  }

  /** The masker at an emoji run: the run, its placeholder, and the masking of what follows. */
  lemma EmojiSpanParts(t: string, k: nat) returns (span: string)
    requires t != [] && SpanAt(Emoji, t) > 0
    ensures span == t[..SpanAt(Emoji, t)] && t == span + t[SpanAt(Emoji, t)..]
    ensures span != [] && AllEmoji(span)
    ensures MaskFrom(Emoji, t, k).text == Tag(Emoji, k) + MaskFrom(Emoji, t[SpanAt(Emoji, t)..], k + 1).text
    ensures MaskFrom(Emoji, t, k).spans == [span] + MaskFrom(Emoji, t[SpanAt(Emoji, t)..], k + 1).spans
  {
    var n := SpanAt(Emoji, t);
    span := t[..n];
    MaskFromSpan(Emoji, t, k);
    SpanIsEmojiRun(t);
    assert t == span + t[n..];
  }

  lemma SpanIsEmojiRun(t: string)
    requires SpanAt(Emoji, t) > 0
    ensures t[..SpanAt(Emoji, t)] != [] && AllEmoji(t[..SpanAt(Emoji, t)])
  {
  }

  /** Prepending an emoji run and its placeholder keeps the masker's emoji accounting. */
  lemma EmojiSpanCore(t: string, span: string, tail: string, k: nat, rest: Masked, m: Masked)
    requires t == span + tail && span != [] && AllEmoji(span)
    requires forall i :: 0 <= i < |rest.spans| ==> rest.spans[i] != [] && AllEmoji(rest.spans[i])
    requires Seqs.Flatten(rest.spans) == EmojiChars(tail) && EmojiChars(rest.text) == []
    requires m.text == Tag(Emoji, k) + rest.text && m.spans == [span] + rest.spans
    ensures (forall i :: 0 <= i < |m.spans| ==> m.spans[i] != [] && AllEmoji(m.spans[i]))
      && Seqs.Flatten(m.spans) == EmojiChars(t)
      && EmojiChars(m.text) == []
  {
    var spans := [span] + rest.spans;
    assert forall i :: 1 <= i < |spans| ==> spans[i] == rest.spans[i - 1];
    TagHasNoEmoji(k);
    EmojiCharsAppend(Tag(Emoji, k), rest.text);
    EmojiCharsOfRun(span);
    EmojiCharsAppend(span, tail);
    assert Seqs.Flatten(spans) == span + Seqs.Flatten(rest.spans);
  }

  lemma {:induction false} EmojiCharsOfAscii(s: string)
    requires forall i :: 0 <= i < |s| ==> s[i] < '\U{2700}'
    ensures EmojiChars(s) == []
    decreases |s|
  {
    if s != [] {
      EmojiCharsOfAscii(s[1..]);
    }
  }

  lemma NoOccurrenceOfLonger(pat: string, more: string, s: string)
    requires NoOccurrence(pat, s)
    ensures NoOccurrence(pat + more, s)
  {
    forall i | 0 <= i <= |s|
      ensures !CIPrefix(pat + more, s[i..])
    {
      if CIPrefix(pat + more, s[i..]) {
        CIPrefixOfPrefix(pat, more, s[i..]);
        assert false;
      }
    }
  }

  /** A replacement whose pattern never occurs changes nothing. */
  lemma {:induction false} ReplaceAbsent(s: string, pat: string, rep: string)
    requires |pat| > 0 && NoOccurrence(pat, s)
    ensures ReplaceAll(s, pat, rep) == s
    decreases |s|
  {
    if s != [] {
      NoOccurrenceTail(pat, s);
      ReplaceAbsent(s[1..], pat, rep);
    }
  }

  /**
   * Masking URLs before emoji runs (and restoring emoji runs before URLs) gives
   * back the input with each URL padded by a space on each side, so every
   * non-space character, emoji included, survives, as long as no URL holds a
   * backslash.
   */
  lemma ProtectRoundTrip(t: string)
    requires NoOccurrence(TagPrefix(Emoji), t) && NoOccurrence(TagPrefix(Url), t)
    ensures Escapeless(Protect(t).urls) ==>
      Unprotect(Protect(t).text, Protect(t)) == Some(Unmasked(Url, t)) && NonSpace(Unmasked(Url, t)) == NonSpace(t)
  {
    var u := Mask(Url, t);
    MaskKeepsOtherPrefixAbsent(Url, Emoji, t, 0);
    EmojiRoundTrip(u.text);
    RestoreInvertsMask(Url, t);
    UnmaskedUrlOnlyAddsSpaces(t);
  }

  /** The masker records no span exactly when none starts anywhere, and then leaves the text as it is. */
  lemma {:induction false} MaskFindsNothing(kind: SpanKind, t: string, k: nat)
    ensures MaskFrom(kind, t, k).spans == [] <==> !HasSpan(kind, t)
    ensures MaskFrom(kind, t, k).spans == [] ==> MaskFrom(kind, t, k).text == t
    decreases |t|
  {
    if t != [] {
      if SpanAt(kind, t) == 0 {
        MaskFindsNothing(kind, t[1..], k);
        HasSpanTail(kind, t);
        MaskFromPlain(kind, t, k);
        assert [t[0]] + t[1..] == t;
      } else {
        assert t[0..] == t;
        MaskFromSpan(kind, t, k);
      }
    }
  }

  /** Where no span starts at the first character, a span starts somewhere exactly when one starts later. */
  lemma HasSpanTail(kind: SpanKind, t: string)
    requires t != [] && SpanAt(kind, t) == 0
    ensures HasSpan(kind, t) <==> HasSpan(kind, t[1..])
  {
    if HasSpan(kind, t[1..]) {
      var i :| 0 <= i < |t[1..]| && SpanAt(kind, t[1..][i..]) > 0;
      assert t[1..][i..] == t[i + 1..];
    }
    if HasSpan(kind, t) {
      var i :| 0 <= i < |t| && SpanAt(kind, t[i..]) > 0;
      assert t[0..] == t;
      assert i > 0;
      assert t[1..][i - 1..] == t[i..];
    }
  }

  /** An emoji span starts exactly at an emoji character. */
  lemma HasEmojiSpan(t: string)
    ensures HasSpan(Emoji, t) <==> exists i :: 0 <= i < |t| && IsEmojiChar(t[i])
  {
    if exists i :: 0 <= i < |t| && IsEmojiChar(t[i]) {
      var i :| 0 <= i < |t| && IsEmojiChar(t[i]);
      assert t[i..][0] == t[i];
    }
    if HasSpan(Emoji, t) {
      var i :| 0 <= i < |t| && SpanAt(Emoji, t[i..]) > 0;
      assert t[i..][0] == t[i];
    }
  }

  /**
   * Either masking order finds nothing to mask exactly when the text has no
   * emoji character and no URL, and then the masked text is the text itself.
   */
  lemma ProtectFindsNothing(t: string)
    ensures var p := ProtectAsWritten(t);
      (p.emojis == [] && p.urls == [] <==> !HasSpan(Emoji, t) && !HasSpan(Url, t))
      && (p.emojis == [] && p.urls == [] ==> p.text == t)
    ensures var p := Protect(t);
      (p.emojis == [] && p.urls == [] <==> !HasSpan(Emoji, t) && !HasSpan(Url, t))
      && (p.emojis == [] && p.urls == [] ==> p.text == t)
  {
    MaskFindsNothing(Emoji, t, 0);
    MaskFindsNothing(Url, t, 0);
    MaskFindsNothing(Url, Mask(Emoji, t).text, 0);
    MaskFindsNothing(Emoji, Mask(Url, t).text, 0);
  }

  /** Without an emoji character both masking orders agree. */
  lemma ProtectOrdersAgree(t: string)
    ensures !HasSpan(Emoji, t) ==> ProtectAsWritten(t) == Protect(t)
  {
    MaskFindsNothing(Emoji, t, 0);
    if !HasSpan(Emoji, t) {
      var u := Mask(Url, t);
      MaskKeepsNoEmoji(t, 0);
      MaskFindsNothing(Emoji, u.text, 0);
    }
  }

  /** URL masking brings in no emoji character: the placeholders are ASCII. */
  lemma MaskKeepsNoEmoji(t: string, k: nat)
    ensures !HasSpan(Emoji, t) ==> !HasSpan(Emoji, MaskFrom(Url, t, k).text)
  {
    EmojiCharsEmpty(t);
    EmojiCharsEmpty(MaskFrom(Url, t, k).text);
    UrlMaskEmojiChars(t, k);
  }

  lemma {:induction false} UrlMaskEmojiChars(t: string, k: nat)
    ensures EmojiChars(t) == [] ==> EmojiChars(MaskFrom(Url, t, k).text) == []
    decreases |t|
  {
    if t != [] && EmojiChars(t) == [] {
      var n := SpanAt(Url, t);
      if n == 0 {
        EmojiCharsAppend([t[0]], t[1..]);
        assert [t[0]] + t[1..] == t;
        UrlMaskEmojiChars(t[1..], k);
        EmojiCharsAppend([t[0]], MaskFrom(Url, t[1..], k).text);
      } else {
        EmojiCharsAppend(t[..n], t[n..]);
        assert t[..n] + t[n..] == t;
        UrlMaskEmojiChars(t[n..], k + 1);
        MaskFromSpan(Url, t, k);
        UrlTagNoEmoji(k);
        EmojiCharsAppend(Tag(Url, k), MaskFrom(Url, t[n..], k + 1).text);
      }
    }
  }

  /** A URL placeholder is ASCII, so it holds no emoji character. */
  lemma UrlTagNoEmoji(k: nat)
    ensures EmojiChars(Tag(Url, k)) == []
  {
    var g := Tag(Url, k);
    assert g == "[" + "URL" + "_" + Digits(k) + "]";
    assert forall i :: 0 <= i < |g| ==> g[i] < '\U{2700}';
    EmojiCharsOfAscii(g);
  }

  /** A text has no emoji characters to list exactly when no emoji span starts in it. */
  lemma {:induction false} EmojiCharsEmpty(t: string)
    ensures EmojiChars(t) == [] <==> !HasSpan(Emoji, t)
    decreases |t|
  {
    HasEmojiSpan(t);
    if t != [] {
      EmojiCharsEmpty(t[1..]);
      HasEmojiSpan(t[1..]);
      assert forall i :: 1 <= i < |t| ==> t[1..][i - 1] == t[i];
    }
  }

  /** At a character where no span starts, the masker copies it and carries on. */
  lemma MaskFromPlain(kind: SpanKind, s: string, k: nat)
    requires s != [] && SpanAt(kind, s) == 0
    ensures MaskFrom(kind, s, k).text == [s[0]] + MaskFrom(kind, s[1..], k).text
    ensures MaskFrom(kind, s, k).spans == MaskFrom(kind, s[1..], k).spans
  {
  }

  /** At a span, the masker writes its placeholder and records the span. */
  lemma MaskFromSpan(kind: SpanKind, s: string, k: nat)
    requires s != [] && SpanAt(kind, s) > 0
    ensures MaskFrom(kind, s, k).text == Tag(kind, k) + MaskFrom(kind, s[SpanAt(kind, s)..], k + 1).text
    ensures MaskFrom(kind, s, k).spans == [s[..SpanAt(kind, s)]] + MaskFrom(kind, s[SpanAt(kind, s)..], k + 1).spans
  {
  }

  lemma PlainPrefixTail(kind: SpanKind, P: string, X: string)
    requires P != []
    requires forall i :: 0 <= i < |P| ==> SpanAt(kind, (P + X)[i..]) == 0
    ensures (P + X)[1..] == P[1..] + X && SpanAt(kind, P + X) == 0
    ensures forall i :: 0 <= i < |P[1..]| ==> SpanAt(kind, (P[1..] + X)[i..]) == 0
  {
    var s := P + X;
    assert s[0..] == s;
    forall i | 0 <= i < |P[1..]|
      ensures SpanAt(kind, (P[1..] + X)[i..]) == 0
    {
      assert (P[1..] + X)[i..] == s[i + 1..];
    }
  }

  /** Characters at which no span starts are copied through by the masker. */
  lemma {:induction false} MaskPlainPrefix(kind: SpanKind, P: string, X: string, k: nat)
    requires forall i :: 0 <= i < |P| ==> SpanAt(kind, (P + X)[i..]) == 0
    ensures MaskFrom(kind, P + X, k).text == P + MaskFrom(kind, X, k).text
    ensures MaskFrom(kind, P + X, k).spans == MaskFrom(kind, X, k).spans
    decreases |P|
  {
    if P == [] {
      assert P + X == X;
    } else {
      PlainPrefixTail(kind, P, X);
      MaskPlainPrefix(kind, P[1..], X, k);
      MaskFromPlain(kind, P + X, k);
      Seqs.ConsAppend(P, MaskFrom(kind, X, k).text);
    }
  }

  /** A class run stops at the first character outside the class. */
  lemma {:induction false} ClassRunOf(kind: SpanKind, P: string, X: string)
    requires forall i :: 0 <= i < |P| ==> InClass(kind, P[i])
    requires X != [] && !InClass(kind, X[0])
    ensures ClassRun(kind, P + X) == |P|
    decreases |P|
  {
    if P == [] {
      assert P + X == X;
    } else {
      assert (P + X)[1..] == P[1..] + X;
      ClassRunOf(kind, P[1..], X);
    }
  }

  lemma ExampleEmojiSpan(X: string)
    requires X == "\U{1F600}"
    ensures MaskFrom(Emoji, X, 0) == Masked("[EMOJI_0]", [X])
  {
    assert X[1..] == [];
    assert ClassRun(Emoji, X[1..]) == 0;
    assert SpanAt(Emoji, X) == 1;
    assert X[..1] == X;
    assert Digits(0) == "0";
    assert Tag(Emoji, 0) == "[EMOJI_0]";
    assert MaskFrom(Emoji, X[1..], 1) == Masked([], []);
  }

  /** No emoji span starts at a character below the emoji ranges. */
  lemma NoEmojiSpanInAscii(P: string, X: string)
    requires forall i :: 0 <= i < |P| ==> P[i] < '\U{2700}'
    ensures forall i :: 0 <= i < |P| ==> SpanAt(Emoji, (P + X)[i..]) == 0
  {
    forall i | 0 <= i < |P|
      ensures SpanAt(Emoji, (P + X)[i..]) == 0
    {
      var tail := (P + X)[i..];
      assert tail[0] == P[i];
    }
  }

  /** The emoji pass on the example: the emoji right after the URL becomes `[EMOJI_0]`. */
  lemma ExampleEmojiPass(P: string, X: string)
    requires P == "http://" && X == "\U{1F600}"
    ensures Mask(Emoji, P + X) == Masked(P + Tag(Emoji, 0), [X])
  {
    NoEmojiSpanInAscii(P, X);
    MaskPlainPrefix(Emoji, P, X, 0);
    ExampleEmojiSpan(X);
  }

  /** The URL pattern on the emoji-tagged example runs up to the closing `]`. */
  lemma ExampleUrlSpan(s: string)
    requires s == "http://[EMOJI_0]"
    ensures SpanAt(Url, s) == 15
  {
    assert Fold(s[4]) != "https://"[4];
    assert !CIPrefix("https://", s);
    assert forall i :: 0 <= i < 7 ==> Fold(s[i]) == "http://"[i];
    assert SchemeLen(s) == 7;
    var P, X := "[EMOJI_0", "]";
    assert s[7..] == P + X;
    ClassRunOf(Url, P, X);
  }

  /** The URL pass on the emoji-tagged example: the URL swallows `[EMOJI_0`. */
  lemma ExampleUrlPass(s: string)
    requires s == "http://[EMOJI_0]"
    ensures Mask(Url, s) == Masked("[URL_0]]", ["http://[EMOJI_0"])
  {
    ExampleUrlSpan(s);
    MaskFromSpan(Url, s, 0);
    var r := s[15..];
    assert s[..15] == "http://[EMOJI_0" && r == "]";
    assert SpanAt(Url, r) == 0;
    MaskFromPlain(Url, r, 1);
    assert r[1..] == [];
    TagZero();
  }

  lemma ExampleRestoreEmoji(s: string, e: string)
    requires s == "[URL_0]]" && e == "\U{1F600}"
    ensures Restore(Emoji, s, [e]) == Some(s)
  {
    assert '\\' !in e;
    RestoreIsLiteral(Emoji, s, [e], 0);
    var pe := TagPattern(Emoji, 0);
    assert Digits(0) == "0";
    assert pe == "[emoji_0]";
    assert NoOccurrence(pe, s) by {
      forall i | 0 <= i <= |s|
        ensures !CIPrefix(pe, s[i..])
      {
        if i == 0 {
          assert Fold(s[1]) != pe[1];
        } else if i < |s| {
          assert s[i..][0] == s[i] != '[';
        }
      }
    }
    ReplaceAbsent(s, pe, e);
    assert LiteralRestoreFrom(Emoji, s, [e], 1) == s;
  }

  /** The restorer with a single span makes one replacement pass. */
  lemma RestoreSingle(kind: SpanKind, s: string, e: string)
    ensures LiteralRestore(kind, s, [e]) == ReplaceAll(s, TagPattern(kind, 0), Restored(kind, e))
  {
    var r := ReplaceAll(s, TagPattern(kind, 0), Restored(kind, e));
    assert LiteralRestoreFrom(kind, s, [e], 0) == LiteralRestoreFrom(kind, r, [e], 1);
    assert LiteralRestoreFrom(kind, r, [e], 1) == r;
  }

  /** A placeholder is replaced by the pattern of its own number. */
  lemma TagHit(kind: SpanKind, k: nat, X: string, rep: string)
    ensures ReplaceAll(Tag(kind, k) + X, TagPattern(kind, k), rep) == rep + ReplaceAll(X, TagPattern(kind, k), rep)
  {
    TagFolds(kind, k);
    ReplaceHit(Tag(kind, k), X, TagPattern(kind, k), rep);
  }

  lemma ExampleRestoreUrl(s: string, u: string)
    requires s == "[URL_0]]" && u == "http://[EMOJI_0"
    ensures Restore(Url, s, [u]) == Some(Restored(Url, u) + "]")
  {
    assert '\\' !in u;
    RestoreIsLiteral(Url, s, [u], 0);
    TagZero();
    var X, pat, rep := "]", TagPattern(Url, 0), Restored(Url, u);
    assert s == Tag(Url, 0) + X;
    RestoreSingle(Url, s, u);
    TagHit(Url, 0, X, rep);
    TagPatternShape(Url, 0);
    assert !CIPrefix(pat, X);
    assert ReplaceAll(X, pat, rep) == X;
  }

  lemma ExampleEmojiCounts(t: string, r: string)
    requires t == "http://\U{1F600}" && r == " http://[EMOJI_0 ]"
    ensures EmojiChars(t) != [] && EmojiChars(r) == []
  {
    EmojiCharsAppend("http://", "\U{1F600}");
    assert "http://" + "\U{1F600}" == t;
    EmojiCharsOfAscii(r);
  }

  /**
   * As written, an emoji directly after a URL is lost: the URL pattern swallows
   * the `[EMOJI_0` of its placeholder, so the emoji restorer finds nothing and
   * the URL comes back with the placeholder text in it.
   */
  lemma AsWrittenLosesEmoji(t: string)
    requires t == "http://\U{1F600}"
    ensures var r := Unprotect(ProtectAsWritten(t).text, ProtectAsWritten(t));
      r == Some(" http://[EMOJI_0 ]") && EmojiChars(t) != [] && EmojiChars(r.value) == []
  {
    var P, X := "http://", "\U{1F600}";
    assert P + X == t;
    ExampleEmojiPass(P, X);
    TagZero();
    var s, u, m := P + Tag(Emoji, 0), "http://[EMOJI_0", "[URL_0]]";
    assert s == "http://[EMOJI_0]";
    ExampleUrlPass(s);
    AsWrittenChain(t, Masked(s, [X]), Masked(m, [u]));
    ExampleRestoreEmoji(m, X);
    ExampleRestoreUrl(m, u);
    ExamplePadded(u);
    ExampleEmojiCounts(t, " http://[EMOJI_0 ]");
  }

  lemma ExamplePadded(u: string)
    requires u == "http://[EMOJI_0"
    ensures Restored(Url, u) + "]" == " http://[EMOJI_0 ]"
  {
  }

  lemma TagZero()
    ensures Tag(Emoji, 0) == "[EMOJI_0]" && Tag(Url, 0) == "[URL_0]"
  {
    assert Digits(0) == "0";
  }

  /** The as-written pipeline in terms of its two masking passes. */
  lemma AsWrittenChain(t: string, e: Masked, u: Masked)
    requires Mask(Emoji, t) == e && Mask(Url, e.text) == u
    ensures Unprotect(ProtectAsWritten(t).text, ProtectAsWritten(t)) ==
      match Restore(Emoji, u.text, e.spans) case None => None case Some(r) => Restore(Url, r, u.spans)
  {
  }
}

=== FILE: recency.dfy ===
/**
 * The StockTitan crawler's memory of what it sent: the `recent_urls` window
 * (stocktitan_trending_crawler.py:106-143), the rank comparison of
 * `run_once` (stocktitan_trending_crawler.py:621-690), and one cycle of the
 * main loop (stocktitan_trending_crawler.py:714-787). Times are whole
 * seconds read from a clock passed in as `now`.
 */
module Recency {
  import Seqs
  import Articles

  /** Entries stay in the window for seven days (stocktitan_trending_crawler.py:47). */
  const ExpireDays := 7
  const ExpireSeconds := ExpireDays * 24 * 3600

  /** Declared as the window's cap (stocktitan_trending_crawler.py:46) and never applied. */
  const RecentSeenLimit := 100

  /** The stored `recent_urls`: a plain list in older state files, else a map from URL to send time. */
  datatype Recent = Legacy(urls: seq<string>) | Stamped(times: map<string, int>)

  /** `load_recent_seen`: a legacy list becomes a map stamping every URL with the current time. */
  function Load(r: Recent, now: int): (m: map<string, int>)
    ensures r.Stamped? ==> m == r.times
    ensures r.Legacy? ==> forall u :: (u in m <==> u in r.urls) && (u in m ==> m[u] == now)
  {
    match r
    case Legacy(urls) => map u | u in urls :: now
    case Stamped(times) => times
  }

  /** Is `u` recorded as sent within the window ending at `now`? */
  predicate Live(m: map<string, int>, u: string, now: int)
  {
    u in m && m[u] >= now - ExpireSeconds
  }

  /** `recent[url] = now` for every URL of the batch. */
  function Stamp(m: map<string, int>, urls: seq<string>, now: int): (r: map<string, int>)
    ensures forall u :: u in r <==> u in m || u in urls
    ensures forall u :: u in r ==> r[u] == if u in urls then now else m[u]
    decreases |urls|
  {
    if urls == [] then m else Stamp(m[urls[0] := now], urls[1..], now)
  }

  /** The purge of `add_recent_seen`: keep the entries inside the window. */
  function Purge(m: map<string, int>, now: int): (r: map<string, int>)
    ensures forall u :: u in r <==> Live(m, u, now)
    ensures forall u :: u in r ==> u in m && r[u] == m[u]
  {
    map u | u in m && m[u] >= now - ExpireSeconds :: m[u]
  }

  /**
   * `add_recent_seen(urls)`: every URL of the batch is stamped with `now`;
   * every other entry survives exactly when it is inside the window, with
   * its time unchanged.
   */
  function AddSeen(r: Recent, urls: seq<string>, now: int): (m: map<string, int>)
    ensures forall u :: u in urls ==> u in m && m[u] == now
    ensures forall u :: u !in urls ==> (u in m <==> Live(Load(r, now), u, now))
    ensures forall u :: u in m && u !in urls ==> u in Load(r, now) && m[u] == Load(r, now)[u]
    ensures forall u :: u in m ==> Live(m, u, now)
  {
    Purge(Stamp(Load(r, now), urls, now), now)
  }

  /** Recording the same batch again at the same time changes nothing. */
  lemma AddSeenIdempotent(r: Recent, urls: seq<string>, now: int)
    ensures AddSeen(Stamped(AddSeen(r, urls, now)), urls, now) == AddSeen(r, urls, now)
  {
  }

  /** An entry outside the window after a batch is recorded is gone, unless the batch stamped it again. */
  lemma AddSeenDropsExpired(r: Recent, urls: seq<string>, now: int, u: string)
    requires u in Load(r, now) && Load(r, now)[u] < now - ExpireSeconds && u !in urls
    ensures u !in AddSeen(r, urls, now)
  {
  }

  function NotIn(m: map<string, int>): string -> bool
  {
    (u: string) => u !in m
  }

  /** `get_unseen_items` as written: the URLs with no entry at all, whatever its time. */
  function Unseen(urls: seq<string>, m: map<string, int>): (r: seq<string>)
    ensures forall k :: 0 <= k < |r| ==> r[k] !in m
  {
    Seqs.Filter(urls, NotIn(m))
  }

  function NotLive(m: map<string, int>, now: int): string -> bool
  {
    (u: string) => !Live(m, u, now)
  }

  /** The URLs not sent within the window, as the docstring of `get_unseen_items` promises. */
  function UnseenAt(urls: seq<string>, m: map<string, int>, now: int): (r: seq<string>)
    ensures forall k :: 0 <= k < |r| ==> !Live(m, r[k], now)
  {
    Seqs.Filter(urls, NotLive(m, now))
  }

  /** As written, a URL is offered exactly when it is on the page and has no entry; page order is kept. */
  lemma UnseenMember(urls: seq<string>, m: map<string, int>, u: string)
    ensures u in Unseen(urls, m) <==> u in urls && u !in m
    ensures Seqs.IsSubseq(Unseen(urls, m), urls)
  {
    Seqs.FilterMember(urls, NotIn(m), u);
    Seqs.FilterSubseq(urls, NotIn(m));
  }

  /** A URL is offered again exactly when it is on the page and was not sent within the window. */
  lemma UnseenAtMember(urls: seq<string>, m: map<string, int>, now: int, u: string)
    ensures u in UnseenAt(urls, m, now) <==> u in urls && !Live(m, u, now)
  {
    Seqs.FilterMember(urls, NotLive(m, now), u);
  }

  /** Reading with the window is reading after the purge `add_recent_seen` would do. */
  lemma UnseenAtIsUnseenAfterPurge(urls: seq<string>, m: map<string, int>, now: int)
    ensures UnseenAt(urls, m, now) == Unseen(urls, Purge(m, now))
  {
    Seqs.FilterAgree(urls, NotLive(m, now), NotIn(Purge(m, now)));
  }

  /**
   * The read as written ignores the window: an entry sent more than seven
   * days ago still hides its URL until some later send triggers the purge.
   */
  lemma UnseenIgnoresExpiry(m: map<string, int>, u: string, now: int)
    requires m == map[u := 0] && now == ExpireSeconds + 1
    ensures Unseen([u], m) == []
    ensures UnseenAt([u], m, now) == [u]
  {
    assert Unseen([u], m) == Seqs.Filter([u][1..], NotIn(m));
    assert UnseenAt([u], m, now) == [u] + Seqs.Filter([u][1..], NotLive(m, now));
  }

  /** A trending item with its rank and whether it entered the top since the last cycle. */
  datatype Flagged = Flagged(rank: nat, url: string, isNew: bool)

  /** The rank comparison of `run_once`: `is_new_in_rank` is membership of `set(curr) - prev`. */
  function RankDiff(prev: seq<string>, top: seq<string>): (r: seq<Flagged>)
    ensures |r| == |top|
    ensures forall k :: 0 <= k < |r| ==> r[k].rank == k + 1 && r[k].url == top[k]
  {
    seq(|top|, k requires 0 <= k < |top| => Flagged(k + 1, top[k], top[k] !in prev))
  }

  /** The URLs flagged new are exactly the current top minus the previous one. */
  lemma NewInRankIsDifference(prev: seq<string>, top: seq<string>)
    ensures (set k | 0 <= k < |top| && RankDiff(prev, top)[k].isNew :: top[k]) == Articles.Elems(top) - Articles.Elems(prev)
  {
    var r := RankDiff(prev, top);
    forall u | u in Articles.Elems(top) - Articles.Elems(prev)
      ensures u in (set k | 0 <= k < |top| && r[k].isNew :: top[k])
    {
      var k :| 0 <= k < |top| && top[k] == u;
      assert r[k].isNew;
    }
  }

  /** With the page unchanged between cycles nothing is new in rank. */
  lemma UnchangedTopNothingNew(top: seq<string>)
    ensures forall k :: 0 <= k < |top| ==> !RankDiff(top, top)[k].isNew
  {
  }

  /** The state file: the recent window and the last top seven. */
  datatype State = State(recent: Recent, lastTop: seq<string>)

  /** What a cycle leaves behind: the new state, the ranked items, and the URLs it tried to send, in order. */
  datatype Cycle = Cycle(state: State, items: seq<Flagged>, attempted: seq<string>)

  /**
   * One pass of the main loop as written. `hrefs` are the trending page's
   * links and `delivered(u)` whether the Telegram request for `u` succeeds,
   * which `send_to_telegram` swallows; every attempted URL goes into the batch
   * whatever happened to it.
   */
  function CycleAsWritten(st: State, hrefs: seq<string>, now: int, delivered: string -> bool): (c: Cycle)
    ensures c.state.lastTop == Articles.Pick(hrefs, [])
    ensures c.state.recent.Stamped?
    ensures c.attempted == Unseen(Articles.Pick(hrefs, []), Load(st.recent, now))
    ensures forall k :: 0 <= k < |c.attempted| ==>
      c.attempted[k] in c.state.recent.times && c.state.recent.times[c.attempted[k]] == now
  {
    var top := Articles.Pick(hrefs, []);
    var items := RankDiff(st.lastTop, top);
    var recent := Load(st.recent, now);
    var pending := Unseen(top, recent);
    var batch := pending;
    var kept := if batch == [] then recent else AddSeen(Stamped(recent), batch, now);
    Cycle(State(Stamped(kept), top), items, pending)
  }

  /**
   * The cycle as its comments describe it: URLs sent within the window are
   * skipped, and only the URLs whose send succeeded go into the batch.
   */
  function RunCycle(st: State, hrefs: seq<string>, now: int, delivered: string -> bool): (c: Cycle)
    ensures c.state.recent.Stamped? && c.state.lastTop == Articles.Pick(hrefs, [])
    ensures c.attempted == UnseenAt(Articles.Pick(hrefs, []), Load(st.recent, now), now)
    ensures Seqs.IsSubseq(c.attempted, Articles.Pick(hrefs, []))
    ensures forall u :: u in c.attempted <==> u in Articles.Pick(hrefs, []) && !Live(Load(st.recent, now), u, now)
    ensures forall u :: u in c.attempted ==>
      ((u in c.state.recent.times && c.state.recent.times[u] == now) <==> delivered(u))
    ensures forall u :: u in c.attempted && !delivered(u) ==> !Live(c.state.recent.times, u, now)
  {
    var top := Articles.Pick(hrefs, []);
    var items := RankDiff(st.lastTop, top);
    var recent := Load(st.recent, now);
    var pending := UnseenAt(top, recent, now);
    var batch := Seqs.Filter(pending, delivered);
    var kept := if batch == [] then recent else AddSeen(Stamped(recent), batch, now);
    Seqs.FilterSubseq(top, NotLive(recent, now));
    forall u
      ensures u in pending <==> u in top && !Live(recent, u, now)
      ensures u in pending ==> (u in batch <==> delivered(u))
    {
      Seqs.FilterMember(top, NotLive(recent, now), u);
      Seqs.FilterMember(pending, delivered, u);
    }
    Cycle(State(Stamped(kept), top), items, pending)
  }

  /**
   * After a cycle, an attempted URL is recorded as sent now exactly when its
   * send succeeded; a failed one is left outside the window.
   */
  lemma RunCycleRecordsDelivered(st: State, hrefs: seq<string>, now: int, delivered: string -> bool, u: string)
    requires u in RunCycle(st, hrefs, now, delivered).attempted
    ensures var m := RunCycle(st, hrefs, now, delivered).state.recent.times;
      (u in m && m[u] == now) <==> delivered(u)
    ensures !delivered(u) ==> !Live(RunCycle(st, hrefs, now, delivered).state.recent.times, u, now)
  {
    var top := Articles.Pick(hrefs, []);
    var recent := Load(st.recent, now);
    var pending := UnseenAt(top, recent, now);
    var batch := Seqs.Filter(pending, delivered);
    Seqs.FilterMember(pending, delivered, u);
    Seqs.FilterMember(top, NotLive(recent, now), u);
  }

  /** A URL whose send failed is offered again by any later cycle whose page still lists it. */
  lemma FailedSendIsRetried(st: State, hrefs: seq<string>, now: int, delivered: string -> bool,
                            hrefs2: seq<string>, now2: int, delivered2: string -> bool, u: string)
    requires u in RunCycle(st, hrefs, now, delivered).attempted && !delivered(u)
    requires now <= now2 && u in Articles.Pick(hrefs2, [])
    ensures u in RunCycle(RunCycle(st, hrefs, now, delivered).state, hrefs2, now2, delivered2).attempted
  {
    var c := RunCycle(st, hrefs, now, delivered);
    RunCycleRecordsDelivered(st, hrefs, now, delivered, u);
    assert !Live(c.state.recent.times, u, now2);
    UnseenAtMember(Articles.Pick(hrefs2, []), Load(c.state.recent, now2), now2, u);
  }

  /** The page holding only one article link yields that article alone. */
  lemma PickSingle(h: string)
    requires Articles.IsArticleUrl(h)
    ensures Articles.Pick([h], []) == [Articles.NormalizeUrl(h)]
  {
    var u := Articles.NormalizeUrl(h);
    assert Articles.Pick([h][1..], [u]) == [u];
  }

  /** A first cycle on a fresh state with one article offers that article. */
  lemma FirstCycleOffers(h: string, st: State, now: int, delivered: string -> bool)
    requires Articles.IsArticleUrl(h) && st == State(Legacy([]), [])
    ensures CycleAsWritten(st, [h], now, delivered).attempted == [Articles.NormalizeUrl(h)]
    ensures RunCycle(st, [h], now, delivered).attempted == [Articles.NormalizeUrl(h)]
  {
    PickSingle(h);
    var u := Articles.NormalizeUrl(h);
    var none: map<string, int> := map[];
    assert Load(st.recent, now) == none;
    assert Unseen([u], none) == [u] + Seqs.Filter([u][1..], NotIn(none));
    assert UnseenAt([u], none, now) == [u] + Seqs.Filter([u][1..], NotLive(none, now));
  }

  /**
   * The cycle as written forgets a failed send: on a fresh state whose only
   * trending link fails to send, the URL is recorded anyway, and the next
   * cycle over the same page tries nothing. The corrected cycle tries it again.
   */
  lemma FailedSendIsForgotten(h: string, st: State, now: int, delivered: string -> bool)
    requires Articles.IsArticleUrl(h) && st == State(Legacy([]), [])
    requires forall u :: !delivered(u)
    ensures CycleAsWritten(st, [h], now, delivered).attempted == [Articles.NormalizeUrl(h)]
    ensures CycleAsWritten(CycleAsWritten(st, [h], now, delivered).state, [h], now, delivered).attempted == []
    ensures RunCycle(RunCycle(st, [h], now, delivered).state, [h], now, delivered).attempted == [Articles.NormalizeUrl(h)]
  {
    FirstCycleOffers(h, st, now, delivered);
    PickSingle(h);
    var u := Articles.NormalizeUrl(h);
    var c := CycleAsWritten(st, [h], now, delivered);
    var m := c.state.recent.times;
    assert u in m;
    assert Unseen([u], m) == Seqs.Filter([u][1..], NotIn(m));
    var d := RunCycle(st, [h], now, delivered);
    FailedSendIsRetried(st, [h], now, delivered, [h], now, delivered, u);
    assert Load(d.state.recent, now) == d.state.recent.times;
    var m2 := d.state.recent.times;
    assert UnseenAt([u], m2, now) == [u] + Seqs.Filter([u][1..], NotLive(m2, now));
  }
}

=== FILE: retry.dfy ===
/**
 * The retry decision of `call_with_retry` (auto_x_to_telegram_v2.py:571-603):
 * for each failed call, whether to wait and call again or to raise, as a
 * function of the kind of failure and the attempt counter. Wait durations
 * (`1.8 ** attempt` seconds, floating point) are not modelled; only which
 * rule picks the wait is.
 */
module Retry {
  import opened Wrappers

  /** The default retry budget of `call_with_retry`. */
  const DefaultRetries := 5

  /**
   * How a call to the API failed, in the order the handlers test them:
   * `TooManyRequests` (HTTP 429) with its `retry_after`, any other
   * `HTTPException` with its response status, any other `TweepyException`,
   * and anything else.
   */
  datatype Failure =
    | TooMany(retryAfter: Option<int>)
    | Http(status: Option<int>)
    | Transient
    | Foreign

  /** How long the retry waits: the server's `retry_after`, or exponential backoff. */
  datatype Wait = RetryAfter(seconds: int) | Backoff(attempt: nat)

  datatype Decision = Again(wait: Wait) | Raise

  /** Python truthiness of an optional integer: present and non-zero. */
  predicate Truthy(x: Option<int>)
  {
    x.Some? && x.value != 0
  }

  /** A 5xx status, as the HTTP handler tests it. */
  predicate ServerError(status: Option<int>)
  {
    Truthy(status) && 500 <= status.value < 600
  }

  function Decide(f: Failure, attempt: nat, retries: nat): (d: Decision)
    ensures d.Again? <==> f.TooMany? || (attempt < retries && (f.Transient? || (f.Http? && ServerError(f.status))))
    ensures d.Again? && f.TooMany? && Truthy(f.retryAfter) ==> d.wait == RetryAfter(f.retryAfter.value)
    ensures d.Again? && !(f.TooMany? && Truthy(f.retryAfter)) ==> d.wait == Backoff(attempt)
  {
    match f
    case TooMany(after) => if Truthy(after) then Again(RetryAfter(after.value)) else Again(Backoff(attempt))
    case Http(status) => if ServerError(status) && attempt < retries then Again(Backoff(attempt)) else Raise
    case Transient => if attempt < retries then Again(Backoff(attempt)) else Raise
    case Foreign => Raise
  }

  /** The outcome of one call of the wrapped function. */
  datatype Call<T> = Ok(value: T) | Fail(failure: Failure)

  /**
   * Where a run of `call_with_retry` ends, given what the successive calls
   * return: a value, a raised failure, or still retrying when the given calls
   * run out. `calls` is how many calls were made.
   */
  datatype Ending<T> = Returned(value: T, calls: nat) | Raised(failure: Failure, calls: nat) | Pending

  /** Every call in `calls[from..to]` failed and was retried. */
  predicate AllRetried<T>(calls: seq<Call<T>>, retries: nat, from: nat, to: nat)
    requires from <= to <= |calls|
  {
    forall k :: from <= k < to ==> calls[k].Fail? && Decide(calls[k].failure, k, retries).Again?
  }

  /**
   * The loop of `call_with_retry` from call `i` on. The attempt counter goes up
   * on every retry, 429 included, so it equals the index of the call.
   */
  function Run<T>(calls: seq<Call<T>>, retries: nat, i: nat): (e: Ending<T>)
    requires i <= |calls|
    ensures e.Returned? ==> (i < e.calls <= |calls| && calls[e.calls - 1] == Ok(e.value)
      && AllRetried(calls, retries, i, e.calls - 1))
    ensures e.Raised? ==> (i < e.calls <= |calls| && calls[e.calls - 1] == Fail(e.failure)
      && Decide(e.failure, e.calls - 1, retries) == Raise && AllRetried(calls, retries, i, e.calls - 1))
    ensures e.Pending? <==> AllRetried(calls, retries, i, |calls|)
    decreases |calls| - i
  {
    if i == |calls| then Pending
    else match calls[i]
      case Ok(v) => Returned(v, i + 1)
      case Fail(f) => if Decide(f, i, retries) == Raise then Raised(f, i + 1) else Run(calls, retries, i + 1)
  }

  /** No call fails with a 429. */
  predicate NoTooMany<T>(calls: seq<Call<T>>)
  {
    forall k :: 0 <= k < |calls| ==> !(calls[k].Fail? && calls[k].failure.TooMany?)
  }

  /**
   * Without 429s the retries are capped: a run that is given more than
   * `retries` calls ends (returns or raises) within `retries + 1` calls.
   */
  lemma {:induction false} RunIsBoundedWithoutTooMany<T>(calls: seq<Call<T>>, retries: nat, i: nat)
    requires NoTooMany(calls)
    requires i <= retries < |calls|
    ensures !Run(calls, retries, i).Pending?
    ensures Run(calls, retries, i).Returned? ==> Run(calls, retries, i).calls <= retries + 1
    ensures Run(calls, retries, i).Raised? ==> Run(calls, retries, i).calls <= retries + 1
    decreases retries - i
  {
    if calls[i].Fail? && Decide(calls[i].failure, i, retries).Again? {
      assert !calls[i].failure.TooMany?;
      assert i < retries;
      RunIsBoundedWithoutTooMany(calls, retries, i + 1);
    }
  }

  /**
   * 429s are retried without a cap: after any number of them, whatever the
   * budget, the first success is returned.
   */
  lemma {:induction false} TooManyIsUncapped<T>(calls: seq<Call<T>>, retries: nat, i: nat, v: T)
    requires i < |calls| && calls[|calls| - 1] == Ok(v)
    requires forall k :: i <= k < |calls| - 1 ==> calls[k].Fail? && calls[k].failure.TooMany?
    ensures Run(calls, retries, i) == Returned(v, |calls|)
    decreases |calls| - i
  {
    if i < |calls| - 1 {
      TooManyIsUncapped(calls, retries, i + 1, v);
    }
  }

  /** A 4xx other than 429, or a failure outside Tweepy, is raised at once. */
  lemma ClientErrorRaisesAtOnce<T>(calls: seq<Call<T>>, retries: nat, i: nat)
    requires i < |calls| && calls[i].Fail?
    requires calls[i].failure.Foreign? || (calls[i].failure.Http? && !ServerError(calls[i].failure.status))
    ensures Run(calls, retries, i) == Raised(calls[i].failure, i + 1)
  {
  }
}

=== FILE: seqs.dfy ===
/** Generic sequence facts: subsequences and first-occurrence deduplication. */
module Seqs {

  /** `a` can be obtained from `b` by deleting elements. */
  predicate IsSubseq<T(==)>(a: seq<T>, b: seq<T>)
    decreases |b|
  {
    a == [] || (b != [] && if a[0] == b[0] then IsSubseq(a[1..], b[1..]) else IsSubseq(a, b[1..]))
  }

  lemma ConsAppend<T>(a: seq<T>, b: seq<T>)
    requires a != []
    ensures [a[0]] + (a[1..] + b) == a + b
  {
  }

  lemma SubseqRefl<T>(a: seq<T>)
    ensures IsSubseq(a, a)
  {
    if a != [] {
      SubseqRefl(a[1..]);
    }
  }

  /** Dropping the first element of a non-empty subsequence keeps it a subsequence. */
  lemma {:induction false} SubseqTail<T>(a: seq<T>, b: seq<T>)
    requires a != [] && IsSubseq(a, b)
    ensures IsSubseq(a[1..], b)
    decreases |b|, 0
  {
    if a[0] == b[0] {
      SubseqCons(a[1..], b[1..], b[0]);
    } else {
      SubseqTail(a, b[1..]);
      SubseqCons(a[1..], b[1..], b[0]);
    }
    assert [b[0]] + b[1..] == b;
  }

  /** A subsequence of `b` is a subsequence of `b` with any element put in front. */
  lemma {:induction false} SubseqCons<T>(a: seq<T>, b: seq<T>, x: T)
    requires IsSubseq(a, b)
    ensures IsSubseq(a, [x] + b)
    decreases |b|, 1
  {
    if a != [] && a[0] == x {
      SubseqTail(a, b);
    }
    assert ([x] + b)[1..] == b;
  }

  /** A subsequence of a suffix of `b` is a subsequence of `b`. */
  lemma {:induction false} SubseqDrop<T>(a: seq<T>, b: seq<T>, n: nat)
    requires n <= |b| && IsSubseq(a, b[n..])
    ensures IsSubseq(a, b)
    decreases n
  {
    if n == 0 {
      assert b[0..] == b;
    } else {
      assert b[1..][n - 1..] == b[n..];
      SubseqDrop(a, b[1..], n - 1);
      SubseqCons(a, b[1..], b[0]);
      assert [b[0]] + b[1..] == b;
    }
  }

  lemma {:induction false} SubseqMembers<T>(a: seq<T>, b: seq<T>)
    requires IsSubseq(a, b)
    ensures forall x :: x in a ==> x in b
    decreases |b|
  {
    if a != [] {
      if a[0] == b[0] {
        SubseqMembers(a[1..], b[1..]);
        assert forall x :: x in a ==> x == a[0] || x in a[1..];
      } else {
        SubseqMembers(a, b[1..]);
      }
    }
  }

  /** The set of keys of the elements of `xs`. */
  function KeysOf<T, K(==)>(xs: seq<T>, key: T -> K): set<K>
  {
    if xs == [] then {} else {key(xs[0])} + KeysOf(xs[1..], key)
  }

  lemma {:induction false} KeysOfAppend<T, K>(a: seq<T>, b: seq<T>, key: T -> K)
    ensures KeysOf(a + b, key) == KeysOf(a, key) + KeysOf(b, key)
    decreases |a|
  {
    if a == [] {
      assert a + b == b;
    } else {
      assert (a + b)[1..] == a[1..] + b;
      KeysOfAppend(a[1..], b, key);
    }
  }

  lemma {:induction false} KeysOfMember<T, K>(xs: seq<T>, key: T -> K, i: nat)
    requires i < |xs|
    ensures key(xs[i]) in KeysOf(xs, key)
    decreases i
  {
    if i > 0 {
      KeysOfMember(xs[1..], key, i - 1);
    }
  }

  /** Every element of `xs` has a different key. */
  predicate DistinctKeys<T, K(==)>(xs: seq<T>, key: T -> K)
  {
    forall i, j :: 0 <= i < j < |xs| ==> key(xs[i]) != key(xs[j])
  }

  /**
   * The loop `for x in xs: k = key(x); if k not in seen: out.append(x); seen.add(k)`
   * started with the keys `seen` already taken.
   */
  function DedupFrom<T, K(==)>(xs: seq<T>, key: T -> K, seen: set<K>): seq<T>
  {
    if xs == [] then []
    else if key(xs[0]) in seen then DedupFrom(xs[1..], key, seen)
    else [xs[0]] + DedupFrom(xs[1..], key, seen + {key(xs[0])})
  }

  /** Order-preserving deduplication keeping the first element of every key. */
  function DedupBy<T, K(==)>(xs: seq<T>, key: T -> K): seq<T>
  {
    DedupFrom(xs, key, {})
  }

  /**
   * The independent description of deduplication: walking from the end, the
   * last element survives exactly when no earlier element has its key.
   */
  function FirstOfEachKey<T, K(==)>(xs: seq<T>, key: T -> K): seq<T>
  {
    if xs == [] then []
    else
      var init := xs[..|xs| - 1];
      FirstOfEachKey(init, key) + (if key(xs[|xs| - 1]) in KeysOf(init, key) then [] else [xs[|xs| - 1]])
  }

  lemma {:induction false} DedupFromAppend<T, K>(a: seq<T>, b: seq<T>, key: T -> K, seen: set<K>)
    ensures DedupFrom(a + b, key, seen) == DedupFrom(a, key, seen) + DedupFrom(b, key, seen + KeysOf(a, key))
    decreases |a|
  {
    if a == [] {
      assert a + b == b;
      assert seen + KeysOf(a, key) == seen;
    } else {
      assert (a + b)[1..] == a[1..] + b;
      var k := key(a[0]);
      if k in seen {
        DedupFromAppend(a[1..], b, key, seen);
        assert seen + KeysOf(a, key) == seen + KeysOf(a[1..], key);
      } else {
        DedupFromAppend(a[1..], b, key, seen + {k});
        assert seen + {k} + KeysOf(a[1..], key) == seen + KeysOf(a, key);
      }
    }
  }

  /** The forward loop and the backward description agree. */
  lemma {:induction false} DedupIsFirstOfEachKey<T, K>(xs: seq<T>, key: T -> K)
    ensures DedupBy(xs, key) == FirstOfEachKey(xs, key)
    decreases |xs|
  {
    if xs != [] {
      var init, x := xs[..|xs| - 1], xs[|xs| - 1];
      assert xs == init + [x];
      DedupFromAppend(init, [x], key, {});
      DedupIsFirstOfEachKey(init, key);
      assert {} + KeysOf(init, key) == KeysOf(init, key);
    }
  }

  /** What the loop keeps: a subsequence with distinct keys, none already seen, covering every key. */
  lemma {:induction false} DedupFromProperties<T, K>(xs: seq<T>, key: T -> K, seen: set<K>)
    ensures IsSubseq(DedupFrom(xs, key, seen), xs)
    ensures DistinctKeys(DedupFrom(xs, key, seen), key)
    ensures KeysOf(DedupFrom(xs, key, seen), key) == KeysOf(xs, key) - seen
    decreases |xs|
  {
    if xs != [] {
      var k := key(xs[0]);
      var rest := DedupFrom(xs[1..], key, if k in seen then seen else seen + {k});
      DedupFromProperties(xs[1..], key, if k in seen then seen else seen + {k});
      if k !in seen {
        var r := [xs[0]] + rest;
        assert r[1..] == rest;
        forall i, j | 0 <= i < j < |r|
          ensures key(r[i]) != key(r[j])
        {
          if i == 0 {
            KeysOfMember(rest, key, j - 1);
          }
        }
      }
    }
  }

  /** A sequence whose keys are already distinct is left as it is. */
  lemma {:induction false} DedupFromDistinct<T, K>(xs: seq<T>, key: T -> K, seen: set<K>)
    requires DistinctKeys(xs, key)
    requires KeysOf(xs, key) !! seen
    ensures DedupFrom(xs, key, seen) == xs
    decreases |xs|
  {
    if xs != [] {
      var k := key(xs[0]);
      assert k in KeysOf(xs, key);
      forall y | y in KeysOf(xs[1..], key)
        ensures y != k && y !in seen
      {
        KeysOfIndex(xs[1..], key, y);
      }
      DedupFromDistinct(xs[1..], key, seen + {k});
    }
  }

  lemma {:induction false} KeysOfIndex<T, K>(xs: seq<T>, key: T -> K, y: K)
    requires y in KeysOf(xs, key)
    ensures exists i :: 0 <= i < |xs| && key(xs[i]) == y
    decreases |xs|
  {
    if key(xs[0]) != y {
      KeysOfIndex(xs[1..], key, y);
      var i :| 0 <= i < |xs[1..]| && key(xs[1..][i]) == y;
      assert key(xs[i + 1]) == y;
    }
  }

  /** Deduplicating twice is the same as deduplicating once. */
  lemma DedupIdempotent<T, K>(xs: seq<T>, key: T -> K)
    ensures DedupBy(DedupBy(xs, key), key) == DedupBy(xs, key)
  {
    DedupFromProperties(xs, key, {});
    DedupFromDistinct(DedupBy(xs, key), key, {});
  }

  /** The first `n` elements (Python `xs[:n]`). */
  function Take<T>(xs: seq<T>, n: nat): (r: seq<T>)
    ensures |r| == if n < |xs| then n else |xs|
    ensures r == xs[..|r|]
  {
    if n < |xs| then xs[..n] else xs
  }

  /** Concatenation of a sequence of sequences. */
  function Flatten<T>(xss: seq<seq<T>>): seq<T>
  {
    if xss == [] then [] else xss[0] + Flatten(xss[1..])
  }

  lemma {:induction false} FlattenAppend<T>(a: seq<seq<T>>, b: seq<seq<T>>)
    ensures Flatten(a + b) == Flatten(a) + Flatten(b)
    decreases |a|
  {
    if a == [] {
      assert a + b == b;
    } else {
      assert (a + b)[1..] == a[1..] + b;
      FlattenAppend(a[1..], b);
    }
  }

  /** `xs` reversed (Python `list(reversed(xs))`). */
  function Reverse<T>(xs: seq<T>): (r: seq<T>)
    ensures |r| == |xs|
    ensures forall i :: 0 <= i < |xs| ==> r[i] == xs[|xs| - 1 - i]
  {
    if xs == [] then [] else Reverse(xs[1..]) + [xs[0]]
  }

  /** Largest element of a non-empty sequence (Python `max`). */
  function Max(xs: seq<int>): (m: int)
    requires xs != []
    ensures m in xs
    ensures forall i :: 0 <= i < |xs| ==> xs[i] <= m
  {
    if |xs| == 1 then xs[0]
    else
      var rest := Max(xs[1..]);
      assert forall i :: 1 <= i < |xs| ==> xs[i] == xs[1..][i - 1];
      if xs[0] >= rest then xs[0] else rest
  }

  /** The elements of `xs` that satisfy `p`, in order (a list comprehension with a condition). */
  function Filter<T>(xs: seq<T>, p: T -> bool): (r: seq<T>)
    ensures |r| <= |xs|
    ensures forall k :: 0 <= k < |r| ==> p(r[k])
  {
    if xs == [] then []
    else if p(xs[0]) then [xs[0]] + Filter(xs[1..], p)
    else Filter(xs[1..], p)
  }

  /** Filtering keeps every copy of a satisfying element and drops every other. */
  lemma {:induction false} FilterCounts<T>(xs: seq<T>, p: T -> bool, x: T)
    ensures multiset(Filter(xs, p))[x] == if p(x) then multiset(xs)[x] else 0
    decreases |xs|
  {
    if xs != [] {
      FilterCounts(xs[1..], p, x);
      assert xs == [xs[0]] + xs[1..];
      assert multiset(xs) == multiset{xs[0]} + multiset(xs[1..]);
      if p(xs[0]) {
        assert multiset(Filter(xs, p)) == multiset{xs[0]} + multiset(Filter(xs[1..], p));
      }
    }
  }

  lemma FilterMember<T>(xs: seq<T>, p: T -> bool, x: T)
    ensures x in Filter(xs, p) <==> x in xs && p(x)
  {
    FilterCounts(xs, p, x);
    assert x in Filter(xs, p) <==> x in multiset(Filter(xs, p));
    assert x in xs <==> x in multiset(xs);
  }

  /** Filtering a subsequence gives a subsequence of the filtered whole. */
  lemma {:induction false} FilterSubseq<T>(xs: seq<T>, p: T -> bool)
    ensures IsSubseq(Filter(xs, p), xs)
    decreases |xs|
  {
    if xs != [] {
      FilterSubseq(xs[1..], p);
      if !p(xs[0]) {
        var r := Filter(xs[1..], p);
        if r != [] {
          assert p(r[0]) && !p(xs[0]);
        }
      }
    }
  }

  lemma {:induction false} FilterNone<T>(xs: seq<T>, p: T -> bool)
    requires forall k :: 0 <= k < |xs| ==> !p(xs[k])
    ensures Filter(xs, p) == []
    decreases |xs|
  {
    if xs != [] {
      assert forall k :: 0 <= k < |xs[1..]| ==> xs[1..][k] == xs[k + 1];
      FilterNone(xs[1..], p);
    }
  }

  lemma {:induction false} FilterAppend<T>(a: seq<T>, b: seq<T>, p: T -> bool)
    ensures Filter(a + b, p) == Filter(a, p) + Filter(b, p)
    decreases |a|
  {
    if a == [] {
      assert a + b == b;
    } else {
      assert (a + b)[0] == a[0] && (a + b)[1..] == a[1..] + b;
      FilterAppend(a[1..], b, p);
    }
  }

  /** Two tests that agree on every element select the same elements. */
  lemma {:induction false} FilterAgree<T>(xs: seq<T>, p: T -> bool, q: T -> bool)
    requires forall k :: 0 <= k < |xs| ==> p(xs[k]) == q(xs[k])
    ensures Filter(xs, p) == Filter(xs, q)
    decreases |xs|
  {
    if xs != [] {
      assert forall k :: 0 <= k < |xs[1..]| ==> xs[1..][k] == xs[k + 1];
      FilterAgree(xs[1..], p, q);
    }
  }

  /** The `parts` occur in `t` as non-overlapping slices, left to right. */
  predicate SlicesOf<T(==)>(parts: seq<seq<T>>, t: seq<T>)
    decreases |t|, |parts|
  {
    parts == []
    || (|parts[0]| <= |t| && t[..|parts[0]|] == parts[0] && SlicesOf(parts[1..], t[|parts[0]|..]))
    || (t != [] && SlicesOf(parts, t[1..]))
  }

  /** Slices of a suffix of `t` are slices of `t`. */
  lemma {:induction false} SlicesOfDrop<T>(parts: seq<seq<T>>, t: seq<T>, n: nat)
    requires n <= |t| && SlicesOf(parts, t[n..])
    ensures SlicesOf(parts, t)
    decreases n
  {
    if n > 0 {
      assert t[1..][n - 1..] == t[n..];
      SlicesOfDrop(parts, t[1..], n - 1);
    }
  }

  /** `t[i..j]` followed by slices of `t[j..]`. */
  lemma SlicesOfCons<T>(part: seq<T>, parts: seq<seq<T>>, t: seq<T>, i: nat, j: nat)
    requires i <= j <= |t| && t[i..j] == part && SlicesOf(parts, t[j..])
    ensures SlicesOf([part] + parts, t)
  {
    var u := t[i..];
    assert u[..|part|] == part && u[|part|..] == t[j..];
    assert ([part] + parts)[1..] == parts;
    assert SlicesOf([part] + parts, u);
    SlicesOfDrop([part] + parts, t, i);
  }

  /** A prefix of slices in order is still slices in order. */
  lemma {:induction false} SlicesOfTake<T>(parts: seq<seq<T>>, t: seq<T>, n: nat)
    requires SlicesOf(parts, t)
    ensures SlicesOf(Take(parts, n), t)
    decreases |t|, |parts|
  {
    var r := Take(parts, n);
    if r != [] {
      if |parts[0]| <= |t| && t[..|parts[0]|] == parts[0] && SlicesOf(parts[1..], t[|parts[0]|..]) {
        SlicesOfTake(parts[1..], t[|parts[0]|..], n - 1);
        assert r[0] == parts[0] && r[1..] == Take(parts[1..], n - 1);
      } else {
        SlicesOfTake(parts, t[1..], n);
      }
    }
  }
}

=== FILE: template.dfy ===
/**
 * Replacement templates of Python's `re.sub` (the rules of `re._parser.parse_template`
 * in Python 3.12). A string replacement is compiled before any matching: a
 * backslash starts an escape, `\g<0>` stands for the whole match, octal escapes
 * and the escapes of `\a \b \f \n \r \t \v \\` stand for one character, other
 * backslash-ASCII-letter pairs, group references the pattern does not have and
 * a trailing lone backslash raise `re.error`, and any other backslash pair is
 * kept as it is. The restorers' patterns have no groups, so `\g<0>` is the only
 * group reference that compiles.
 */
module Template {
  import opened Wrappers
  import opened Text

  /** One piece of a compiled replacement: a literal character, or the whole match. */
  datatype Piece = Lit(c: char) | Whole

  predicate IsAsciiLetter(c: char)
  {
    'a' <= c <= 'z' || 'A' <= c <= 'Z'
  }

  predicate IsOctal(c: char)
  {
    '0' <= c <= '7'
  }

  /** The one-character escapes of the template language. */
  function EscapeOf(c: char): Option<char>
  {
    if c == 'a' then Some('\U{7}')
    else if c == 'b' then Some('\U{8}')
    else if c == 'f' then Some('\U{C}')
    else if c == 'n' then Some('\n')
    else if c == 'r' then Some('\r')
    else if c == 't' then Some('\t')
    else if c == 'v' then Some('\U{B}')
    else if c == '\\' then Some('\\')
    else None
  }

  function OctalValue(c: char): nat
    requires IsOctal(c)
  {
    c as int - '0' as int
  }

  /** How many octal digits, at most two, open `s`. */
  function OctalRun(s: string): (n: nat)
    ensures n <= 2 && n <= |s|
    ensures forall i :: 0 <= i < n ==> IsOctal(s[i])
  {
    if s != [] && IsOctal(s[0]) then
      if |s| > 1 && IsOctal(s[1]) then 2 else 1
    else 0
  }

  /** Length of the run of `0` characters that opens `s`. */
  function ZeroRun(s: string): (n: nat)
    ensures n <= |s| && forall i :: 0 <= i < n ==> s[i] == '0'
    ensures n < |s| ==> s[n] != '0'
  {
    if s == [] || s[0] != '0' then 0 else 1 + ZeroRun(s[1..])
  }

  function Prepend(p: Piece, r: Option<seq<Piece>>): (q: Option<seq<Piece>>)
    ensures q.Some? <==> r.Some?
    ensures r.Some? ==> q.value == [p] + r.value
  {
    match r
    case None => None
    case Some(ps) => Some([p] + ps)
  }

  /**
   * The compiled template, or `None` when compiling it raises. `\g<...>` needs
   * a name of ASCII digits naming group 0; `\0` takes up to two more octal
   * digits; `\1`..`\9` compile only as a three-digit octal escape of at most
   * 0o377, and otherwise name a group the pattern does not have.
   */
  function Expand(tpl: string): (r: Option<seq<Piece>>)
    decreases |tpl|
  {
    if tpl == [] then Some([])
    else if tpl[0] != '\\' then Prepend(Lit(tpl[0]), Expand(tpl[1..]))
    else if |tpl| == 1 then None
    else
      var c := tpl[1];
      if c == 'g' then
        if |tpl| >= 3 && tpl[2] == '<' then
          var z := ZeroRun(tpl[3..]);
          if z >= 1 && 3 + z < |tpl| && tpl[3 + z] == '>' then Prepend(Whole, Expand(tpl[4 + z..])) else None
        else None
      else if c == '0' then
        var n := OctalRun(tpl[2..]);
        var v := if n == 0 then 0 else if n == 1 then OctalValue(tpl[2]) else OctalValue(tpl[2]) * 8 + OctalValue(tpl[3]);
        Prepend(Lit(v as char), Expand(tpl[2 + n..]))
      else if '1' <= c <= '9' then
        if |tpl| >= 4 && '1' <= c <= '3' && IsOctal(tpl[2]) && IsOctal(tpl[3]) then
          var v := OctalValue(c) * 64 + OctalValue(tpl[2]) * 8 + OctalValue(tpl[3]);
          Prepend(Lit(v as char), Expand(tpl[4..]))
        else None
      else if EscapeOf(c).Some? then Prepend(Lit(EscapeOf(c).value), Expand(tpl[2..]))
      else if IsAsciiLetter(c) then None
      else Prepend(Lit('\\'), Prepend(Lit(c), Expand(tpl[2..])))
  }

  /** The text a compiled template writes for a match `m`. */
  function Instantiate(ps: seq<Piece>, m: string): string
  {
    if ps == [] then []
    else (match ps[0] case Lit(c) => [c] case Whole => m) + Instantiate(ps[1..], m)
  }

  /** The characters of a string as literal pieces. */
  function Literal(s: string): (ps: seq<Piece>)
    ensures |ps| == |s|
    ensures forall i :: 0 <= i < |s| ==> ps[i] == Lit(s[i])
  {
    if s == [] then [] else [Lit(s[0])] + Literal(s[1..])
  }

  /** `pattern.sub(template, s)` for a literal pattern matched case-insensitively. */
  function Sub(s: string, pat: string, ps: seq<Piece>): string
    requires |pat| > 0
    decreases |s|
  {
    if s == [] then []
    else if CIPrefix(pat, s) then Instantiate(ps, s[..|pat|]) + Sub(s[|pat|..], pat, ps)
    else [s[0]] + Sub(s[1..], pat, ps)
  }

  /** A template without a backslash compiles to its own characters. */
  lemma {:induction false} ExpandPlain(tpl: string)
    requires '\\' !in tpl
    ensures Expand(tpl) == Some(Literal(tpl))
    decreases |tpl|
  {
    if tpl != [] {
      assert tpl[0] != '\\';
      assert forall i :: 0 <= i < |tpl[1..]| ==> tpl[1..][i] == tpl[i + 1];
      ExpandPlain(tpl[1..]);
      assert Literal(tpl) == [Lit(tpl[0])] + Literal(tpl[1..]);
    }
  }

  lemma {:induction false} InstantiateLiteral(s: string, m: string)
    ensures Instantiate(Literal(s), m) == s
    decreases |s|
  {
    if s != [] {
      InstantiateLiteral(s[1..], m);
      assert Literal(s)[1..] == Literal(s[1..]);
    }
  }

  /** With a literal template, `Sub` is plain replacement of every match by the template text. */
  lemma {:induction false} SubLiteral(s: string, pat: string, rep: string)
    requires |pat| > 0
    ensures Sub(s, pat, Literal(rep)) == ReplaceAll(s, pat, rep)
    decreases |s|
  {
    InstantiateLiteral(rep, []);
    if s != [] {
      if CIPrefix(pat, s) {
        InstantiateLiteral(rep, s[..|pat|]);
        SubLiteral(s[|pat|..], pat, rep);
      } else {
        SubLiteral(s[1..], pat, rep);
      }
    }
  }

  /** Replacing every case-insensitive match of `pat` by the text `rep`. */
  function ReplaceAll(s: string, pat: string, rep: string): string
    requires |pat| > 0
    decreases |s|
  {
    if s == [] then []
    else if CIPrefix(pat, s) then rep + ReplaceAll(s[|pat|..], pat, rep)
    else [s[0]] + ReplaceAll(s[1..], pat, rep)
  }

  lemma LiteralAppend(a: string, b: string)
    ensures Literal(a + b) == Literal(a) + Literal(b)
  {
    assert forall i :: 0 <= i < |a + b| ==> Literal(a + b)[i] == (Literal(a) + Literal(b))[i];
  }

  /** A doubled backslash `\\` compiles to one backslash. */
  lemma ExpandDoubleBackslash(pre: string, post: string)
    requires '\\' !in pre && '\\' !in post
    ensures Expand(pre + "\\\\" + post) == Some(Literal(pre + "\\" + post))
  {
    var t := "\\\\" + post;
    assert pre + "\\\\" + post == pre + t;
    ExpandPlainPrefix(pre, t);
    assert t[0] == '\\' && t[1] == '\\' && t[2..] == post;
    ExpandPlain(post);
    assert Expand(t) == Some([Lit('\\')] + Literal(post));
    LiteralAppend(pre, "\\" + post);
    LiteralAppend("\\", post);
    assert Literal("\\") == [Lit('\\')];
    assert pre + "\\" + post == pre + ("\\" + post);
    assert Literal(pre) + ([Lit('\\')] + Literal(post)) == Literal(pre + ("\\" + post));
  }

  /** A backslash before an ASCII letter outside the escape table makes compiling raise. */
  lemma ExpandBadEscape(pre: string, c: char, post: string)
    requires '\\' !in pre && IsAsciiLetter(c) && c != 'g' && EscapeOf(c).None?
    ensures Expand(pre + ['\\', c] + post) == None
  {
    ExpandPlainPrefix(pre, ['\\', c] + post);
    var t := ['\\', c] + post;
    assert pre + ['\\', c] + post == pre + t;
    assert t[0] == '\\' && t[1] == c;
  }

  /** Characters before the first backslash are copied as literals. */
  lemma {:induction false} ExpandPlainPrefix(pre: string, rest: string)
    requires '\\' !in pre
    ensures Expand(pre + rest) == (match Expand(rest) case None => None case Some(ps) => Some(Literal(pre) + ps))
    decreases |pre|
  {
    if pre == [] {
      assert pre + rest == rest;
      match Expand(rest) {
        case None =>
        case Some(ps) => assert Literal(pre) + ps == ps;
      }
    } else {
      assert (pre + rest)[0] == pre[0] != '\\';
      assert (pre + rest)[1..] == pre[1..] + rest;
      assert '\\' !in pre[1..];
      ExpandPlainPrefix(pre[1..], rest);
      match Expand(rest) {
        case None =>
        case Some(ps) => assert Literal(pre) + ps == [Lit(pre[0])] + (Literal(pre[1..]) + ps);
      }
    }
  }
}

=== FILE: text.dfy ===
/**
 * String primitives with Python semantics: `str.isspace`/`\s`, `str.strip()`,
 * case-insensitive comparison against an ASCII pattern (`re.IGNORECASE`) and
 * decimal rendering of a natural number (`str(n)`).
 */
module Text {

  /** Python's `str.isspace()`, which is also what `\s` matches in a Unicode pattern. */
  predicate IsSpace(c: char)
  {
    c == ' ' || ('\t' <= c <= '\r') || ('\U{1C}' <= c <= '\U{1F}') || c == '\U{85}'
    || c == '\U{A0}' || c == '\U{1680}' || ('\U{2000}' <= c <= '\U{200A}')
    || c == '\U{2028}' || c == '\U{2029}' || c == '\U{202F}' || c == '\U{205F}'
    || c == '\U{3000}'
  }

  predicate AllSpace(s: string)
  {
    forall i :: 0 <= i < |s| ==> IsSpace(s[i])
  }

  /** `s.lstrip()` */
  function TrimLeft(s: string): (r: string)
    ensures |r| <= |s| && r == s[|s| - |r|..]
    ensures AllSpace(s[..|s| - |r|])
    ensures r == [] || !IsSpace(r[0])
    decreases |s|
  {
    if s == [] || !IsSpace(s[0]) then s
    else
      var r := TrimLeft(s[1..]);
      assert s[..|s| - |r|] == [s[0]] + s[1..][..|s| - 1 - |r|];
      r
  }

  /** `s.rstrip()` */
  function TrimRight(s: string): (r: string)
    ensures |r| <= |s| && r == s[..|r|]
    ensures AllSpace(s[|r|..])
    ensures r == [] || !IsSpace(r[|r| - 1])
    decreases |s|
  {
    if s == [] || !IsSpace(s[|s| - 1]) then s
    else
      var r := TrimRight(s[..|s| - 1]);
      assert s[|r|..] == s[..|s| - 1][|r|..] + [s[|s| - 1]];
      r
  }

  /** `s.strip()`: the result is a slice of `s` that only loses whitespace at both ends. */
  function Strip(s: string): (r: string)
    ensures exists i, j :: 0 <= i <= j <= |s| && r == s[i..j] && AllSpace(s[..i]) && AllSpace(s[j..])
    ensures r == [] || (!IsSpace(r[0]) && !IsSpace(r[|r| - 1]))
    ensures r == [] <==> AllSpace(s)
  {
    var l := TrimLeft(s);
    var r := TrimRight(l);
    StripSlice(s, l, r);
    StripEmpty(s, l, r);
    r
  }

  lemma StripSlice(s: string, l: string, r: string)
    requires |l| <= |s| && l == s[|s| - |l|..] && AllSpace(s[..|s| - |l|])
    requires |r| <= |l| && r == l[..|r|] && AllSpace(l[|r|..])
    ensures var i := |s| - |l|;
      i + |r| <= |s| && r == s[i..i + |r|] && AllSpace(s[..i]) && AllSpace(s[i + |r|..])
  {
    var i, j := |s| - |l|, |s| - |l| + |r|;
    var tail := s[j..];
    assert tail == l[|r|..];
    forall k | 0 <= k < |tail|
      ensures IsSpace(tail[k])
    {
      assert tail[k] == l[|r|..][k];
    }
  }

  lemma StripEmpty(s: string, l: string, r: string)
    requires |l| <= |s| && l == s[|s| - |l|..] && AllSpace(s[..|s| - |l|]) && (l == [] || !IsSpace(l[0]))
    requires |r| <= |l| && r == l[..|r|] && AllSpace(l[|r|..])
    ensures r == [] <==> AllSpace(s)
  {
    var i := |s| - |l|;
    if r == [] {
      assert l[|r|..] == l;
      assert s == s[..i] + l;
      AllSpaceAppend(s[..i], l);
    } else if AllSpace(s) {
      assert false;
    }
  }

  lemma AllSpaceAppend(a: string, b: string)
    requires AllSpace(a) && AllSpace(b)
    ensures AllSpace(a + b)
  {
    forall k | 0 <= k < |a + b|
      ensures IsSpace((a + b)[k])
    {
      if k < |a| {
        assert (a + b)[k] == a[k];
      } else {
        assert (a + b)[k] == b[k - |a|];
      }
    }
  }

  /** The characters of `s` that are not whitespace, in order. */
  function NonSpace(s: string): string
  {
    if s == [] then [] else (if IsSpace(s[0]) then [] else [s[0]]) + NonSpace(s[1..])
  }

  lemma {:induction false} NonSpaceAppend(a: string, b: string)
    ensures NonSpace(a + b) == NonSpace(a) + NonSpace(b)
    decreases |a|
  {
    if a == [] {
      assert a + b == b;
    } else {
      var h := if IsSpace(a[0]) then [] else [a[0]];
      assert (a + b)[0] == a[0];
      assert (a + b)[1..] == a[1..] + b;
      assert NonSpace(a + b) == h + NonSpace(a[1..] + b);
      NonSpaceAppend(a[1..], b);
      assert h + (NonSpace(a[1..]) + NonSpace(b)) == (h + NonSpace(a[1..])) + NonSpace(b);
    }
  }

  lemma NonSpaceOfSpaces(s: string)
    requires AllSpace(s)
    ensures NonSpace(s) == []
  {
    if s != [] {
      NonSpaceOfSpaces(s[1..]);
    }
  }

  /** Dropping whitespace from both ends keeps the non-space characters. */
  lemma NonSpaceMiddle(p: string, i: nat, j: nat)
    requires i <= j <= |p| && AllSpace(p[..i]) && AllSpace(p[j..])
    ensures NonSpace(p[i..j]) == NonSpace(p)
  {
    assert p == p[..i] + p[i..j] + p[j..];
    NonSpaceAppend(p[..i] + p[i..j], p[j..]);
    NonSpaceAppend(p[..i], p[i..j]);
    NonSpaceOfSpaces(p[..i]);
    NonSpaceOfSpaces(p[j..]);
  }

  lemma StripBounds(s: string) returns (i: nat, j: nat)
    ensures i <= j <= |s| && Strip(s) == s[i..j] && AllSpace(s[..i]) && AllSpace(s[j..])
  {
    i, j :| 0 <= i <= j <= |s| && Strip(s) == s[i..j] && AllSpace(s[..i]) && AllSpace(s[j..]);
  }

  /** Stripping only ever removes whitespace. */
  lemma NonSpaceStrip(s: string)
    ensures NonSpace(Strip(s)) == NonSpace(s)
  {
    var i, j := StripBounds(s);
    NonSpaceMiddle(s, i, j);
  }

  /** How many times `c` occurs in `s`. */
  function CountChar(s: string, c: char): nat
  {
    if s == [] then 0 else (if s[0] == c then 1 else 0) + CountChar(s[1..], c)
  }

  lemma {:induction false} CountCharAppend(a: string, b: string, c: char)
    ensures CountChar(a + b, c) == CountChar(a, c) + CountChar(b, c)
    decreases |a|
  {
    if a == [] {
      assert a + b == b;
    } else {
      assert (a + b)[1..] == a[1..] + b;
      CountCharAppend(a[1..], b, c);
    }
  }

  /** A non-space character is counted the same before and after dropping whitespace. */
  lemma {:induction false} CountCharNonSpace(s: string, c: char)
    requires !IsSpace(c)
    ensures CountChar(NonSpace(s), c) == CountChar(s, c)
    decreases |s|
  {
    if s != [] {
      CountCharNonSpace(s[1..], c);
      CountCharAppend(if IsSpace(s[0]) then [] else [s[0]], NonSpace(s[1..]), c);
    }
  }

  /**
   * The character a case-insensitive Python regex compares with an ASCII
   * lower-case pattern character: ASCII capitals fold to lower case, and the
   * four non-ASCII letters that `re.IGNORECASE` equates with ASCII letters
   * (U+0130, U+0131 with `i`; U+017F with `s`; U+212A with `k`) fold to them.
   */
  function Fold(c: char): (r: char)
    ensures ('A' <= c <= 'Z') ==> 'a' <= r <= 'z'
    ensures r == '[' <==> c == '['
    ensures r == ']' <==> c == ']'
    ensures r == ' ' <==> c == ' '
  {
    if 'A' <= c <= 'Z' then (c as int + 32) as char
    else if c == '\U{130}' || c == '\U{131}' then 'i'
    else if c == '\U{17F}' then 's'
    else if c == '\U{212A}' then 'k'
    else c
  }

  /** `s` starts with a case-insensitive match of the lower-case ASCII pattern `pat`. */
  predicate CIPrefix(pat: string, s: string)
  {
    |pat| <= |s| && forall i :: 0 <= i < |pat| ==> Fold(s[i]) == pat[i]
  }

  /** No case-insensitive occurrence of `pat` anywhere in `s`. */
  predicate NoOccurrence(pat: string, s: string)
  {
    forall i :: 0 <= i <= |s| ==> !CIPrefix(pat, s[i..])
  }

  lemma NoOccurrenceTail(pat: string, s: string)
    requires NoOccurrence(pat, s) && s != []
    ensures NoOccurrence(pat, s[1..]) && !CIPrefix(pat, s)
  {
    assert s[0..] == s;
    forall i | 0 <= i <= |s| - 1
      ensures !CIPrefix(pat, s[1..][i..])
    {
      assert s[1..][i..] == s[i + 1..];
    }
  }

  /** A longer pattern cannot occur where its prefix does not. */
  lemma CIPrefixOfPrefix(pat: string, more: string, s: string)
    requires CIPrefix(pat + more, s)
    ensures CIPrefix(pat, s)
  {
    assert forall i :: 0 <= i < |pat| ==> (pat + more)[i] == pat[i];
  }

  predicate IsDigit(c: char)
  {
    '0' <= c <= '9'
  }

  function DigitChar(d: nat): (c: char)
    requires d < 10
    ensures IsDigit(c)
  {
    ('0' as int + d) as char
  }

  /** `str(n)`: the decimal rendering of `n`, without leading zeros. */
  function Digits(n: nat): (r: string)
    ensures |r| >= 1
    ensures forall i :: 0 <= i < |r| ==> IsDigit(r[i])
    ensures n < 10 <==> |r| == 1
  {
    if n < 10 then [DigitChar(n)] else Digits(n / 10) + [DigitChar(n % 10)]
  }

  /** Different numbers render differently, so tags `[X_i]` and `[X_j]` differ for `i != j`. */
  lemma {:induction false} DigitsInjective(a: nat, b: nat)
    requires Digits(a) == Digits(b)
    ensures a == b
    decreases a
  {
    if a >= 10 && b >= 10 {
      var da, db := Digits(a), Digits(b);
      assert da[|da| - 1] == DigitChar(a % 10) && db[|db| - 1] == DigitChar(b % 10);
      assert Digits(a / 10) == da[..|da| - 1] == db[..|db| - 1] == Digits(b / 10);
      DigitsInjective(a / 10, b / 10);
    } else if a < 10 && b < 10 {
      assert Digits(a)[0] == DigitChar(a) && Digits(b)[0] == DigitChar(b);
    }
  }

  predicate StartsWith(s: string, prefix: string)
  {
    |prefix| <= |s| && s[..|prefix|] == prefix
  }

  predicate EndsWith(s: string, suffix: string)
  {
    |suffix| <= |s| && s[|s| - |suffix|..] == suffix
  }

  /** `needle in s` for strings. */
  predicate Contains(s: string, needle: string)
    decreases |s|
  {
    StartsWith(s, needle) || (s != [] && Contains(s[1..], needle))
  }

  /** ASCII `str.lower()`; non-ASCII characters are left as they are. */
  function Lower(s: string): (r: string)
    ensures |r| == |s|
  {
    seq(|s|, i requires 0 <= i < |s| => if 'A' <= s[i] <= 'Z' then (s[i] as int + 32) as char else s[i])
  }
}

=== FILE: timeline.dfy ===
/**
 * Reading a user's timeline: the full-text acceptance rule of
 * `get_full_tweet_text` (auto_x_to_telegram_v2.py:630-669) and the page
 * replay of `iterate_user_tweets` (auto_x_to_telegram_v2.py:531-569).
 */
module Timeline {
  import opened Wrappers
  import Seqs

  /** Texts at least this long are re-read by the crawler (auto_x_to_telegram_v2.py:52). */
  const TextLengthThreshold := 250

  /**
   * The text posted for a tweet: the API text, unless it is long and the
   * crawler found a strictly longer one. `crawled` is `None` when the crawler
   * raised or found nothing.
   */
  function FullText(api: string, crawled: Option<string>): (r: string)
    ensures |api| < TextLengthThreshold ==> r == api
    ensures r == api || (|api| >= TextLengthThreshold && crawled == Some(r) && |r| > |api|)
    ensures |api| >= TextLengthThreshold && crawled.Some? && |crawled.value| > |api| ==> r == crawled.value
  {
    if |api| >= TextLengthThreshold then
      match crawled
      case Some(c) => if c != [] && |c| > |api| then c else api
      case None => api
    else api
  }

  /** The chosen text is never shorter than the API text, and choosing again changes nothing. */
  lemma FullTextNeverShorter(api: string, crawled: Option<string>)
    ensures |FullText(api, crawled)| >= |api|
    ensures FullText(FullText(api, crawled), crawled) == FullText(api, crawled)
  {
  }

  /** A tweet as the cursor logic sees it: its id and whether it quotes another tweet. */
  datatype Tweet = Tweet(id: nat, quotes: bool)

  /** The reply to one timeline request: a page (newest tweet first) and the next-page token, or a raised error. */
  datatype Reply = Page(data: seq<Tweet>, nextToken: Option<string>) | Failed

  /** What the generator produces: pages in the order they are replayed, an error, or still paging when the replies run out. */
  datatype Fetch = Pages(pages: seq<seq<Tweet>>) | Raised | Unfinished

  /** Is there a next page? The source stops on a missing or empty token. */
  predicate HasNext(token: Option<string>)
  {
    token.Some? && token.value != ""
  }

  /**
   * The paging loop from request `i` on: it collects every non-empty page,
   * each reversed to oldest-first, in fetch order, and stops at an empty page
   * or a page without a next token. An error raises before anything is
   * yielded, since the yields come after the loop.
   */
  function Collect(replies: seq<Reply>, i: nat): (f: Fetch)
    requires i <= |replies|
    ensures f.Pages? ==> forall k :: 0 <= k < |f.pages| ==> f.pages[k] != []
    decreases |replies| - i
  {
    if i == |replies| then Unfinished
    else match replies[i]
      case Failed => Raised
      case Page(data, token) =>
        if data == [] then Pages([])
        else if !HasNext(token) then Pages([Seqs.Reverse(data)])
        else match Collect(replies, i + 1)
          case Pages(rest) => Pages([Seqs.Reverse(data)] + rest)
          case Raised => Raised
          case Unfinished => Unfinished
  }

  /** The tweets `iterate_user_tweets` yields, as written: the reversed pages concatenated in fetch order. */
  function ReplayAsWritten(replies: seq<Reply>): Option<seq<Tweet>>
  {
    match Collect(replies, 0)
    case Pages(pages) => Some(Seqs.Flatten(pages))
    case _ => None
  }

  /** The same replay with the page order reversed too, so the oldest page comes first. */
  function Replay(replies: seq<Reply>): Option<seq<Tweet>>
  {
    match Collect(replies, 0)
    case Pages(pages) => Some(Seqs.Flatten(Seqs.Reverse(pages)))
    case _ => None
  }

  /** Ids strictly decreasing along `ts`: the order in which the API serves a timeline, page after page. */
  predicate NewestFirst(ts: seq<Tweet>)
  {
    forall i, j :: 0 <= i < j < |ts| ==> ts[i].id > ts[j].id
  }

  predicate OldestFirst(ts: seq<Tweet>)
  {
    forall i, j :: 0 <= i < j < |ts| ==> ts[i].id < ts[j].id
  }

  /** The pages the API served for a run of replies, before any reversal. */
  function Served(replies: seq<Reply>, i: nat): (pages: seq<seq<Tweet>>)
    requires i <= |replies|
    decreases |replies| - i
  {
    if i == |replies| then []
    else match replies[i]
      case Failed => []
      case Page(data, token) =>
        if data == [] then []
        else if !HasNext(token) then [data]
        else [data] + Served(replies, i + 1)
  }

  function ReverseEach(pages: seq<seq<Tweet>>): (r: seq<seq<Tweet>>)
    ensures |r| == |pages|
    ensures forall k :: 0 <= k < |pages| ==> r[k] == Seqs.Reverse(pages[k])
  {
    if pages == [] then [] else [Seqs.Reverse(pages[0])] + ReverseEach(pages[1..])
  }

  /** The collected pages are the served pages, each reversed. */
  lemma {:induction false} CollectReversesServed(replies: seq<Reply>, i: nat)
    requires i <= |replies|
    requires Collect(replies, i).Pages?
    ensures Collect(replies, i).pages == ReverseEach(Served(replies, i))
    decreases |replies| - i
  {
    if i < |replies| && replies[i].Page? && replies[i].data != [] && HasNext(replies[i].nextToken) {
      CollectReversesServed(replies, i + 1);
      var data := replies[i].data;
      assert ReverseEach([data] + Served(replies, i + 1))[1..] == ReverseEach(Served(replies, i + 1));
    }
  }

  /** Every tweet served is yielded, and nothing else: the replay is a rearrangement of the pages. */
  lemma {:induction false} FlattenReverseEach(pages: seq<seq<Tweet>>)
    ensures multiset(Seqs.Flatten(ReverseEach(pages))) == multiset(Seqs.Flatten(pages))
    decreases |pages|
  {
    if pages != [] {
      FlattenReverseEach(pages[1..]);
      assert ReverseEach(pages)[1..] == ReverseEach(pages[1..]);
      ReverseMultiset(pages[0]);
    }
  }

  lemma {:induction false} ReverseMultiset(xs: seq<Tweet>)
    ensures multiset(Seqs.Reverse(xs)) == multiset(xs)
    decreases |xs|
  {
    if xs != [] {
      ReverseMultiset(xs[1..]);
      assert xs == [xs[0]] + xs[1..];
    }
  }

  /** Reversing each page and then the page order reverses the whole stream. */
  lemma {:induction false} FlattenReverseReverse(pages: seq<seq<Tweet>>)
    ensures Seqs.Flatten(Seqs.Reverse(ReverseEach(pages))) == Seqs.Reverse(Seqs.Flatten(pages))
    decreases |pages|
  {
    if pages != [] {
      var r := ReverseEach(pages);
      assert r[1..] == ReverseEach(pages[1..]);
      assert Seqs.Reverse(r) == Seqs.Reverse(r[1..]) + [r[0]];
      Seqs.FlattenAppend(Seqs.Reverse(r[1..]), [r[0]]);
      assert Seqs.Flatten([r[0]]) == r[0];
      FlattenReverseReverse(pages[1..]);
      ReverseAppend(pages[0], Seqs.Flatten(pages[1..]));
    }
  }

  lemma ReverseAppend(a: seq<Tweet>, b: seq<Tweet>)
    ensures Seqs.Reverse(a + b) == Seqs.Reverse(b) + Seqs.Reverse(a)
  {
    var l := Seqs.Reverse(a + b);
    var r := Seqs.Reverse(b) + Seqs.Reverse(a);
    assert |l| == |r|;
    forall k | 0 <= k < |l|
      ensures l[k] == r[k]
    {
      if k < |b| {
        assert l[k] == (a + b)[|a| + |b| - 1 - k];
      } else {
        assert l[k] == (a + b)[|a| + |b| - 1 - k];
      }
    }
  }

  lemma NewestFirstReversed(ts: seq<Tweet>)
    requires NewestFirst(ts)
    ensures OldestFirst(Seqs.Reverse(ts))
  {
    var r := Seqs.Reverse(ts);
    forall i, j | 0 <= i < j < |r|
      ensures r[i].id < r[j].id
    {
      assert r[i] == ts[|ts| - 1 - i] && r[j] == ts[|ts| - 1 - j];
    }
  }

  /**
   * When the API serves the timeline newest first across pages (as the Twitter
   * API does, the pagination token leading to older tweets), the corrected
   * replay yields every served tweet exactly once, oldest first.
   */
  lemma ReplayIsChronological(replies: seq<Reply>)
    requires Collect(replies, 0).Pages?
    requires NewestFirst(Seqs.Flatten(Served(replies, 0)))
    ensures Replay(replies).Some?
    ensures Replay(replies).value == Seqs.Reverse(Seqs.Flatten(Served(replies, 0)))
    ensures OldestFirst(Replay(replies).value)
  {
    CollectReversesServed(replies, 0);
    FlattenReverseReverse(Served(replies, 0));
    NewestFirstReversed(Seqs.Flatten(Served(replies, 0)));
  }

  /** Both replays yield the served tweets, the as-written one as a rearrangement of them. */
  lemma ReplayAsWrittenKeepsTweets(replies: seq<Reply>)
    requires Collect(replies, 0).Pages?
    ensures ReplayAsWritten(replies).Some?
    ensures multiset(ReplayAsWritten(replies).value) == multiset(Seqs.Flatten(Served(replies, 0)))
  {
    CollectReversesServed(replies, 0);
    FlattenReverseEach(Served(replies, 0));
  }

  /** Any failed request means nothing is yielded. */
  lemma {:induction false} FailureYieldsNothing(replies: seq<Reply>, i: nat)
    requires i <= |replies|
    requires exists k :: i <= k < |replies| && replies[k] == Failed && forall m :: i <= m < k ==> replies[m].Page? && replies[m].data != [] && HasNext(replies[m].nextToken)
    ensures Collect(replies, i) == Raised
    decreases |replies| - i
  {
    if replies[i] != Failed {
      var k :| i <= k < |replies| && replies[k] == Failed && forall m :: i <= m < k ==> replies[m].Page? && replies[m].data != [] && HasNext(replies[m].nextToken);
      assert k != i;
      FailureYieldsNothing(replies, i + 1);
    }
  }

  /**
   * The replay as written is not chronological across pages: two served pages
   * [3] and [1] (newest first, with a next token between them) are yielded as
   * 3 then 1, newer before older.
   */
  lemma ReplayAsWrittenIsNotChronological(replies: seq<Reply>, a: Tweet, b: Tweet)
    requires a == Tweet(3, false) && b == Tweet(1, false)
    requires replies == [Page([a], Some("t")), Page([b], None)]
    ensures NewestFirst(Seqs.Flatten(Served(replies, 0)))
    ensures ReplayAsWritten(replies) == Some([a, b])
    ensures !OldestFirst(ReplayAsWritten(replies).value)
  {
    TwoPages(replies, a, b);
    FlattenPair(a, b);
    var yielded := ReplayAsWritten(replies).value;
    assert yielded[0].id > yielded[1].id;
  }

  lemma TwoPages(replies: seq<Reply>, a: Tweet, b: Tweet)
    requires replies == [Page([a], Some("t")), Page([b], None)]
    ensures Collect(replies, 0) == Pages([[a], [b]])
    ensures Served(replies, 0) == [[a], [b]]
  {
    assert Seqs.Reverse([b]) == [b] && Seqs.Reverse([a]) == [a];
    assert HasNext(replies[0].nextToken) && !HasNext(replies[1].nextToken);
    assert Collect(replies, 1) == Pages([[b]]);
    assert Served(replies, 1) == [[b]];
  }

  lemma FlattenPair(a: Tweet, b: Tweet)
    ensures Seqs.Flatten([[a], [b]]) == [a, b]
  {
    assert [[a], [b]][1..] == [[b]];
    assert Seqs.Flatten([[b]]) == [b];
  }
}

=== FILE: translation.dfy ===
/**
 * The translation fallback chain of auto_x_to_telegram_v2.py: four engines
 * tried in a fixed order, first success wins; the GPT wrapper's blank-text
 * short cut and output stripping; the MyMemory sentence splitter and chunk
 * packer; and the masking pipeline around them.
 *
 * Every network call is an abstract `Attempt`: the engine either returns a
 * string or raises.
 */
module Translation {
  import opened Wrappers
  import opened Text
  import Seqs
  import Masking
  import MaskingProofs

  /** Longest text `translate_with_mymemory` sends in one request (auto_x_to_telegram_v2.py:399, :409). */
  const ChunkLimit := 430

  /** What one engine call did: returned a string, or raised. */
  datatype Attempt = Returned(text: string) | Raised

  /** `translate`: the result of the first attempt that did not raise, `None` if all raised. */
  function FirstSuccess(attempts: seq<Attempt>): (r: Option<string>)
    ensures r.None? <==> forall i :: 0 <= i < |attempts| ==> attempts[i].Raised?
    ensures r.Some? ==> exists i :: 0 <= i < |attempts| && attempts[i] == Returned(r.value)
  {
    if attempts == [] then None
    else if attempts[0].Returned? then Some(attempts[0].text)
    else FirstSuccess(attempts[1..])
  }

  /** The declarative reading: if attempt `i` is the first that returned, its text is the result. */
  lemma {:induction false} FirstSuccessIsFirstReturned(attempts: seq<Attempt>, i: nat)
    requires i < |attempts| && attempts[i].Returned?
    requires forall j :: 0 <= j < i ==> attempts[j].Raised?
    ensures FirstSuccess(attempts) == Some(attempts[i].text)
  {
    if i > 0 {
      FirstSuccessIsFirstReturned(attempts[1..], i - 1);
    }
  }

  /**
   * The engines, each as what it does to a given text. `gptReply` is the chat
   * API call (a reply whose content is `None` is `Returned("")`);
   * `mymemoryPart` is `translate_mymemory_part`, usage-limit check included.
   */
  datatype Engines = Engines(
    gptReply: string -> Attempt,
    mymemoryPart: string -> Attempt,
    microsoft: string -> Attempt,
    deepl: string -> Attempt)

  /** `translate_with_gpt4omini` (auto_x_to_telegram_v2.py:363-395). */
  function Gpt(text: string, reply: Attempt): (r: Attempt)
    ensures AllSpace(text) ==> r == Returned(text)
    ensures !AllSpace(text) ==> (r.Raised? <==> reply.Raised?)
    ensures !AllSpace(text) && r.Returned? ==>
      NonSpace(r.text) == NonSpace(reply.text) && (r.text == [] || (!IsSpace(r.text[0]) && !IsSpace(r.text[|r.text| - 1])))
    ensures !AllSpace(text) && r.Returned? ==>
      exists i, j :: 0 <= i <= j <= |reply.text| && r.text == reply.text[i..j]
        && AllSpace(reply.text[..i]) && AllSpace(reply.text[j..])
    ensures !AllSpace(text) && r.Returned? ==> (r.text == [] <==> AllSpace(reply.text))
  {
    if Strip(text) == [] then Returned(text)
    else
      match reply
      case Raised => Raised
      case Returned(out) => NonSpaceStrip(out); Returned(Strip(out))
  }

  // ---------------------------------------------------------------------------
  // Sentence splitting
  // ---------------------------------------------------------------------------

  predicate IsTerminator(c: char)
  {
    c == '.' || c == '!' || c == '?'
  }

  /** `split_text_into_sentences`'s loop from the pending text `cur` on. */
  function SplitFrom(text: string, cur: string): seq<string>
    decreases |text|
  {
    if text == [] then
      (if Strip(cur) == [] then [] else [Strip(cur)])
    else
      var c := cur + [text[0]];
      if IsTerminator(text[0]) then
        (if Strip(c) == [] then [] else [Strip(c)]) + SplitFrom(text[1..], [])
      else SplitFrom(text[1..], c)
  }

  /** `split_text_into_sentences` (auto_x_to_telegram_v2.py:452-472). */
  function SplitSentences(text: string): seq<string>
  {
    SplitFrom(text, [])
  }

  /** A piece as the splitter emits it: nonempty, with no whitespace at either end. */
  predicate IsStrippedPiece(s: string)
  {
    s != [] && !IsSpace(s[0]) && !IsSpace(s[|s| - 1])
  }

  lemma StripKeepsLast(s: string)
    requires s != [] && !IsSpace(s[|s| - 1])
    ensures Strip(s) != [] && Strip(s)[|Strip(s)| - 1] == s[|s| - 1]
  {
    var l := TrimLeft(s);
    if l == [] {
      assert false;
    }
    assert l[|l| - 1] == s[|s| - 1];
    assert TrimRight(l) == l;
  }

  /** A piece that ends in a sentence terminator. */
  predicate Terminated(s: string)
  {
    s != [] && IsTerminator(s[|s| - 1])
  }

  /** What the splitter emits when a terminator closes the pending text `c`. */
  function Closed(c: string): seq<string>
  {
    if Strip(c) == [] then [] else [Strip(c)]
  }

  /** The splitter's output shape: stripped nonempty pieces, all but the last terminated. */
  predicate WellSplit(r: seq<string>)
  {
    (forall i :: 0 <= i < |r| ==> IsStrippedPiece(r[i]))
    && (forall i :: 0 <= i < |r| - 1 ==> Terminated(r[i]))
  }

  lemma SplitPiecesShapeClosed(c: string, rest: seq<string>)
    requires c != [] && IsTerminator(c[|c| - 1])
    requires WellSplit(rest)
    ensures WellSplit(Closed(c) + rest)
  {
    StripKeepsLast(c);
    var h := Strip(c);
    assert IsStrippedPiece(h) && Terminated(h);
    assert Closed(c) == [h];
    ConsWellSplit(h, rest);
  }

  /** A terminated stripped piece in front of a well-split list keeps it well split. */
  lemma ConsWellSplit(h: string, rest: seq<string>)
    requires IsStrippedPiece(h) && Terminated(h) && WellSplit(rest)
    ensures WellSplit([h] + rest)
  {
    var r := [h] + rest;
    forall i | 0 <= i < |r|
      ensures IsStrippedPiece(r[i]) && (i < |r| - 1 ==> Terminated(r[i]))
    {
      if i > 0 {
        assert r[i] == rest[i - 1];
      } else {
        assert r[i] == h;
      }
    }
  }

  lemma SplitFromEnd(cur: string)
    ensures WellSplit(SplitFrom([], cur))
  {
    var r := SplitFrom([], cur);
    assert r == Closed(cur);
    if r != [] {
      assert r[0] == Strip(cur);
    }
  }

  lemma SplitFromStep(text: string, cur: string)
    requires text != []
    ensures IsTerminator(text[0]) ==> SplitFrom(text, cur) == Closed(cur + [text[0]]) + SplitFrom(text[1..], [])
    ensures !IsTerminator(text[0]) ==> SplitFrom(text, cur) == SplitFrom(text[1..], cur + [text[0]])
  {
  }

  /**
   * Every piece is stripped and nonempty, and every piece but the last ends in
   * `.`, `!` or `?`.
   */
  lemma {:induction false} SplitPiecesShape(text: string, cur: string)
    ensures WellSplit(SplitFrom(text, cur))
    decreases |text|
  {
    if text == [] {
      SplitFromEnd(cur);
    } else {
      var c := cur + [text[0]];
      SplitFromStep(text, cur);
      if IsTerminator(text[0]) {
        SplitPiecesShape(text[1..], []);
        SplitPiecesShapeClosed(c, SplitFrom(text[1..], []));
      } else {
        SplitPiecesShape(text[1..], c);
      }
    }
  }

  lemma SplitKeepsNonSpaceClosed(c: string, rest: seq<string>, tail: string)
    requires NonSpace(Seqs.Flatten(rest)) == NonSpace(tail)
    ensures NonSpace(Seqs.Flatten(Closed(c) + rest)) == NonSpace(c + tail)
  {
    Seqs.FlattenAppend(Closed(c), rest);
    NonSpaceStrip(c);
    if Strip(c) == [] {
      assert Closed(c) + rest == rest;
      NonSpaceAppend(c, tail);
    } else {
      assert Seqs.Flatten([Strip(c)]) == Strip(c) + [];
      NonSpaceAppend(Strip(c), Seqs.Flatten(rest));
      NonSpaceAppend(c, tail);
    }
  }

  /** Splitting keeps every non-space character, in order: nothing is dropped or repeated. */
  lemma {:induction false} SplitKeepsNonSpace(text: string, cur: string)
    ensures NonSpace(Seqs.Flatten(SplitFrom(text, cur))) == NonSpace(cur + text)
    decreases |text|
  {
    if text == [] {
      assert cur + text == cur;
      assert SplitFrom(text, cur) == Closed(cur) + [];
      SplitKeepsNonSpaceClosed(cur, [], []);
      assert cur + [] == cur;
    } else {
      var c := cur + [text[0]];
      assert c + text[1..] == cur + text;
      if IsTerminator(text[0]) {
        SplitKeepsNonSpace(text[1..], []);
        assert [] + text[1..] == text[1..];
        assert SplitFrom(text, cur) == Closed(c) + SplitFrom(text[1..], []);
        SplitKeepsNonSpaceClosed(c, SplitFrom(text[1..], []), text[1..]);
      } else {
        SplitKeepsNonSpace(text[1..], c);
      }
    }
  }

  /** The number of `.`, `!` and `?` characters is the same before and after splitting. */
  lemma SplitKeepsTerminators(text: string, c: char)
    requires IsTerminator(c)
    ensures CountChar(Seqs.Flatten(SplitSentences(text)), c) == CountChar(text, c)
  {
    SplitKeepsNonSpace(text, []);
    assert [] + text == text;
    CountCharNonSpace(Seqs.Flatten(SplitSentences(text)), c);
    CountCharNonSpace(text, c);
  }

  // ---------------------------------------------------------------------------
  // Chunk packing
  // ---------------------------------------------------------------------------

  /**
   * The packing loop of `translate_with_mymemory` (auto_x_to_telegram_v2.py:403-424):
   * `cur` is the pending chunk, as the sentences it holds. A sentence joins it
   * while the joined length stays within the limit; otherwise the pending chunk
   * is emitted (unless its text is empty) and a new one starts.
   */
  function PackFrom(ss: seq<string>, cur: seq<string>): seq<seq<string>>
    decreases |ss|
  {
    if ss == [] then
      (if Seqs.Flatten(cur) == [] then [] else [cur])
    else if |Seqs.Flatten(cur) + ss[0]| <= ChunkLimit then
      PackFrom(ss[1..], cur + [ss[0]])
    else
      (if Seqs.Flatten(cur) == [] then [] else [cur]) + PackFrom(ss[1..], [ss[0]])
  }

  function ChunkTexts(groups: seq<seq<string>>): (r: seq<string>)
    ensures |r| == |groups|
    ensures forall i :: 0 <= i < |r| ==> r[i] == Seqs.Flatten(groups[i])
  {
    seq(|groups|, i requires 0 <= i < |groups| => Seqs.Flatten(groups[i]))
  }

  /** The requests MyMemory is sent for `text`. */
  function Requests(text: string): seq<string>
  {
    if |text| > ChunkLimit then ChunkTexts(PackFrom(SplitSentences(text), [])) else [text]
  }

  predicate NoEmptyString(ss: seq<string>)
  {
    forall i :: 0 <= i < |ss| ==> ss[i] != []
  }

  lemma {:induction false} FlattenEmpty(ss: seq<string>)
    requires NoEmptyString(ss)
    ensures Seqs.Flatten(ss) == [] <==> ss == []
  {
  }

  lemma FlattenSnoc(cur: seq<string>, s: string)
    ensures Seqs.Flatten(cur + [s]) == Seqs.Flatten(cur) + s
  {
    Seqs.FlattenAppend(cur, [s]);
    assert Seqs.Flatten([s]) == s + [];
  }

  /** The chunks are consecutive runs of the sentences: together they are the sentences in order. */
  lemma {:induction false} PackKeepsSentences(ss: seq<string>, cur: seq<string>)
    requires NoEmptyString(ss) && NoEmptyString(cur)
    ensures Seqs.Flatten(PackFrom(ss, cur)) == cur + ss
    decreases |ss|
  {
    FlattenEmpty(cur);
    if ss == [] {
      if cur != [] {
        assert Seqs.Flatten([cur]) == cur + [];
      }
    } else if |Seqs.Flatten(cur) + ss[0]| <= ChunkLimit {
      PackKeepsSentences(ss[1..], cur + [ss[0]]);
      assert cur + [ss[0]] + ss[1..] == cur + ss;
    } else {
      PackKeepsSentences(ss[1..], [ss[0]]);
      PackCloses(ss, cur);
    }
  }

  /** Closing the current chunk: it comes first, then the chunks that start with the next sentence. */
  lemma PackCloses(ss: seq<string>, cur: seq<string>)
    requires ss != [] && |Seqs.Flatten(cur) + ss[0]| > ChunkLimit
    requires NoEmptyString(cur) && Seqs.Flatten(PackFrom(ss[1..], [ss[0]])) == [ss[0]] + ss[1..]
    ensures Seqs.Flatten(PackFrom(ss, cur)) == cur + ss
  {
    var head := if Seqs.Flatten(cur) == [] then [] else [cur];
    var tail := PackFrom(ss[1..], [ss[0]]);
    assert PackFrom(ss, cur) == head + tail;
    Seqs.FlattenAppend(head, tail);
    assert Seqs.Flatten(head) == cur by {
      FlattenEmpty(cur);
      if cur != [] {
        assert Seqs.Flatten([cur]) == cur + [];
      }
    }
    assert [ss[0]] + ss[1..] == ss;
  }

  /** Every chunk is nonempty text, and exceeds the limit only when it is a single sentence. */
  predicate BoundedChunks(g: seq<seq<string>>)
  {
    forall i :: 0 <= i < |g| ==> Seqs.Flatten(g[i]) != [] && (|Seqs.Flatten(g[i])| <= ChunkLimit || |g[i]| == 1)
  }

  /** A chunk is nonempty, and it exceeds the limit only when it is one sentence on its own. */
  lemma {:induction false} PackChunkBounds(ss: seq<string>, cur: seq<string>)
    requires |Seqs.Flatten(cur)| <= ChunkLimit || |cur| == 1
    ensures BoundedChunks(PackFrom(ss, cur))
    decreases |ss|
  {
    if ss != [] {
      if |Seqs.Flatten(cur) + ss[0]| <= ChunkLimit {
        FlattenSnoc(cur, ss[0]);
        assert PackFrom(ss, cur) == PackFrom(ss[1..], cur + [ss[0]]);
        PackChunkBounds(ss[1..], cur + [ss[0]]);
      } else {
        assert Seqs.Flatten([ss[0]]) == ss[0] + [];
        PackChunkBounds(ss[1..], [ss[0]]);
        var head := if Seqs.Flatten(cur) == [] then [] else [cur];
        var rest := PackFrom(ss[1..], [ss[0]]);
        assert PackFrom(ss, cur) == head + rest;
        assert BoundedChunks(head) by {
          if head != [] {
            assert head[0] == cur;
          }
        }
        BoundedAppend(head, rest);
      }
    }
  }

  lemma BoundedAppend(a: seq<seq<string>>, b: seq<seq<string>>)
    requires BoundedChunks(a) && BoundedChunks(b)
    ensures BoundedChunks(a + b)
  {
    forall i | 0 <= i < |a + b|
      ensures Seqs.Flatten((a + b)[i]) != [] && (|Seqs.Flatten((a + b)[i])| <= ChunkLimit || |(a + b)[i]| == 1)
    {
      if i >= |a| {
        assert (a + b)[i] == b[i - |a|];
      } else {
        assert (a + b)[i] == a[i];
      }
    }
  }

  function FirstOr(g: seq<string>): string
  {
    if g == [] then [] else g[0]
  }

  /** Each chunk after the first opens with a sentence that did not fit into the chunk before it. */
  predicate Greedy(g: seq<seq<string>>)
  {
    forall i :: 0 <= i < |g| - 1 ==> |Seqs.Flatten(g[i])| + |FirstOr(g[i + 1])| > ChunkLimit
  }

  /** Greedy packing: the sentence that opens a chunk did not fit into the chunk before it. */
  lemma {:induction false} PackIsGreedy(ss: seq<string>, cur: seq<string>)
    requires NoEmptyString(ss) && NoEmptyString(cur)
    ensures Greedy(PackFrom(ss, cur))
    ensures cur != [] ==> PackFrom(ss, cur) != [] && cur <= PackFrom(ss, cur)[0]
    decreases |ss|
  {
    FlattenEmpty(cur);
    if ss != [] {
      if |Seqs.Flatten(cur) + ss[0]| <= ChunkLimit {
        PackIsGreedy(ss[1..], cur + [ss[0]]);
        assert cur <= cur + [ss[0]];
      } else {
        var rest := PackFrom(ss[1..], [ss[0]]);
        PackIsGreedy(ss[1..], [ss[0]]);
        if cur != [] {
          var g := PackFrom(ss, cur);
          assert g == [cur] + rest;
          forall i | 0 <= i < |g| - 1
            ensures |Seqs.Flatten(g[i])| + |FirstOr(g[i + 1])| > ChunkLimit
          {
            if i == 0 {
              assert g[1] == rest[0] && rest[0][0] == ss[0];
            } else {
              assert g[i] == rest[i - 1] && g[i + 1] == rest[i];
            }
          }
        }
      }
    }
  }

  /**
   * `translate_with_mymemory`'s requests: text within the limit goes out as one
   * request; longer text goes out as chunks that are runs of whole sentences,
   * each within the limit unless it is a single sentence, that keep every
   * non-space character of the text in order.
   */
  lemma RequestsShape(text: string)
    ensures |text| <= ChunkLimit ==> Requests(text) == [text]
    ensures |text| > ChunkLimit ==>
      var ss := SplitSentences(text);
      var g := PackFrom(ss, []);
      Requests(text) == ChunkTexts(g)
      && Seqs.Flatten(g) == ss
      && BoundedChunks(g) && Greedy(g)
      && NonSpace(Seqs.Flatten(Requests(text))) == NonSpace(text)
  {
    if |text| > ChunkLimit {
      var ss := SplitSentences(text);
      var g := PackFrom(ss, []);
      SplitPiecesShape(text, []);
      assert NoEmptyString(ss) by {
        forall i | 0 <= i < |ss|
          ensures ss[i] != []
        {
          assert IsStrippedPiece(ss[i]);
        }
      }
      PackKeepsSentences(ss, []);
      PackChunkBounds(ss, []);
      PackIsGreedy(ss, []);
      FlattenOfChunks(g);
      SplitKeepsNonSpace(text, []);
      assert [] + text == text;
    }
  }

  /** Joining the chunk texts is joining all their sentences. */
  lemma {:induction false} FlattenOfChunks(g: seq<seq<string>>)
    ensures Seqs.Flatten(ChunkTexts(g)) == Seqs.Flatten(Seqs.Flatten(g))
    decreases |g|
  {
    if g != [] {
      FlattenOfChunks(g[1..]);
      assert ChunkTexts(g) == [Seqs.Flatten(g[0])] + ChunkTexts(g[1..]);
      FlattenFlatten(g[0], Seqs.Flatten(g[1..]));
    }
  }

  lemma {:induction false} FlattenFlatten(a: seq<string>, b: seq<string>)
    ensures Seqs.Flatten(a + b) == Seqs.Flatten(a) + Seqs.Flatten(b)
  {
    Seqs.FlattenAppend(a, b);
  }

  // ---------------------------------------------------------------------------
  // MyMemory engine
  // ---------------------------------------------------------------------------

  /**
   * The chunk translations, empty ones left out (`if translated_part:`), or
   * `None` as soon as one chunk's request raises.
   */
  function ChunkTranslations(chunks: seq<string>, part: string -> Attempt): (r: Option<seq<string>>)
    ensures r.None? <==> exists i :: 0 <= i < |chunks| && part(chunks[i]).Raised?
    ensures r.Some? ==> NoEmptyString(r.value)
    ensures r.Some? ==> (r.value == [] <==> forall i :: 0 <= i < |chunks| ==> part(chunks[i]) == Returned([]))
  {
    if chunks == [] then Some([])
    else
      match part(chunks[0])
      case Raised => None
      case Returned(s) =>
        var rest := ChunkTranslations(chunks[1..], part);
        if rest.None? then
          assert exists i :: 0 <= i < |chunks[1..]| && part(chunks[1..][i]).Raised?;
          None
        else
          assert forall i :: 0 < i < |chunks| ==> chunks[i] == chunks[1..][i - 1];
          Some((if s == [] then [] else [s]) + rest.value)
  }

  /** `translate_with_mymemory` (auto_x_to_telegram_v2.py:397-433). */
  function MyMemory(text: string, part: string -> Attempt): Attempt
  {
    if |text| > ChunkLimit then
      match ChunkTranslations(Requests(text), part)
      case None => Raised
      case Some(outs) => if outs == [] then Raised else Returned(Seqs.Flatten(outs))
    else part(text)
  }

  /**
   * Long text raises exactly when some chunk's request raises or every chunk
   * comes back empty; short text fails exactly when its one request fails.
   */
  lemma MyMemoryRaises(text: string, part: string -> Attempt)
    ensures |text| <= ChunkLimit ==> (MyMemory(text, part).Raised? <==> part(text).Raised?)
    ensures |text| > ChunkLimit ==>
      var cs := Requests(text);
      MyMemory(text, part).Raised? <==>
        (exists i :: 0 <= i < |cs| && part(cs[i]).Raised?) || (forall i :: 0 <= i < |cs| ==> part(cs[i]) == Returned([]))
  {
  }

  // ---------------------------------------------------------------------------
  // The chain
  // ---------------------------------------------------------------------------

  /** What each engine does to `text`, in the order `translate` tries them. */
  function EngineAttempts(text: string, e: Engines): (r: seq<Attempt>)
    ensures |r| == 4
  {
    [Gpt(text, e.gptReply(text)), MyMemory(text, e.mymemoryPart), e.microsoft(text), e.deepl(text)]
  }

  /** `translate` (auto_x_to_telegram_v2.py:341-348). */
  function Translate(text: string, e: Engines): Option<string>
  {
    FirstSuccess(EngineAttempts(text, e))
  }

  /** Blank text never reaches an engine's network call: the GPT wrapper hands it back as it is. */
  lemma TranslateBlank(text: string, e: Engines)
    requires AllSpace(text)
    ensures Translate(text, e) == Some(text)
  {
  }

  lemma FirstOfFour(a: seq<Attempt>)
    requires |a| == 4
    ensures FirstSuccess(a).None? <==> a[0].Raised? && a[1].Raised? && a[2].Raised? && a[3].Raised?
  {
  }

  lemma TranslateNoneOfAttempts(text: string, e: Engines)
    ensures var a := EngineAttempts(text, e);
      Translate(text, e).None? <==> a[0].Raised? && a[1].Raised? && a[2].Raised? && a[3].Raised?
  {
    FirstOfFour(EngineAttempts(text, e));
  }

  lemma AttemptsRaised(text: string, e: Engines)
    ensures var a := EngineAttempts(text, e);
      (a[0].Raised? && a[1].Raised? && a[2].Raised? && a[3].Raised?) <==>
      !AllSpace(text) && e.gptReply(text).Raised? && MyMemory(text, e.mymemoryPart).Raised?
      && e.microsoft(text).Raised? && e.deepl(text).Raised?
  {
    AttemptsAre(text, e);
  }

  /** `translate` gives `None` exactly when all four engines raise. */
  lemma TranslateNone(text: string, e: Engines)
    ensures Translate(text, e).None? <==>
      !AllSpace(text) && e.gptReply(text).Raised? && MyMemory(text, e.mymemoryPart).Raised?
      && e.microsoft(text).Raised? && e.deepl(text).Raised?
  {
    TranslateNoneOfAttempts(text, e);
    AttemptsRaised(text, e);
  }

  lemma AttemptsAre(text: string, e: Engines)
    ensures var a := EngineAttempts(text, e);
      a[0] == Gpt(text, e.gptReply(text)) && a[1] == MyMemory(text, e.mymemoryPart)
      && a[2] == e.microsoft(text) && a[3] == e.deepl(text)
  {
    FirstAttempt(text, e);
    SecondAttempt(text, e);
    ThirdAttempt(text, e);
    FourthAttempt(text, e);
  }

  lemma FirstAttempt(text: string, e: Engines)
    ensures EngineAttempts(text, e)[0] == Gpt(text, e.gptReply(text))
  {
  }

  lemma SecondAttempt(text: string, e: Engines)
    ensures EngineAttempts(text, e)[1] == MyMemory(text, e.mymemoryPart)
  {
  }

  lemma ThirdAttempt(text: string, e: Engines)
    ensures EngineAttempts(text, e)[2] == e.microsoft(text)
  {
  }

  lemma FourthAttempt(text: string, e: Engines)
    ensures EngineAttempts(text, e)[3] == e.deepl(text)
  {
  }

  lemma GptRaises(text: string, reply: Attempt)
    requires !AllSpace(text) && reply.Raised?
    ensures Gpt(text, reply).Raised?
  {
  }

  lemma SecondReturns(a: seq<Attempt>)
    requires |a| == 4 && a[0].Raised? && a[1].Returned?
    ensures FirstSuccess(a) == Some(a[1].text)
  {
    FirstSuccessIsFirstReturned(a, 1);
  }

  /** The MyMemory result is used exactly when GPT raised and MyMemory did not. */
  lemma TranslateFallsBackToMyMemory(text: string, e: Engines)
    requires !AllSpace(text) && e.gptReply(text).Raised? && MyMemory(text, e.mymemoryPart).Returned?
    ensures Translate(text, e) == Some(MyMemory(text, e.mymemoryPart).text)
  {
    var a := EngineAttempts(text, e);
    AttemptsAre(text, e);
    GptRaises(text, e.gptReply(text));
    SecondReturns(a);
  }

  // ---------------------------------------------------------------------------
  // The masking pipeline
  // ---------------------------------------------------------------------------

  /**
   * What `translate_preserving_emojis_and_urls` produces: a restored translation;
   * `None` when every engine failed and there was nothing to restore; or the
   * exception a restorer raises, a `TypeError` when handed `None` with
   * placeholders to restore or an `re.error` when a URL's replacement does not
   * compile.
   */
  datatype Outcome = Translated(text: string) | Unavailable | Crashed

  /** Translating the masked text `p.text` and restoring its placeholders. */
  function Finish(p: Masking.Protected, e: Engines): (r: Outcome)
    ensures r == Unavailable <==> Translate(p.text, e).None? && p.emojis == [] && p.urls == []
    ensures r.Translated? ==> Translate(p.text, e).Some? && Masking.Unprotect(Translate(p.text, e).value, p) == Some(r.text)
  {
    match Translate(p.text, e)
    case Some(s) =>
      (match Masking.Unprotect(s, p)
       case None => Crashed
       case Some(text) => Translated(text))
    case None => if p.emojis == [] && p.urls == [] then Unavailable else Crashed
  }

  /** `translate_preserving_emojis_and_urls` (auto_x_to_telegram_v2.py:350-361): emoji runs masked first, then URLs. */
  function TranslatePreserving(original: string, e: Engines): (r: Outcome)
    ensures r == Unavailable ==> !Masking.HasSpan(Masking.Emoji, original) && !Masking.HasSpan(Masking.Url, original)
  {
    MaskingProofs.ProtectFindsNothing(original);
    Finish(Masking.ProtectAsWritten(original), e)
  }

  /** The pipeline with URLs masked before emoji runs, the order under which every emoji survives. */
  function TranslatePreservingCorrected(original: string, e: Engines): (r: Outcome)
    ensures r == Unavailable ==> !Masking.HasSpan(Masking.Emoji, original) && !Masking.HasSpan(Masking.Url, original)
  {
    MaskingProofs.ProtectFindsNothing(original);
    Finish(Masking.Protect(original), e)
  }

  /**
   * When every engine fails, the pipeline crashes exactly when the original
   * text holds an emoji character or a URL (there is a placeholder to
   * restore), and otherwise reports no translation. It reports no
   * translation only then.
   */
  lemma TranslatePreservingFailure(original: string, e: Engines)
    ensures Translate(Masking.ProtectAsWritten(original).text, e).None? ==>
      TranslatePreserving(original, e) ==
        if Masking.HasSpan(Masking.Emoji, original) || Masking.HasSpan(Masking.Url, original) then Crashed else Unavailable
    ensures TranslatePreserving(original, e) == Unavailable <==>
      Translate(original, e).None? && !Masking.HasSpan(Masking.Emoji, original) && !Masking.HasSpan(Masking.Url, original)
  {
    MaskingProofs.ProtectFindsNothing(original);
  }

  /** The same failure behaviour holds for the corrected order. */
  lemma TranslatePreservingCorrectedFailure(original: string, e: Engines)
    ensures Translate(Masking.Protect(original).text, e).None? ==>
      TranslatePreservingCorrected(original, e) ==
        if Masking.HasSpan(Masking.Emoji, original) || Masking.HasSpan(Masking.Url, original) then Crashed else Unavailable
    ensures TranslatePreservingCorrected(original, e) == Unavailable <==>
      Translate(original, e).None? && !Masking.HasSpan(Masking.Emoji, original) && !Masking.HasSpan(Masking.Url, original)
  {
    MaskingProofs.ProtectFindsNothing(original);
  }

  /**
   * With URLs masked first, an engine that hands the masked text back
   * unchanged yields the original text with each URL padded by spaces, every
   * other character in place, as long as no URL holds a backslash.
   */
  lemma TranslatePreservingCorrectedIdentity(original: string, e: Engines)
    requires NoOccurrence(Masking.TagPrefix(Masking.Emoji), original)
    requires NoOccurrence(Masking.TagPrefix(Masking.Url), original)
    ensures var p := Masking.Protect(original);
      Translate(p.text, e) == Some(p.text) && Masking.Escapeless(p.urls) ==>
        TranslatePreservingCorrected(original, e) == Translated(Masking.Unmasked(Masking.Url, original))
        && NonSpace(TranslatePreservingCorrected(original, e).text) == NonSpace(original)
  {
    MaskingProofs.ProtectRoundTrip(original);
  }

  /**
   * As written, the pipeline with an engine that hands the masked text back
   * unchanged gives the same result as the corrected order on text without an
   * emoji character: the URLs padded by spaces, every other character in place.
   */
  lemma TranslatePreservingIdentity(original: string, e: Engines)
    requires NoOccurrence(Masking.TagPrefix(Masking.Emoji), original)
    requires NoOccurrence(Masking.TagPrefix(Masking.Url), original)
    ensures var p := Masking.ProtectAsWritten(original);
      Translate(p.text, e) == Some(p.text) && Masking.Escapeless(p.urls) && !Masking.HasSpan(Masking.Emoji, original) ==>
        TranslatePreserving(original, e) == Translated(Masking.Unmasked(Masking.Url, original))
        && NonSpace(TranslatePreserving(original, e).text) == NonSpace(original)
  {
    MaskingProofs.ProtectOrdersAgree(original);
    MaskingProofs.ProtectRoundTrip(original);
  }

  /**
   * As written, an emoji right after `http://` is lost even by an engine that
   * changes nothing: the URL swallows the emoji's placeholder.
   */
  lemma TranslatePreservingLosesEmoji(original: string, e: Engines)
    requires original == "http://\U{1F600}"
    ensures var p := Masking.ProtectAsWritten(original);
      Translate(p.text, e) == Some(p.text) ==> TranslatePreserving(original, e) == Translated(" http://[EMOJI_0 ]")
  {
    MaskingProofs.AsWrittenLosesEmoji(original);
  }
}

=== FILE: wrappers.dfy ===
/** Failure-carrying wrappers shared by every module of the model. */
module Wrappers {

  /** A value that may be absent (Python's `None`). */
  datatype Option<+T> = None | Some(value: T)

  /** A computation that either produced a value or raised. */
  datatype Result<+T, +E> = Success(value: T) | Failure(error: E)
}
